=== FILE: README.md ===
# Burrito wrapper core, modelled in Dafny

Burrito packs an Elixir release into one self-extracting executable. That
executable is the Rust `wrapper`. This project models the parts of it that
are pure logic and proves properties of them:

- **FOILZ.** The archive format that `binrw` derives for `FoilzFileRecord`
  and `FoilzPayload`: the magic `FOILZ`, a big-endian u32 count, then the
  records. Each record is a NUL-terminated path, a u64 size, the data and a
  u32 mode. The model has an encoder and a length-driven decoder (`Foilz`).
  It also has the build-time packer, `pack_directory` and
  `create_file_record`, over the entries a directory walk yields
  (`Archiver`).
- **Install layout.** `calculate_install_dir` and the paths below the
  install root: the cookie, `lib/`, `vm.args`, `sys.config`, the boot
  script, the erts `bin` directory and the `erl` binary (`ReleaseLayout`).
- **Launcher.** `launch_app` builds the `erl` command line and environment.
  On Unix it ends in `exec`; on Windows it spawns a child, waits for it and
  exits with the child's code; on any other target it fails (`Launcher`).
- **Logging macros.** The `log!`/`info!`/… proc macros rewrite a literal
  such as `"<path>{}</>"` into one `render_style` binding per style tag and
  a `format!` call with named placeholders (`ProcMacros`). The rewrite
  rests on the format-literal grammar (`FormatLiteralParser`,
  `PrimitiveParsers`) and on the `format!` placeholder parser
  (`TemplateParser`).
- **Console.** The `NoIO`/`StandardIO` console: its loading flag, the y/N
  question and the style escape table (`Console`).

The operating system's answers enter as parameters, never as effects:

- the walk's entries, with their metadata modes and contents;
- the environment and the platform data directory;
- the cookie file's content;
- what `exec`, `spawn` and `wait` return;
- the line read from standard input.

`Host` holds the platform and OS-string types. `Errors` holds the error
enums. `Bytes` holds the big-endian integer and UTF-8 encodings. `Texts`
holds prefix and occurrence on strings. `LiteralText` gives the reading of
escapes that the corrected rewrite uses.

Every parser is paired with a printer. For each one the model proves that a
well-formed value printed and then parsed gives back the same value and the
text after it. This holds for FOILZ, the snake-case label, the digits and
the format literal. It also holds for the `format!` placeholder when every
alignment carries a fill, the only alignment `parse_align` reads (see
Findings).

The model follows the code where a reader might expect otherwise:

- A `<name>_INSTALL_PATH` override does not replace the install root.
  `.burrito/<name>_erts-<erts>_<app>` is still pushed onto it
  (release.rs:139-142; `ReleaseLayout.OverrideKeepsSuffix`).
- `errors.rs` does not define the `ReleaseError` that release.rs imports.
  Its `LauncherError::EncodingError` has no field, yet `buf_to_string`
  builds it with the path's name. The model follows the uses:
  - `EncodingError(name)`;
  - a `ReleaseError` with the three variants release.rs names;
  - a failed cookie read in `launch_app` reported as
    `LauncherError.CookieReadError`;
  - a failed `spawn()?` or `wait()?` (erlang_launcher.rs:76-77) reported
    as `ErlangError(e)`. The `?` needs a conversion from `io::Error`, and
    no `LauncherError` variant declares one (errors.rs:51-60).
- The placeholder parser reads an alignment as `parse_align` does
  (template_parser.rs:274-279): only with a fill. So `{:<5}` has no
  alignment and no width, and `<5` is its type
  (`TemplateParser.AlignWithoutFillLost`). `ParseFormatSpec`,
  `ParseSpecChunk` and `ParseTemplate` all use this reading. The corrected
  reading is the separate `TemplateParser.ParseFormatSpecCorrected`.
- The FOILZ decoder ignores bytes after the last record, as binrw's derived
  reader does.

## Model

| member | source | states |
|---|---|---|
| Bytes.U32BE | wrapper/src/archiver.rs:12 | a u32 field is written as exactly four bytes |
| Bytes.U64BE | wrapper/src/archiver.rs:9 | a u64 field is written as exactly eight bytes |
| Bytes.ReadU32 | wrapper/src/archiver.rs:18 | the u32 read from four bytes is the one whose big-endian encoding they are |
| Bytes.ReadU64 | wrapper/src/archiver.rs:9 | the u64 read from eight bytes is the one whose big-endian encoding they are |
| Bytes.U32RoundTrip | wrapper/src/archiver.rs:64-68 | reading back a written u32 gives the same number |
| Bytes.U64RoundTrip | wrapper/src/archiver.rs:64-68 | reading back a written u64 gives the same number |
| Bytes.Utf8Char | wrapper/src/archiver.rs:87 | one character's UTF-8 encoding takes one to four bytes and contains a zero byte only for NUL |
| Bytes.Utf8Encode | wrapper/src/archiver.rs:87 | a stored path's bytes contain a zero byte exactly when the path contains NUL |
| Foilz.EncodePayload | wrapper/src/archiver.rs:15-21 | a payload starts with the magic `FOILZ`, then its count as a big-endian u32 |
| Foilz.IndexOfNul | wrapper/src/archiver.rs:8 | the position of the first NUL byte, or the length when there is none |
| Foilz.ReadNullString | wrapper/src/archiver.rs:8 | a NullString read succeeds exactly when a NUL follows; it returns the bytes before the first NUL and the rest after it |
| Foilz.ReadFields | wrapper/src/archiver.rs:9-12 | the size, exactly `size` data bytes and the mode are read in order; their encoding is a prefix of the input |
| Foilz.FieldsRoundTrip | wrapper/src/archiver.rs:9-12 | a size, that many data bytes and a mode, written and read back, come back unchanged with the rest left over |
| Foilz.ReadRecord | wrapper/src/archiver.rs:6-13 | a record read succeeds only on the encoding of a valid record followed by the rest |
| Foilz.ReadRecords | wrapper/src/archiver.rs:19-20 | reading `count` records yields exactly `count` valid records whose encodings make up the consumed bytes |
| Foilz.DecodePayload | wrapper/src/archiver.rs:15-21 | a successful decode is a valid payload whose encoding is a prefix of the input; a wrong magic fails with BadMagic |
| Foilz.RecordRoundTrip | wrapper/src/archiver.rs:6-13 | a valid record written and then read comes back unchanged, with the following bytes left over |
| Foilz.RecordsRoundTrip | wrapper/src/archiver.rs:19-20 | a sequence of valid records written and then read by count comes back unchanged |
| Foilz.PayloadRoundTrip | wrapper/src/archiver.rs:15-21 | a valid payload written and then decoded comes back unchanged, followed by any trailing bytes |
| Foilz.DecodeCharacterisation | wrapper/src/archiver.rs:15-21 | a decode gives (p, rest) exactly when p is valid and the input is p's encoding followed by rest |
| Foilz.EncodingUnique | wrapper/src/archiver.rs:15-21 | two valid payloads whose encodings agree, with what follows them, are the same payload |
| Foilz.TruncatedPayloadFails | wrapper/src/archiver.rs:15-21 | every proper prefix of a valid payload's encoding fails to decode |
| Foilz.EmptyPayloadBytes | wrapper/src/archiver.rs:58-62 | an empty directory packs to `FOILZ` and four zero bytes, which decode to the empty payload |
| Archiver.DeleteAll | wrapper/src/archiver.rs:84 | `replace(top, "")` never lengthens the text and adds no character |
| Archiver.DeleteFirst | wrapper/src/archiver.rs:85 | `replacen("/", "", 1)` removes exactly one character when there is a `/`, and otherwise changes nothing |
| Archiver.DeleteAllWithoutOccurrence | wrapper/src/archiver.rs:84 | removing a pattern that does not occur leaves the text unchanged |
| Archiver.RelativePathOfChild | wrapper/src/archiver.rs:83-85 | `top/rel` is stored as `rel` when the top path does not occur again in `/rel` |
| Archiver.RelativePathRepeatedTop | wrapper/src/archiver.rs:83-85 | every later occurrence of the top path is removed too: `/a/a/x` under `/a` is stored as `x` |
| Archiver.RelativePathTrailingSlash | wrapper/src/archiver.rs:83-85 | with a top path that ends in `/`, the first separator of the rest is dropped: `dir/a/b` under `dir/` becomes `ab` |
| Archiver.CreateFileRecord | wrapper/src/archiver.rs:73-95 | a record exists exactly when both file-system calls succeed and both paths are Unicode; it stores the walked path made relative to the top path, as UTF-8, and holds the content, mode 0 on Windows and the permission mode on Unix; it is valid for realistic entries |
| Archiver.ChildRecordPath | wrapper/src/archiver.rs:83-85 | a walked file `top/rel` is stored under `rel` when the top path does not occur again in `/rel` |
| Archiver.EntryRecords | wrapper/src/archiver.rs:40-55 | an entry gives one record exactly when it is a file and its record can be made, and none otherwise |
| Archiver.CollectRecordsAtMostEntries | wrapper/src/archiver.rs:38-56 | the walk yields at most one record per entry |
| Archiver.CollectRecordsAppend | wrapper/src/archiver.rs:38-56 | collecting a concatenated walk gives the first part's records followed by the second part's |
| Archiver.CollectRecordsKeepsEveryFile | wrapper/src/archiver.rs:38-56 | when every entry is a readable file with a Unicode path, each entry gives one record, in walk order, with its content and its path relative to the top path |
| Archiver.PackDirectory | wrapper/src/archiver.rs:59-68 | the packed bytes start with the magic, then the record count modulo 2^32 |
| Archiver.CollectedRecordsValid | wrapper/src/archiver.rs:73-95 | every collected record of a realistic walk has a NUL-free path and a size equal to its data length |
| Archiver.PackThenDecode | wrapper/src/archiver.rs:35-69 | decoding a packed directory gives back exactly the collected records, their number as the count, and no leftover bytes |
| ReleaseLayout.Join | wrapper/src/release.rs:12-19 | `build_path!` keeps the base and appends the one formatted piece |
| ReleaseLayout.PushText | wrapper/src/release.rs:141-142 | an absolute piece replaces the path; otherwise exactly one `/` separates the path from the piece |
| ReleaseLayout.RenderJoin | wrapper/src/release.rs:12-19 | a joined path renders exactly when its root does, and renders as `root/rel` |
| ReleaseLayout.RenderCharacterisation | wrapper/src/release.rs:139-142 | a path renders exactly when its base is Unicode or some pushed piece is absolute, since `push` lets an absolute piece replace the non-Unicode buffer |
| ReleaseLayout.CalculateInstallDir | wrapper/src/release.rs:113-144 | it fails only when the override is not usable and there is no data directory; the base is the override when there is one and the data directory otherwise; `.burrito` and the version directory are always pushed |
| ReleaseLayout.InstallDirText | wrapper/src/release.rs:118-143 | the root renders as `base/.burrito/<name>_erts-<erts>_<app>`, and as a directory text when the app version has no trailing `/` |
| ReleaseLayout.AbsoluteReleaseName | wrapper/src/release.rs:120-143 | with an absolute release name the install root renders as the version directory alone, whatever base it was pushed onto |
| ReleaseLayout.DefaultInstallDir | wrapper/src/release.rs:136-143 | without a usable override the root is `<data dir>/.burrito/<suffix>` |
| ReleaseLayout.OverrideKeepsSuffix | wrapper/src/release.rs:125-143 | with an override the root is `<override>/.burrito/<suffix>`, whatever the data directory |
| ReleaseLayout.ReleaseSuffixInjective | wrapper/src/release.rs:120-123 | for one release name and erts versions without `_`, the version directory determines both versions |
| ReleaseLayout.ReleaseSuffixCollision | wrapper/src/release.rs:120-123 | with an `_` in the erts version, two different version pairs share one directory |
| ReleaseLayout.CookiePath | wrapper/src/release.rs:37-39 | the cookie is `releases/COOKIE` below the root |
| ReleaseLayout.LibPath | wrapper/src/release.rs:41-43 | the library directory is `lib/` below the root |
| ReleaseLayout.InstallVmArgsPath | wrapper/src/release.rs:45-51 | vm.args is `releases/<app>/vm.args` below the root |
| ReleaseLayout.ConfigSysPath | wrapper/src/release.rs:53-59 | the system config is `releases/<app>/sys.config` below the root |
| ReleaseLayout.ConfigSysPathNoExt | wrapper/src/release.rs:61-67 | its stem is `releases/<app>/sys` below the root |
| ReleaseLayout.BootPath | wrapper/src/release.rs:69-75 | the boot script is `releases/<app>/start` below the root |
| ReleaseLayout.ErtsBinPath | wrapper/src/release.rs:77-83 | the runtime binaries are in `erts-<erts>/bin` below the root |
| ReleaseLayout.ErlBinPath | wrapper/src/release.rs:85-100 | the entry executable is `erts-<erts>/bin/erl.exe` on Windows and `erts-<erts>/bin/erlexec` elsewhere |
| ReleaseLayout.Load | wrapper/src/release.rs:27-35 | corrupted metadata fails first with CorruptedMetadataError; otherwise it succeeds exactly when the install root can be computed, and keeps the metadata |
| ReleaseLayout.LoadCookieFile | wrapper/src/release.rs:102-106 | the cookie is the text read, and a failed read is a cookie read error |
| Launcher.BufToString | wrapper/src/erlang_launcher.rs:85-89 | a path converts exactly when its base is Unicode or an absolute piece has replaced it, to its rendering; otherwise it is an EncodingError carrying the name it was given |
| Launcher.CommandOf | wrapper/src/erlang_launcher.rs:29-59 | the command has the fifteen runtime arguments, then `-extra`, then the application's arguments unchanged at the end |
| Launcher.BuildCommand | wrapper/src/erlang_launcher.rs:17-59 | it succeeds exactly when the root renders (a Unicode base, or an absolute piece pushed over it) and the cookie was read; a root that does not render fails as the erl bin path's encoding error, before the cookie is read; the program is the rendered erl binary path |
| Launcher.LaunchApp | wrapper/src/erlang_launcher.rs:17-83 | a build error is returned as it is; once the command is built, on Unix a successful exec replaces the process with it and a returned exec error is an ErlangError; on Windows the wrapper exits with the child's code, aborts when the child has none, and a spawn or wait error is an ErlangError; UnsupportedPlatformError is returned exactly on other targets once the build succeeds |
| Launcher.AbsoluteReleaseNameBuilds | wrapper/src/erlang_launcher.rs:18-26 | with an absolute release name and a readable cookie, the command is built even over a non-Unicode data directory |
| Launcher.BuildCommandShape | wrapper/src/erlang_launcher.rs:18-59 | a successful build is the command over the rendered layout paths and the cookie |
| Launcher.CommandArgsLayout | wrapper/src/erlang_launcher.rs:30-45 | the argument order: four fixed flags, `-setcookie` and the cookie, `-boot` and the boot path, `-boot_var RELEASE_LIB` and the lib path, `-args_file` and vm.args, `-config` and sys.config, then `-extra` |
| Launcher.CommandOfFlags | wrapper/src/erlang_launcher.rs:35-45 | each flag's value is read back as the argument that follows it, when no path can be taken for a flag and the cookie is not a flag word |
| Launcher.CommandFlags | wrapper/src/erlang_launcher.rs:18-45 | on success the runtime gets the cookie read, the boot path, RELEASE_LIB bound to the lib path, the vm.args file and the sys.config file of the install layout |
| Launcher.ExtraArgumentsReachApp | wrapper/src/erlang_launcher.rs:59 | everything after the first `-extra` is exactly the application's arguments, unless the cookie itself reads `-extra` |
| Launcher.CommandEnvLayout | wrapper/src/erlang_launcher.rs:47-57 | the assignments in order: RELEASE_ROOT and RELEASE_SYS_CONFIG, then ROOTDIR, BINDIR, EMU and PROGNAME only off Windows |
| Launcher.CommandOfEnvironment | wrapper/src/erlang_launcher.rs:47-57 | the value the command assigns to each variable, with the last assignment winning; variables it does not assign are inherited from the wrapper |
| Launcher.CommandEnvironment | wrapper/src/erlang_launcher.rs:24-57 | the child sees the install root, the sys config stem and, off Windows, the root again, the erts bin directory, `beam` and `erl` |
| Console.New | wrapper/src/console.rs:142-151 | a new console is not loading and takes its colour from the configuration |
| Console.Apply | wrapper/src/console.rs:161-175 | `loading` sets the flag of a StandardIO and `done` clears it; logging leaves the console unchanged; NoIO stays NoIO and the colour never changes |
| Console.RunAppend | wrapper/src/console.rs:161-175 | running calls and then one more is applying that call to the console the calls left |
| Console.LoadingFollowsLastToggle | wrapper/src/console.rs:161-175 | after any calls a StandardIO is loading exactly when the last `loading`/`done` call was `loading`, or, with neither, when it was loading before; NoIO never is |
| Console.ReadLine | wrapper/src/console.rs:155-159 | StandardIO returns the line read; NoIO returns the empty string |
| Console.Confirm | wrapper/src/console.rs:60-69 | the answer is yes exactly for a StandardIO line `y` or `Y` followed by a newline |
| Console.NoIODeclines | wrapper/src/console.rs:79-81 | without a terminal every question is answered no |
| Console.RenderStyle | wrapper/src/console.rs:212-228 | a style renders to something exactly when the console has colour and the name is one of the seven known names; what it renders is an ANSI SGR sequence |
| Console.StyleCodes | wrapper/src/console.rs:217-226 | the SGR parameters of each known style: clear all, default background, default foreground, red, bold blue, cyan, yellow |
| Console.DefaultIsPlain | wrapper/src/console.rs:140 | the default configuration renders no style |
| PrimitiveParsers.IsHexChar | wrapper/src/proc_macros/format_literal_parser/primitive_parsers.rs:7-9 | exactly the ASCII hexadecimal digits |
| PrimitiveParsers.IsSnakeCaseChar | wrapper/src/proc_macros/format_literal_parser/primitive_parsers.rs:11-15 | exactly the ASCII letters, digits and `_` |
| PrimitiveParsers.IsSnakeCaseBeginningChar | wrapper/src/proc_macros/format_literal_parser/primitive_parsers.rs:17-21 | exactly the ASCII letters and `_`, each also a snake-case character |
| PrimitiveParsers.LatinLetterRejected | wrapper/src/proc_macros/format_literal_parser/primitive_parsers.rs:7-21 | a letter outside ASCII that fits in a byte, such as `é`, is neither kind of label character |
| PrimitiveParsers.SnakeSpan | wrapper/src/proc_macros/format_literal_parser/primitive_parsers.rs:27 | the longest run of snake-case characters at the front |
| PrimitiveParsers.ParseSnakeCaseLabel | wrapper/src/proc_macros/format_literal_parser/primitive_parsers.rs:23-31 | a label is read exactly when a beginning character is followed by a snake-case character; the label is the longest such run and the rest cannot continue it |
| PrimitiveParsers.LabelRoundTrip | wrapper/src/proc_macros/format_literal_parser/primitive_parsers.rs:23-31 | a label followed by text that cannot continue it is read back as itself |
| PrimitiveParsers.DigitSpan | wrapper/src/proc_macros/format_literal_parser/template_parser.rs:11 | the longest run of ASCII digits at the front |
| PrimitiveParsers.ParseDigits | wrapper/src/proc_macros/format_literal_parser/template_parser.rs:11 | digits are read exactly when the text starts with one, and the read is the longest run |
| PrimitiveParsers.DigitsRoundTrip | wrapper/src/proc_macros/format_literal_parser/template_parser.rs:11 | digits followed by a non-digit are read back exactly |
| FormatLiteralParser.IdentifierWrapsLiteral | wrapper/src/proc_macros/format_literal_parser.rs:34-51 | a tag's identifier is its style name wrapped in `__macro_style_` and `__` |
| FormatLiteralParser.StyleLiteralKind | wrapper/src/proc_macros/format_literal_parser.rs:44-51 | named tags render as `custom_…` and clearing tags as `clear_…` |
| FormatLiteralParser.StyleLiteralInjective | wrapper/src/proc_macros/format_literal_parser.rs:44-51 | different tags have different style names |
| FormatLiteralParser.IdentifierInjective | wrapper/src/proc_macros/format_literal_parser.rs:35-42 | different tags have different identifiers |
| FormatLiteralParser.ParseSingleEscape | wrapper/src/proc_macros/format_literal_parser.rs:114-128 | a single escape yields an escape segment; it panics only on `'` |
| FormatLiteralParser.ParseAsciiEscape | wrapper/src/proc_macros/format_literal_parser.rs:131-136 | `x` and two hexadecimal digits yield an escape segment storing them |
| FormatLiteralParser.ParseUnicodeEscape | wrapper/src/proc_macros/format_literal_parser.rs:139-147 | `u{` with one to six hexadecimal digits and `}` yields an escape segment storing them |
| FormatLiteralParser.ParseColorTagEscape | wrapper/src/proc_macros/format_literal_parser.rs:150-154 | an escaped `<` is the text `<` |
| FormatLiteralParser.ParseBackslashEscape | wrapper/src/proc_macros/format_literal_parser.rs:157-167 | a backslash escape never yields a tag; it panics only on `\'` |
| FormatLiteralParser.ParseColorType | wrapper/src/proc_macros/format_literal_parser.rs:178-183 | a tag body reads back as a well-formed tag and the text after it |
| FormatLiteralParser.ParseColorTagSegment | wrapper/src/proc_macros/format_literal_parser.rs:177-188 | a tag segment is a well-formed style segment |
| FormatLiteralParser.ParseSegment | wrapper/src/proc_macros/format_literal_parser.rs:192-196 | a segment read is well formed and prints back to the consumed text; reading fails only on empty text or at `"`, `<` or `\`, and panics only at `\'` |
| FormatLiteralParser.ParseSegments | wrapper/src/proc_macros/format_literal_parser.rs:192-196 | `many0` never fails; what it reads is well formed and prints back to the consumed text |
| FormatLiteralParser.ParseFormatLiteral | wrapper/src/proc_macros/format_literal_parser.rs:191-209 | an accepted input is a quoted well-formed literal printing back to the input; every failure is InvalidEscape |
| FormatLiteralParser.SegmentRoundTrip | wrapper/src/proc_macros/format_literal_parser.rs:192-196 | a well-formed segment printed and read back gives itself and the following text |
| FormatLiteralParser.SegmentsRoundTrip | wrapper/src/proc_macros/format_literal_parser.rs:192-196 | a well-formed segment sequence printed and read back gives itself, stopping at the closing quote |
| FormatLiteralParser.ParseCharacterisation | wrapper/src/proc_macros/format_literal_parser.rs:191-209 | an input is accepted as a literal exactly when it is the quoted printing of that well-formed literal |
| FormatLiteralParser.QuotedSourceAccepted | wrapper/src/proc_macros/format_literal_parser.rs:191-209 | every well-formed literal, quoted, is accepted as itself |
| FormatLiteralParser.SingleQuoteEscapePanics | wrapper/src/proc_macros/format_literal_parser.rs:123 | any literal that reaches `\'` panics instead of returning an error |
| FormatLiteralParser.ClearingTagsUnreachable | wrapper/src/proc_macros/format_literal_parser.rs:178-181 | no accepted literal contains the foreground or background clearing tag |
| FormatLiteralParser.DoubleSlashTagRejected | wrapper/src/proc_macros/format_literal_parser.rs:178-181 | `<//>` and `<///>` are rejected, because `/` is tried first and the `>` then fails |
| FormatLiteralParser.OneLetterTagRejected | wrapper/src/proc_macros/format_literal_parser.rs:182 | a one-letter tag such as `<b>` is rejected |
| FormatLiteralParser.StyleTags | wrapper/src/proc_macros/format_literal_parser.rs:81-90 | the tags, at most one per segment |
| FormatLiteralParser.StyleTagsAppend | wrapper/src/proc_macros/format_literal_parser.rs:81-90 | the tags of concatenated segments are the first part's tags followed by the second part's |
| FormatLiteralParser.OneSegment | wrapper/src/proc_macros/format_literal_parser.rs:81-105 | a style segment contributes exactly its tag and any other segment none; a single segment displays as itself |
| FormatLiteralParser.DisplayAppend | wrapper/src/proc_macros/format_literal_parser.rs:93-105 | the display of concatenated segments is the first part's display followed by the second part's |
| FormatLiteralParser.DisplayedSource | wrapper/src/proc_macros/format_literal_parser.rs:67-75 | compared with the literal it was read from, text displays as spelled, an escaped `<` and a hex escape display without the backslash, and a one-letter escape displays as one character |
| FormatLiteralParser.StyleTagsHavePlaceholders | wrapper/src/proc_macros/format_literal_parser.rs:67-105 | a tag is listed exactly when its segment occurs, and the display contains `{identifier}` for each listed tag |
| FormatLiteralParser.HexEscapeDisplaysDigits | wrapper/src/proc_macros/format_literal_parser.rs:67-75 | `"\x41"` is accepted, and its display as written is the three characters `x41` |
| LiteralText.HexDigitValue | wrapper/src/proc_macros/format_literal_parser.rs:133 | a hexadecimal digit's value is below 16 |
| LiteralText.Join | wrapper/src/proc_macros/format_literal_parser.rs:93-105 | two readings join exactly when both exist, by concatenation |
| LiteralText.EscapeMeaning | wrapper/src/proc_macros/format_literal_parser.rs:113-147 | an escape stands for exactly one character, when it stands for one; a single escape stands for the character it stores |
| LiteralText.CookedDisplay | wrapper/src/proc_macros/format_literal_parser.rs:93-105 | the corrected display exists exactly when every segment has a reading |
| LiteralText.IndexOf | wrapper/src/proc_macros/format_literal_parser.rs:143 | the first position at or after `from` that holds the character, or the length |
| LiteralText.CookedIsUnescaped | wrapper/src/proc_macros/format_literal_parser.rs:113-174 | for tag-free literals the corrected display equals the independent unescaping of the source text, invalid escapes included |
| LiteralText.DisplayAgreesWithoutHexEscapes | wrapper/src/proc_macros/format_literal_parser.rs:67-75 | without `\x` and `\u` escapes the corrected display is the display as written |
| LiteralText.HexEscapesCooked | wrapper/src/proc_macros/format_literal_parser.rs:131-147 | `\x41` reads as `A` and `\u{e9}` as `é`; `\x80` and `\u{d800}` name no character |
| ProcMacros.SplitIo | wrapper/src/proc_macros/mod.rs:59-71 | the io part holds no top-level comma; the input is the io part, then, when there was one, the comma and the remainder |
| ProcMacros.SplitAtFirstComma | wrapper/src/proc_macros/mod.rs:59-71 | tokens up to the first top-level comma are the io part and everything after the comma is kept |
| ProcMacros.FormatArguments | wrapper/src/proc_macros/mod.rs:85-91 | the `format!` arguments are the new literal, the call's own arguments and then one named argument per tag, in order |
| ProcMacros.Expand | wrapper/src/proc_macros/mod.rs:113-143 | a brace block with one `let` binding per tag, in order, then the call `io.command(format!(…))` |
| ProcMacros.ProcessStreamAsWritten | wrapper/src/proc_macros/mod.rs:54-144 | MissingLiteral is returned exactly when nothing follows the first comma |
| ProcMacros.ProcessStream | wrapper/src/proc_macros/mod.rs:54-144 | the same MissingLiteral condition as written |
| ProcMacros.Distinct | wrapper/src/proc_macros/mod.rs:114 | the tags without repeats, the same set, no longer than before |
| ProcMacros.AddedNames | wrapper/src/proc_macros/mod.rs:115-120 | one added argument name per tag |
| ProcMacros.MissingLiteralWhenNothingFollows | wrapper/src/proc_macros/mod.rs:74-76 | both versions report a missing literal with no comma, and with nothing after the comma |
| ProcMacros.ParseErrorsPropagate | wrapper/src/proc_macros/mod.rs:79 | a literal that does not parse gives the parser's error, or its panic, in both versions |
| ProcMacros.RewriteOfLiteral | wrapper/src/proc_macros/mod.rs:54-144 | for `io, "<literal>", rest…`, the full expansion: as written, with the display as written and every tag; corrected, with the text the escapes stand for and each tag once, or InvalidEscape when an escape names no character |
| ProcMacros.TagsBoundOnce | wrapper/src/proc_macros/mod.rs:114-132 | corrected, the bound tags are exactly the tags that occur, and no two added arguments share a name |
| ProcMacros.RepeatedTagRepeatsName | wrapper/src/proc_macros/mod.rs:114-121 | as written, `"</>a</>"` is accepted and passes `__macro_style_clear_all__` to `format!` twice |
| ProcMacros.HexEscapeRewritten | wrapper/src/proc_macros/mod.rs:79-86 | `log!(io, "\x41")` formats `x41` as written, and `A` corrected |
| ProcMacros.PlaceholderNamesArgument | wrapper/src/proc_macros/format_literal_parser.rs:71 | the placeholder a tag leaves in the literal is one `format!` argument named by the tag's identifier, and the only variable it uses |
| ProcMacros.TagRenders | wrapper/src/proc_macros/mod.rs:129 | a tag's binding renders to something exactly when the console has colour and the tag is a clearing tag or one of the four custom styles |
| TemplateParser.ParseDebug | wrapper/src/proc_macros/format_literal_parser/template_parser.rs:249-255 | what is read prints back to the consumed text |
| TemplateParser.ParseIdentifier | wrapper/src/proc_macros/format_literal_parser/template_parser.rs:257-264 | an identifier is read exactly when the first character is allowed; it is the longest run of allowed characters |
| TemplateParser.ParseFormatType | wrapper/src/proc_macros/format_literal_parser/template_parser.rs:266-272 | it always succeeds, falling back to the empty type, and prints back to the consumed text |
| TemplateParser.ParseAlign | wrapper/src/proc_macros/format_literal_parser/template_parser.rs:274-279 | an alignment is only read together with a fill other than `}`, and prints back to the consumed text |
| TemplateParser.ParseAlignCorrected | wrapper/src/proc_macros/format_literal_parser/template_parser.rs:274-279 | corrected, an alignment with or without fill prints back to the consumed text |
| TemplateParser.ParseSign | wrapper/src/proc_macros/format_literal_parser/template_parser.rs:281-283 | a sign is one consumed character |
| TemplateParser.Flag | wrapper/src/proc_macros/format_literal_parser/template_parser.rs:285-291 | the flag is present exactly when its marker was consumed |
| TemplateParser.ParseArgument | wrapper/src/proc_macros/format_literal_parser/template_parser.rs:293-301 | an argument, integer or identifier, prints back to the consumed text |
| TemplateParser.ParseParameter | wrapper/src/proc_macros/format_literal_parser/template_parser.rs:303-305 | a parameter is an identifier followed by `$` |
| TemplateParser.ParseCount | wrapper/src/proc_macros/format_literal_parser/template_parser.rs:341-346 | a count, integer or parameter, prints back to the consumed text |
| TemplateParser.ParsePrecision | wrapper/src/proc_macros/format_literal_parser/template_parser.rs:334-339 | a precision is `.` and then `*` or a count |
| TemplateParser.ParseFormatSpec | wrapper/src/proc_macros/format_literal_parser/template_parser.rs:307-328 | it always succeeds and prints back to the consumed text |
| TemplateParser.ParseFormatSpecCorrected | wrapper/src/proc_macros/format_literal_parser/template_parser.rs:307-328 | corrected, with the fill optional, it always succeeds and prints back to the consumed text |
| TemplateParser.ParseSpecChunk | wrapper/src/proc_macros/format_literal_parser/template_parser.rs:349 | a spec chunk is read exactly when the text starts with `:` |
| TemplateParser.ParseTemplate | wrapper/src/proc_macros/format_literal_parser/template_parser.rs:348-361 | a placeholder prints back to the consumed text |
| TemplateParser.ParseTemplateEscape | wrapper/src/proc_macros/format_literal_parser/template_parser.rs:363-365 | `{{` is read exactly when the text starts with it |
| TemplateParser.IdentifierRoundTrip | wrapper/src/proc_macros/format_literal_parser/template_parser.rs:257-264 | an identifier followed by a stop character is read back as itself |
| TemplateParser.DebugRoundTrip | wrapper/src/proc_macros/format_literal_parser/template_parser.rs:149-157 | every debug type printed is read back as itself |
| TemplateParser.ArgumentRoundTrip | wrapper/src/proc_macros/format_literal_parser/template_parser.rs:179-186 | a valid argument before `:` or `}` is read back as itself |
| TemplateParser.CountRoundTrip | wrapper/src/proc_macros/format_literal_parser/template_parser.rs:194-201 | a valid count is read back as itself |
| TemplateParser.PrecisionRoundTrip | wrapper/src/proc_macros/format_literal_parser/template_parser.rs:140-147 | a valid precision is read back as itself |
| TemplateParser.AlignRoundTrip | wrapper/src/proc_macros/format_literal_parser/template_parser.rs:169-177 | an alignment with a fill other than `}` is read back as itself, whatever follows |
| TemplateParser.AlignRoundTripCorrected | wrapper/src/proc_macros/format_literal_parser/template_parser.rs:169-177 | corrected, a valid alignment is read back as itself, with or without fill |
| TemplateParser.SpecRoundTrip | wrapper/src/proc_macros/format_literal_parser/template_parser.rs:203-231 | a valid format spec, any alignment carrying a fill, is read back as itself before `}` |
| TemplateParser.SpecRoundTripCorrected | wrapper/src/proc_macros/format_literal_parser/template_parser.rs:203-231 | corrected, a valid format spec is read back as itself before `}`, an alignment without fill included |
| TemplateParser.SpecTextInjective | wrapper/src/proc_macros/format_literal_parser/template_parser.rs:203-231 | two valid specs that print the same are equal |
| TemplateParser.FormatTextInjective | wrapper/src/proc_macros/format_literal_parser/template_parser.rs:233-247 | two valid placeholders that print the same are equal |
| TemplateParser.TemplateRoundTrip | wrapper/src/proc_macros/format_literal_parser/template_parser.rs:233-247 | a valid placeholder printed and read back gives itself and the following text |
| TemplateParser.NamedPlaceholder | wrapper/src/proc_macros/format_literal_parser/template_parser.rs:348-361 | `{name}` is read as that named argument, and its only variable is `name` |
| TemplateParser.VariablesAreNames | wrapper/src/proc_macros/format_literal_parser/template_parser.rs:75-138 | the variables are exactly the argument's identifier and the width and precision parameters |
| TemplateParser.VariablesOccur | wrapper/src/proc_macros/format_literal_parser/template_parser.rs:75-138 | every collected variable occurs in the placeholder's printed text |
| TemplateParser.PrecisionParameterReadAsWidth | wrapper/src/proc_macros/format_literal_parser/template_parser.rs:307-346 | `{:.p$}` is read as a width parameter named `.p`, not as a precision, and `.p` is what gets collected |
| TemplateParser.AlignWithoutFillLost | wrapper/src/proc_macros/format_literal_parser/template_parser.rs:274-279 | `<5` is not read as an alignment, and the spec `<5}` has no alignment, no width and the type `<5`; corrected, it is `<` without fill, then the width `5` |

## Left out

- The directory walk, `std::fs` and the walk-error panic (archiver.rs:52-54).
  The walk's successful entries and the two file-system answers are
  parameters.
- The payload's compression, `build.rs` and the extraction and maintenance
  code that read the payload back. The FOILZ decoder stands for binrw's
  derived reader.
- `PayloadMetadata`'s JSON parsing. `Load` takes its outcome as a parameter.
- Windows path rendering. `Render` follows `PathBuf::push` on Unix only,
  where an absolute piece replaces the whole buffer, a non-Unicode base
  included.
- The `info!` messages about an install override (release.rs:126-131), and
  everything the logger prints.
- The variant names of `ReleaseError`. errors.rs does not define it, so the
  cookie-read variant is `ReleaseCookieReadError` here. That keeps it apart
  from `LauncherError.CookieReadError`.
- The process effects: `exec`, `spawn`, `wait`, `exit` and `abort`. Their
  answers are parameters and their effects are outcomes.
- The other errors of errors.rs (`WrapperError`, `ExtractError`,
  `MetadataError`), which none of the modelled code returns.
- The compiler's token printing. `TokenText` prints a group's tokens
  separated by single spaces, which is not the compiler's spacing.
  `Literal::string` is modelled as escaping `\`, `"`, newline, carriage
  return, tab and NUL only.
- `tree_building.rs`, which is not part of this model. Its `group`,
  `closure` and `parens` are the `Group` constructors, and `closure` is
  taken to be a brace block.
- The `unwrap` in the macro entry points (mod.rs:19-52). It turns an error
  into a compile-time panic.
- Whether `format!` then accepts the generated call. The model only states
  which names the call passes and which variables a placeholder uses.
- The template parser's place in the crate. format_literal_parser.rs:1
  declares only `primitive_parsers`, so no code in the crate uses
  template_parser.rs. It is modelled on its own.
- TemplateParser.ParseFormatSpecCorrected: the corrected alignment goes no
  further than the spec parser. `ParseSpecChunk` and `ParseTemplate` keep
  the code's reading, and no corrected placeholder parser is modelled,
  since no code in the crate calls it.
- `parse_digits`, which template_parser.rs imports from
  primitive_parsers.rs, where it is not defined. It is taken to be the
  longest non-empty run of ASCII digits.
- The confirmation prompt that `confirm` logs before reading
  (console.rs:64), and `try_enable_stdout_color`.
- `win_ansi_fix.h` and `maintenance.rs`.
- Archiver.PackDirectory: the count wraps modulo 2^32 as `len() as u32`
  does. The round trip is stated only for fewer than 2^32 records.
- Archiver.CreateFileRecord: the size is the content length modulo 2^64.
  Validity is stated only for contents shorter than 2^64 bytes.

## Findings

| source | as written | input that shows it | evidently intended | confidence | as-written member | corrected member |
|---|---|---|---|---|---|---|
| wrapper/src/proc_macros/format_literal_parser.rs:131-147 | `\xHH` and `\u{…}` escapes keep their letters, so the display prints `x41`, and `u{…}` then looks like a placeholder to `format!` | `log!(io, "\x41")` logs `x41` | the character the escape names, here `A` | medium, not executed | FormatLiteralParser.HexEscapeDisplaysDigits, ProcMacros.HexEscapeRewritten | LiteralText.CookedIsUnescaped, LiteralText.HexEscapesCooked, ProcMacros.ProcessStream |
| wrapper/src/proc_macros/mod.rs:114-121 | every occurrence of a tag adds a `let` binding and a named `format!` argument, so a repeated tag passes the same name twice, which `format!` rejects | `log!(io, "</>a</>")` passes `__macro_style_clear_all__` twice | one binding and one named argument per distinct tag | medium, not executed | ProcMacros.RepeatedTagRepeatsName | ProcMacros.TagsBoundOnce, ProcMacros.ProcessStream |
| wrapper/src/proc_macros/format_literal_parser/template_parser.rs:274-279 | `opt(none_of("}"))` takes the alignment character itself as the fill, and `one_of("<^>")` then fails on what follows, so an alignment without fill is never read | `{:<5}` has `<5` after the colon; it is read with no alignment and no width, and `<5` becomes the type | `Align { fill: None, position: '<' }` followed by width `5` | high, not executed | TemplateParser.AlignWithoutFillLost, TemplateParser.ParseFormatSpec | TemplateParser.ParseFormatSpecCorrected, TemplateParser.SpecRoundTripCorrected |

=== FILE: archiver.dfy ===
/** `pack_directory` and `create_file_record` (wrapper/src/archiver.rs): the
    build-time packer, over the entries a directory walk yields instead of
    the file system itself. */
module Archiver {
  import opened Bytes
  import opened Wrappers
  import opened Host
  import opened Foilz
  import opened Texts

  /** `PayloadMetadata`: the JSON document embedded beside the payload. */
  datatype PayloadMetadata = PayloadMetadata(
    appName: string,
    appVersion: string,
    cargoBuildArguments: seq<string>,
    ertsVersion: string,
    options: string,
    rustVersion: string)

  /** One successful entry of the walk, with what `std::fs::metadata` (the
      permission mode) and `std::fs::read` (the content) return for it;
      `None` is a failed call. */
  datatype WalkEntry = WalkEntry(
    path: OsString,
    isFile: bool,
    metadataMode: Option<u32>,
    content: Option<seq<byte>>)

  // ------------------------------------------------------- string helpers

  /** `s.replace(pattern, "")`: every leftmost non-overlapping occurrence of
      `pattern` removed. An empty pattern leaves the text unchanged. */
  function DeleteAll(s: string, pattern: string): (r: string)
    ensures |r| <= |s|
    ensures forall c :: c in r ==> c in s
    decreases |s|
  {
    if |pattern| == 0 || |s| == 0 then s
    else if StartsWith(s, pattern) then DeleteAll(s[|pattern|..], pattern)
    else [s[0]] + DeleteAll(s[1..], pattern)
  }

  /** `s.replacen(c, "", 1)`: the first occurrence of `c` removed. */
  function DeleteFirst(s: string, c: char): (r: string)
    ensures c in s ==> |r| == |s| - 1
    ensures c !in s ==> r == s
    ensures forall d :: d in r ==> d in s
    decreases |s|
  {
    if |s| == 0 then s
    else if s[0] == c then s[1..]
    else [s[0]] + DeleteFirst(s[1..], c)
  }

  lemma {:induction false} DeleteAllWithoutOccurrence(s: string, pattern: string)
    requires |pattern| > 0
    requires !Occurs(pattern, s)
    ensures DeleteAll(s, pattern) == s
    decreases |s|
  {
    if |s| > 0 {
      assert s[0..] == s;
      assert !StartsWith(s, pattern);
      forall i | 0 <= i <= |s[1..]|
        ensures !StartsWith(s[1..][i..], pattern)
      {
        assert s[1..][i..] == s[i + 1..];
      }
      DeleteAllWithoutOccurrence(s[1..], pattern);
      assert s == [s[0]] + s[1..];
    }
  }

  /** The stored path: the top path's text deleted everywhere, then the
      first `/` deleted. */
  function RelativePath(filePath: string, topPath: string): string {
    DeleteFirst(DeleteAll(filePath, topPath), '/')
  }

  /** A walked path `top/rel` is stored as `rel` when the top path does not
      occur again in `/rel`. */
  lemma RelativePathOfChild(topPath: string, rel: string)
    requires |topPath| > 0
    requires !Occurs(topPath, "/" + rel)
    ensures RelativePath(topPath + "/" + rel, topPath) == rel
  {
    var s := topPath + "/" + rel;
    assert StartsWith(s, topPath);
    assert s[|topPath|..] == "/" + rel;
    DeleteAllWithoutOccurrence("/" + rel, topPath);
    assert ("/" + rel)[1..] == rel;
  }

  /** When the top path occurs again below it, that occurrence is deleted too. */
  lemma RelativePathRepeatedTop()
    ensures RelativePath("/a/a/x", "/a") == "x"
  {
    assert StartsWith("/a/a/x", "/a");
    assert "/a/a/x"[2..] == "/a/x";
    assert StartsWith("/a/x", "/a");
    assert "/a/x"[2..] == "/x";
    assert !StartsWith("/x", "/a") by {
      assert "/x"[..2][1] != "/a"[1];
    }
    assert "/x"[1..] == "x";
    assert !StartsWith("x", "/a");
    assert "x"[1..] == "";
  }

  /** A top path given with a trailing `/` loses the separator inside the
      relative path instead. */
  lemma RelativePathTrailingSlash()
    ensures RelativePath("dir/a/b", "dir/") == "ab"
  {
    assert StartsWith("dir/a/b", "dir/");
    assert "dir/a/b"[4..] == "a/b";
    assert !StartsWith("a/b", "dir/");
    assert "a/b"[1..] == "/b";
    assert !StartsWith("/b", "dir/");
    assert "/b"[1..] == "b";
    assert !StartsWith("b", "dir/");
    assert "b"[1..] == "";
    assert DeleteAll("a/b", "dir/") == "a/b";
  }

  // ------------------------------------------------------------- packing

  /** `create_file_record`: a record when both file-system calls succeed and
      both paths are Unicode; the mode is 0 on Windows and the permission
      mode on Unix; the size is the content length cast to u64. */
  function CreateFileRecord(entry: WalkEntry, topPath: OsString, platform: Platform): (r: Option<FileRecord>)
    requires platform != OtherOs
    ensures r.Some? <==>
              entry.metadataMode.Some? && entry.content.Some?
              && entry.path.Unicode? && topPath.Unicode?
    ensures r.Some? ==> r.value.fileData == entry.content.value
    ensures r.Some? ==> r.value.filePath == Utf8Encode(RelativePath(entry.path.text, topPath.text))
    ensures r.Some? && |entry.content.value| < U64_LIMIT && '\0' !in entry.path.text ==> ValidRecord(r.value)
    ensures r.Some? ==> r.value.fileMode == (if platform == Windows then 0 else entry.metadataMode.value)
  {
    match (entry.metadataMode, entry.content)
    case (Some(mode), Some(content)) =>
      var fileMode: u32 := if platform == Windows then 0 else mode;
      if entry.path.NonUnicode? || topPath.NonUnicode? then None
      else
        var rel := RelativePath(entry.path.text, topPath.text);
        Some(FileRecord(Utf8Encode(rel), (|content| % U64_LIMIT) as u64, content, fileMode))
    case _ => None
  }

  /** A walked file `top/rel` is stored under `rel`, encoded as UTF-8,
      when the top path does not occur again in `/rel`. */
  lemma ChildRecordPath(entry: WalkEntry, topPath: OsString, rel: string, platform: Platform)
    requires platform != OtherOs
    requires CreateFileRecord(entry, topPath, platform).Some?
    requires |topPath.text| > 0 && entry.path.text == topPath.text + "/" + rel
    requires !Occurs(topPath.text, "/" + rel)
    ensures CreateFileRecord(entry, topPath, platform).value.filePath == Utf8Encode(rel)
  {
    RelativePathOfChild(topPath.text, rel);
  }

  /** The records `pack_directory` collects, in walk order: one per regular
      file whose record could be created; every other entry is skipped. */
  function CollectRecords(topPath: OsString, entries: seq<WalkEntry>, platform: Platform): seq<FileRecord>
    requires platform != OtherOs
    decreases |entries|
  {
    if |entries| == 0 then []
    else EntryRecords(entries[0], topPath, platform) + CollectRecords(topPath, entries[1..], platform)
  }

  /** What one walk entry contributes: its record, or nothing when it is not
      a regular file or its record cannot be created. */
  function EntryRecords(entry: WalkEntry, topPath: OsString, platform: Platform): (r: seq<FileRecord>)
    requires platform != OtherOs
    ensures |r| <= 1
    ensures |r| == 1 <==> entry.isFile && CreateFileRecord(entry, topPath, platform).Some?
  {
    var first := if entry.isFile then CreateFileRecord(entry, topPath, platform) else None;
    if first.Some? then [first.value] else []
  }

  /** Collecting is compositional over the walk: the records of a longer
      walk extend those of its prefix, in the same order. */
  lemma {:induction false} CollectRecordsAppend(topPath: OsString, a: seq<WalkEntry>, b: seq<WalkEntry>, platform: Platform)
    requires platform != OtherOs
    ensures CollectRecords(topPath, a + b, platform)
         == CollectRecords(topPath, a, platform) + CollectRecords(topPath, b, platform)
    decreases |a|
  {
    if |a| > 0 {
      CollectRecordsAppend(topPath, a[1..], b, platform);
      CollectRecordsStep(topPath, a + b, a[0], a[1..] + b, platform);
    } else {
      assert a + b == b;
    }
  }

  /** The walk yields at most one record per entry. */
  lemma {:induction false} CollectRecordsAtMostEntries(topPath: OsString, entries: seq<WalkEntry>, platform: Platform)
    requires platform != OtherOs
    ensures |CollectRecords(topPath, entries, platform)| <= |entries|
    decreases |entries|
  {
    if |entries| > 0 {
      CollectRecordsAtMostEntries(topPath, entries[1..], platform);
    }
  }

  lemma CollectRecordsStep(topPath: OsString, entries: seq<WalkEntry>, first: WalkEntry, others: seq<WalkEntry>, platform: Platform)
    requires platform != OtherOs
    requires entries == [first] + others
    ensures CollectRecords(topPath, entries, platform)
         == EntryRecords(first, topPath, platform) + CollectRecords(topPath, others, platform)
  {
    assert entries[1..] == others;
  }

  /** Every entry is a readable regular file with a Unicode path, and the top
      path is Unicode: then every entry yields exactly one record. */
  predicate AllPackable(topPath: OsString, entries: seq<WalkEntry>) {
    && topPath.Unicode?
    && forall i :: 0 <= i < |entries| ==>
         && entries[i].isFile
         && entries[i].metadataMode.Some?
         && entries[i].content.Some?
         && entries[i].path.Unicode?
  }

  lemma {:induction false} CollectRecordsKeepsEveryFile(topPath: OsString, entries: seq<WalkEntry>, platform: Platform)
    requires platform != OtherOs
    requires AllPackable(topPath, entries)
    ensures |CollectRecords(topPath, entries, platform)| == |entries|
    ensures forall i :: 0 <= i < |entries| ==>
              CollectRecords(topPath, entries, platform)[i].fileData == entries[i].content.value
    ensures forall i :: 0 <= i < |entries| ==>
              CollectRecords(topPath, entries, platform)[i].filePath
                == Utf8Encode(RelativePath(entries[i].path.text, topPath.text))
    decreases |entries|
  {
    if |entries| > 0 {
      assert AllPackable(topPath, entries[1..]) by {
        forall i | 0 <= i < |entries[1..]| ensures entries[1..][i] == entries[i + 1] { }
      }
      CollectRecordsKeepsEveryFile(topPath, entries[1..], platform);
    }
  }

  /** `pack_directory`: the collected records behind a count that is their
      number cast to u32. */
  function PackDirectory(topPath: OsString, entries: seq<WalkEntry>, platform: Platform): (r: seq<byte>)
    requires platform != OtherOs
    ensures |r| >= 9 && r[..5] == MAGIC
    ensures ReadU32(r[5..9]) as nat == |CollectRecords(topPath, entries, platform)| % U32_LIMIT
  {
    var records := CollectRecords(topPath, entries, platform);
    EncodePayload(Payload((|records| % U32_LIMIT) as u32, records))
  }

  /** Entries a real walk yields: no path holds a NUL and no file is too
      long for a u64 size. */
  predicate RealisticEntries(entries: seq<WalkEntry>) {
    forall i :: 0 <= i < |entries| ==>
      && (entries[i].path.Unicode? ==> '\0' !in entries[i].path.text)
      && (entries[i].content.Some? ==> |entries[i].content.value| < U64_LIMIT)
  }

  lemma {:induction false} CollectedRecordsValid(topPath: OsString, entries: seq<WalkEntry>, platform: Platform)
    requires platform != OtherOs
    requires RealisticEntries(entries)
    ensures forall i :: 0 <= i < |CollectRecords(topPath, entries, platform)| ==>
              ValidRecord(CollectRecords(topPath, entries, platform)[i])
    decreases |entries|
  {
    if |entries| > 0 {
      assert RealisticEntries(entries[1..]) by {
        forall i | 0 <= i < |entries[1..]| ensures entries[1..][i] == entries[i + 1] { }
      }
      CollectedRecordsValid(topPath, entries[1..], platform);
    }
  }

  /** What the packer writes, the decoder reads back: the collected records,
      their number as the count, and nothing left over. */
  lemma PackThenDecode(topPath: OsString, entries: seq<WalkEntry>, platform: Platform)
    requires platform != OtherOs
    requires RealisticEntries(entries)
    requires |CollectRecords(topPath, entries, platform)| < U32_LIMIT
    ensures var records := CollectRecords(topPath, entries, platform);
            DecodePayload(PackDirectory(topPath, entries, platform))
              == Success(Read(Payload(|records| as u32, records), []))
  {
    var records := CollectRecords(topPath, entries, platform);
    CollectedRecordsValid(topPath, entries, platform);
    var p := Payload(|records| as u32, records);
    ModOfSmaller(|records|, U32_LIMIT);
    var bytes := PackDirectory(topPath, entries, platform);
    assert bytes == EncodePayload(p);
    PayloadRoundTrip(p, []);
    assert bytes + [] == bytes;
  }
}

=== FILE: bytes.dfy ===
/** Bytes, fixed-width unsigned integers and their big-endian encodings,
    and the UTF-8 encoding of strings. */
module Bytes {

  newtype byte = x: int | 0 <= x < 256
  newtype u32 = x: int | 0 <= x < 0x1_0000_0000
  newtype u64 = x: int | 0 <= x < 0x1_0000_0000_0000_0000

  const U32_LIMIT: nat := 0x1_0000_0000
  const U64_LIMIT: nat := 0x1_0000_0000_0000_0000

  lemma ModOfSmaller(n: nat, m: nat)
    requires n < m
    ensures n % m == n
  {
  }

  lemma DivMod256(x: int, b: int)
    requires 0 <= b < 256
    ensures (x * 256 + b) / 256 == x
    ensures (x * 256 + b) % 256 == b
  {
  }

  lemma DivModWord(x: int, b: int)
    requires 0 <= b < U32_LIMIT
    ensures (x * U32_LIMIT + b) / U32_LIMIT == x
    ensures (x * U32_LIMIT + b) % U32_LIMIT == b
  {
  }

  /** Big-endian u32, as binrw writes it. */
  function U32BE(n: u32): (r: seq<byte>)
    ensures |r| == 4
  {
    var n1 := n as int / 256;
    var n2 := n1 / 256;
    [(n2 / 256) as byte, (n2 % 256) as byte, (n1 % 256) as byte, (n as int % 256) as byte]
  }

  /** Big-endian u64, as binrw writes it: the high word, then the low word. */
  function U64BE(n: u64): (r: seq<byte>)
    ensures |r| == 8
  {
    U32BE((n as int / U32_LIMIT) as u32) + U32BE((n as int % U32_LIMIT) as u32)
  }

  /** The value a 4-byte big-endian field holds. */
  function ReadU32(bs: seq<byte>): (n: u32)
    requires |bs| == 4
    ensures U32BE(n) == bs
  {
    var n2 := bs[0] as int * 256 + bs[1] as int;
    var n1 := n2 * 256 + bs[2] as int;
    var n := n1 * 256 + bs[3] as int;
    DivMod256(n1, bs[3] as int);
    DivMod256(n2, bs[2] as int);
    DivMod256(bs[0] as int, bs[1] as int);
    n as u32
  }

  /** The value an 8-byte big-endian field holds. */
  function ReadU64(bs: seq<byte>): (n: u64)
    requires |bs| == 8
    ensures U64BE(n) == bs
  {
    var hi := ReadU32(bs[..4]);
    var lo := ReadU32(bs[4..]);
    var n := hi as int * U32_LIMIT + lo as int;
    DivModWord(hi as int, lo as int);
    assert bs == bs[..4] + bs[4..];
    n as u64
  }

  /** Reading a written u32 gives the number back. */
  lemma U32RoundTrip(n: u32)
    ensures ReadU32(U32BE(n)) == n
  {
  }

  /** Reading a written u64 gives the number back. */
  lemma U64RoundTrip(n: u64)
    ensures ReadU64(U64BE(n)) == n
  {
    var bs := U64BE(n);
    assert bs[..4] == U32BE((n as int / U32_LIMIT) as u32);
    assert bs[4..] == U32BE((n as int % U32_LIMIT) as u32);
    U32RoundTrip((n as int / U32_LIMIT) as u32);
    U32RoundTrip((n as int % U32_LIMIT) as u32);
  }

  /** The UTF-8 encoding of one Unicode scalar value. */
  function Utf8Char(c: char): (r: seq<byte>)
    ensures 1 <= |r| <= 4
    ensures 0 in r <==> c == '\0'
  {
    var n := c as int;
    if n < 0x80 then [n as byte]
    else if n < 0x800 then [(0xC0 + n / 64) as byte, (0x80 + n % 64) as byte]
    else if n < 0x1_0000 then
      [(0xE0 + n / 4096) as byte, (0x80 + (n / 64) % 64) as byte, (0x80 + n % 64) as byte]
    else
      [(0xF0 + n / 262144) as byte, (0x80 + (n / 4096) % 64) as byte,
       (0x80 + (n / 64) % 64) as byte, (0x80 + n % 64) as byte]
  }

  /** The UTF-8 encoding of a string (Rust's `String::into_bytes`). */
  function Utf8Encode(s: string): (r: seq<byte>)
    ensures |s| <= |r| <= 4 * |s|
    ensures 0 in r <==> '\0' in s
    decreases |s|
  {
    if |s| == 0 then [] else Utf8Char(s[0]) + Utf8Encode(s[1..])
  }
}

=== FILE: console.dfy ===
/** The console abstraction (wrapper/src/console.rs): the silent `NoIO`, the
    terminal-backed `StandardIO` reduced to its two flags, the yes/no
    question and the table of style escapes. What the logger prints is not
    modelled; the line read from standard input is a parameter. */
module Console {
  import opened Wrappers

  /** The two implementations of the `IO` trait. `StandardIO` keeps whether
      a loading line is open and whether styles are rendered. */
  datatype IO = NoIO | StandardIO(loading: bool, color: bool)

  /** `StandardIOConfig`. */
  datatype StandardIOConfig = StandardIOConfig(color: bool)

  /** `StandardIO::DEFAULT`: colour off. */
  const DEFAULT: StandardIOConfig := StandardIOConfig(false)

  /** `StandardIO::new`: no loading line yet, colour as configured. */
  function New(config: StandardIOConfig): (io: IO)
    ensures io.StandardIO? && !IsLoading(io) && io.color == config.color
  {
    StandardIO(false, config.color)
  }

  // ------------------------------------------------------ loading state

  /** The calls that change or keep the loading flag; `Print` stands for
      every logging call (`log`, `warn`, `error`, `success`, `info`,
      `indent`, `newline`), none of which touches it. */
  datatype Call = Loading | Done | Print

  function IsLoading(io: IO): bool {
    io.StandardIO? && io.loading
  }

  /** One call on the console. */
  function Apply(io: IO, call: Call): (r: IO)
    ensures r.NoIO? <==> io.NoIO?
    ensures r.StandardIO? ==> r.color == io.color
    ensures call == Loading ==> IsLoading(r) == io.StandardIO?
    ensures call == Done ==> !IsLoading(r)
    ensures call == Print ==> r == io
  {
    match io
    case NoIO => NoIO
    case StandardIO(loading, color) =>
      match call
      case Loading => StandardIO(true, color)
      case Done => StandardIO(false, color)
      case Print => io
  }

  /** A sequence of calls, first to last. */
  function Run(io: IO, calls: seq<Call>): IO
    decreases |calls|
  {
    if |calls| == 0 then io else Run(Apply(io, calls[0]), calls[1..])
  }

  /** The last call in `calls` that sets the flag, if any. */
  function LastToggle(calls: seq<Call>): Option<Call>
    decreases |calls|
  {
    if |calls| == 0 then None
    else if calls[|calls| - 1] != Print then Some(calls[|calls| - 1])
    else LastToggle(calls[..|calls| - 1])
  }

  lemma {:induction false} RunAppend(io: IO, calls: seq<Call>, last: Call)
    ensures Run(io, calls + [last]) == Apply(Run(io, calls), last)
    decreases |calls|
  {
    if |calls| == 0 {
      assert calls + [last] == [last];
    } else {
      assert (calls + [last])[1..] == calls[1..] + [last];
      RunAppend(Apply(io, calls[0]), calls[1..], last);
    }
  }

  /** After any sequence of calls a `StandardIO` is loading exactly when the
      last `loading`/`done` call was `loading` (or, with neither, when it
      was loading before); `NoIO` never is, and the colour never changes. */
  lemma {:induction false} LoadingFollowsLastToggle(io: IO, calls: seq<Call>)
    ensures Run(io, calls).NoIO? <==> io.NoIO?
    ensures Run(io, calls).StandardIO? ==> Run(io, calls).color == io.color
    ensures IsLoading(Run(io, calls)) <==>
              io.StandardIO? && (LastToggle(calls) == Some(Loading) || (LastToggle(calls).None? && io.loading))
    decreases |calls|
  {
    if |calls| > 0 {
      var init := calls[..|calls| - 1];
      var last := calls[|calls| - 1];
      assert calls == init + [last];
      RunAppend(io, init, last);
      LoadingFollowsLastToggle(io, init);
    }
  }

  // ------------------------------------------------------------- input

  /** `read_line`: `NoIO` reads nothing; `StandardIO` returns what it read
      from standard input, read errors being ignored. */
  function ReadLine(io: IO, stdinLine: string): (r: string)
    ensures io.NoIO? ==> r == ""
    ensures io.StandardIO? ==> r == stdinLine
  {
    if io.NoIO? then "" else stdinLine
  }

  /** The answers `confirm` accepts: a lower or upper case `y` and the
      newline that ends the line. */
  predicate IsYes(response: string) {
    |response| == 2 && response[0] in {'y', 'Y'} && response[1] == '\n'
  }

  /** `confirm`: true exactly for a line that is `y` or `Y`. */
  function Confirm(io: IO, stdinLine: string): (r: bool)
    ensures r <==> io.StandardIO? && IsYes(stdinLine)
  {
    var response := ReadLine(io, stdinLine);
    response == "y\n" || response == "Y\n"
  }

  /** Without a terminal every question is answered no. */
  lemma NoIODeclines(stdinLine: string)
    ensures !Confirm(NoIO, stdinLine)
  {
  }

  // ------------------------------------------------------------ styles

  const ESC: char := '\U{1B}'

  /** The style names `render_style` knows. */
  const STYLE_NAMES: seq<string> := ["clear_all", "clear_bg", "clear_fg",
    "custom_destructive", "custom_variable", "custom_path", "custom_choice"]

  /** `render_style`: nothing without colour or for an unknown name, else
      the ANSI select-graphic-rendition escape for the name. */
  function RenderStyle(io: IO, name: string): (r: string)
    ensures r != "" <==> io.StandardIO? && io.color && name in STYLE_NAMES
    ensures r != "" ==> IsSgr(r)
  {
    if io.NoIO? || !io.color then ""
    else if name == "clear_all" then [ESC] + "[m"
    else if name == "clear_bg" then [ESC] + "[49m"
    else if name == "clear_fg" then [ESC] + "[39m"
    else if name == "custom_destructive" then [ESC] + "[0;31m"
    else if name == "custom_variable" then [ESC] + "[1;34m"
    else if name == "custom_path" then [ESC] + "[0;36m"
    else if name == "custom_choice" then [ESC] + "[0;33m"
    else ""
  }

  /** An ANSI select-graphic-rendition sequence: ESC, `[`, parameters made
      of digits and `;`, then `m`. */
  predicate IsSgr(s: string) {
    && |s| >= 3 && s[0] == ESC && s[1] == '[' && s[|s| - 1] == 'm'
    && forall i :: 2 <= i < |s| - 1 ==> s[i] == ';' || '0' <= s[i] <= '9'
  }

  /** The parameters of an SGR sequence. */
  function SgrParams(s: string): string
    requires IsSgr(s)
  {
    s[2..|s| - 1]
  }

  /** The clearing styles reset what their names say (select graphic
      rendition codes 0, 49 and 39: all attributes, the background, the
      foreground), and the custom ones reset attributes before setting
      bold blue for variables and plain red, cyan and yellow for the others. */
  lemma StyleCodes(io: IO)
    requires io.StandardIO? && io.color
    ensures SgrParams(RenderStyle(io, "clear_all")) == ""
    ensures SgrParams(RenderStyle(io, "clear_bg")) == "49"
    ensures SgrParams(RenderStyle(io, "clear_fg")) == "39"
    ensures SgrParams(RenderStyle(io, "custom_destructive")) == "0;31"
    ensures SgrParams(RenderStyle(io, "custom_variable")) == "1;34"
    ensures SgrParams(RenderStyle(io, "custom_path")) == "0;36"
    ensures SgrParams(RenderStyle(io, "custom_choice")) == "0;33"
  {
  }

  /** A console made from the default configuration renders no style. */
  lemma DefaultIsPlain(name: string)
    ensures RenderStyle(New(DEFAULT), name) == ""
  {
  }
}

=== FILE: errors.dfy ===
/** The error enums the modelled code returns (wrapper/src/errors.rs, and
    `ReleaseError`, which wrapper/src/release.rs imports from it). */
module Errors {
  import opened Host

  /** Errors of `Release::load` and `Release::load_cookie_file`. */
  datatype ReleaseError = ComputeInstallDirError | ReleaseCookieReadError | CorruptedMetadataError

  /** `LauncherError`. `EncodingError` carries the name of the path that was
      not Unicode, as `buf_to_string` builds it. */
  datatype LauncherError =
    | CookieReadError
    | EncodingError(name: string)
    | ErlangError(cause: IoError)
    | UnsupportedPlatformError
}

=== FILE: foilz.dfy ===
/** The FOILZ payload layout that `binrw` derives for `FoilzFileRecord` and
    `FoilzPayload` (wrapper/src/archiver.rs), written out as an encoder and a
    length-driven decoder over byte sequences. All integers are big-endian. */
module Foilz {
  import opened Bytes
  import opened Wrappers
  import opened Texts

  /** One file: a NUL-terminated path, a u64 size, the data and a u32 mode. */
  datatype FileRecord = FileRecord(filePath: seq<byte>, fileSize: u64, fileData: seq<byte>, fileMode: u32)

  /** The whole payload: the magic, a u32 count and the records. */
  datatype Payload = Payload(numFiles: u32, files: seq<FileRecord>)

  /** The ASCII bytes of "FOILZ". */
  const MAGIC: seq<byte> := [0x46, 0x4F, 0x49, 0x4C, 0x5A]

  /** Why binrw refuses a buffer: the magic differs, or a read ran past the end. */
  datatype DecodeError = BadMagic | UnexpectedEof

  /** A value read from the front of a buffer, and the bytes after it. */
  datatype Read<T> = Read(value: T, rest: seq<byte>)

  /** A record the decoder gives back unchanged: its path has no NUL (the NUL
      ends the path on reading) and its size field is its data length (the
      size field says how many data bytes to read). */
  predicate ValidRecord(r: FileRecord) {
    && 0 !in r.filePath
    && r.fileSize as nat == |r.fileData|
  }

  /** A payload the decoder gives back unchanged: its count is its length. */
  predicate ValidPayload(p: Payload) {
    && p.numFiles as nat == |p.files|
    && forall i :: 0 <= i < |p.files| ==> ValidRecord(p.files[i])
  }

  // ---------------------------------------------------------------- writing

  function EncodeRecord(r: FileRecord): seq<byte> {
    r.filePath + [0] + U64BE(r.fileSize) + r.fileData + U32BE(r.fileMode)
  }

  function EncodeRecords(rs: seq<FileRecord>): seq<byte>
    decreases |rs|
  {
    if |rs| == 0 then [] else EncodeRecord(rs[0]) + EncodeRecords(rs[1..])
  }

  /** `FoilzPayload::write_be`: the records are written whole, whatever the
      count and size fields say. */
  function EncodePayload(p: Payload): (r: seq<byte>)
    ensures |r| >= 9 && r[..5] == MAGIC
    ensures ReadU32(r[5..9]) == p.numFiles
  {
    var r := MAGIC + U32BE(p.numFiles) + EncodeRecords(p.files);
    assert r[5..9] == U32BE(p.numFiles);
    r
  }

  // ---------------------------------------------------------------- reading

  /** Position of the first NUL byte, or the length when there is none. */
  function IndexOfNul(bs: seq<byte>): (i: nat)
    ensures i <= |bs|
    ensures i < |bs| ==> bs[i] == 0
    ensures 0 !in bs[..i]
    decreases |bs|
  {
    if |bs| == 0 then 0
    else if bs[0] == 0 then 0
    else
      var j := 1 + IndexOfNul(bs[1..]);
      assert bs[..j] == [bs[0]] + bs[1..][..j - 1];
      j
  }

  /** binrw's `NullString` reader: bytes up to the first NUL, which is consumed. */
  function ReadNullString(bs: seq<byte>): (r: Result<Read<seq<byte>>, DecodeError>)
    ensures r.Success? <==> 0 in bs
    ensures r.Success? ==> 0 !in r.value.value && bs == r.value.value + [0] + r.value.rest
  {
    var i := IndexOfNul(bs);
    if i == |bs| then
      assert bs[..i] == bs;
      Failure(UnexpectedEof)
    else
      assert bs == bs[..i] + [0] + bs[i + 1..];
      Success(Read(bs[..i], bs[i + 1..]))
  }

  /** The fields after a record's path: the size, that many data bytes and
      the mode, with what follows them. */
  datatype Fields = Fields(size: u64, data: seq<byte>, mode: u32)

  function EncodeFields(f: Fields): seq<byte> {
    U64BE(f.size) + f.data + U32BE(f.mode)
  }

  /** Reads the size, the data and the mode; running out of bytes at any of
      these reads is an end-of-input error. */
  function ReadFields(after: seq<byte>): (r: Result<Read<Fields>, DecodeError>)
    ensures r.Success? ==> |r.value.value.data| == r.value.value.size as nat
    ensures r.Success? ==> after == EncodeFields(r.value.value) + r.value.rest
  {
    if |after| < 8 then Failure(UnexpectedEof)
    else
      var size := ReadU64(after[..8]);
      var n := size as nat;
      if |after| < 12 + n then Failure(UnexpectedEof)
      else
        var mode := ReadU32(after[8 + n..12 + n]);
        assert after == after[..8] + after[8..8 + n] + after[8 + n..12 + n] + after[12 + n..];
        Success(Read(Fields(size, after[8..8 + n], mode), after[12 + n..]))
  }

  /** Reads one `FoilzFileRecord`: the path up to its NUL, then the fields. */
  function ReadRecord(bs: seq<byte>): (r: Result<Read<FileRecord>, DecodeError>)
    ensures r.Success? ==> ValidRecord(r.value.value)
    ensures r.Success? ==> bs == EncodeRecord(r.value.value) + r.value.rest
  {
    match ReadNullString(bs)
    case Failure(e) => Failure(e)
    case Success(path) =>
      match ReadFields(path.rest)
      case Failure(e) => Failure(e)
      case Success(fields) =>
        var f := fields.value;
        var record := FileRecord(path.value, f.size, f.data, f.mode);
        RecordLayout(bs, record, path.rest, fields.rest);
        Success(Read(record, fields.rest))
  }

  lemma RecordLayout(bs: seq<byte>, r: FileRecord, after: seq<byte>, rest: seq<byte>)
    requires bs == r.filePath + [0] + after
    requires after == EncodeFields(Fields(r.fileSize, r.fileData, r.fileMode)) + rest
    ensures bs == EncodeRecord(r) + rest
  {
  }

  /** The fields written and read back, whatever follows them. */
  lemma FieldsRoundTrip(f: Fields, tail: seq<byte>)
    requires |f.data| == f.size as nat
    ensures ReadFields(EncodeFields(f) + tail) == Success(Read(f, tail))
  {
    var after := EncodeFields(f) + tail;
    var n := f.size as nat;
    assert after[..8] == U64BE(f.size);
    U64RoundTrip(f.size);
    assert after[8..8 + n] == f.data;
    assert after[8 + n..12 + n] == U32BE(f.mode);
    U32RoundTrip(f.mode);
    assert after[12 + n..] == tail;
  }

  lemma EncodeRecordsCons(r: FileRecord, rs: seq<FileRecord>)
    ensures EncodeRecords([r] + rs) == EncodeRecord(r) + EncodeRecords(rs)
  {
    assert ([r] + rs)[1..] == rs;
  }

  /** Reads exactly `count` records, failing on the first that cannot be read. */
  function ReadRecords(bs: seq<byte>, count: nat): (r: Result<Read<seq<FileRecord>>, DecodeError>)
    ensures r.Success? ==> |r.value.value| == count
    ensures r.Success? ==> forall i :: 0 <= i < count ==> ValidRecord(r.value.value[i])
    ensures r.Success? ==> bs == EncodeRecords(r.value.value) + r.value.rest
    decreases count
  {
    if count == 0 then Success(Read([], bs))
    else
      match ReadRecord(bs)
      case Failure(e) => Failure(e)
      case Success(first) =>
        match ReadRecords(first.rest, count - 1)
        case Failure(e) => Failure(e)
        case Success(others) =>
          RecordsCons(bs, first.value, first.rest, others.value, others.rest);
          Success(Read([first.value] + others.value, others.rest))
  }

  /** A record read in front of the records read after it. */
  lemma RecordsCons(bs: seq<byte>, first: FileRecord, mid: seq<byte>, others: seq<FileRecord>, rest: seq<byte>)
    requires ValidRecord(first) && bs == EncodeRecord(first) + mid
    requires forall i :: 0 <= i < |others| ==> ValidRecord(others[i])
    requires mid == EncodeRecords(others) + rest
    ensures forall i :: 0 <= i < |[first] + others| ==> ValidRecord(([first] + others)[i])
    ensures bs == EncodeRecords([first] + others) + rest
  {
    var files := [first] + others;
    EncodeRecordsCons(first, others);
    Associative(EncodeRecord(first), EncodeRecords(others), rest);
    assert forall i :: 1 <= i < |files| ==> files[i] == others[i - 1];
  }

  /** `FoilzPayload::read_be`: the magic, the count, then that many records.
      Bytes after the last record are left unread, as binrw leaves them. */
  function DecodePayload(bs: seq<byte>): (r: Result<Read<Payload>, DecodeError>)
    ensures r.Success? ==> ValidPayload(r.value.value)
    ensures r.Success? ==> bs == EncodePayload(r.value.value) + r.value.rest
    ensures |bs| >= 5 && bs[..5] != MAGIC ==> r == Failure(BadMagic)
  {
    if |bs| < 5 then Failure(UnexpectedEof)
    else if bs[..5] != MAGIC then Failure(BadMagic)
    else if |bs| < 9 then Failure(UnexpectedEof)
    else
      var numFiles := ReadU32(bs[5..9]);
      match ReadRecords(bs[9..], numFiles as nat)
      case Failure(e) => Failure(e)
      case Success(files) =>
        PayloadLayout(bs, numFiles, files.value, files.rest);
        Success(Read(Payload(numFiles, files.value), files.rest))
  }

  lemma PayloadLayout(bs: seq<byte>, numFiles: u32, files: seq<FileRecord>, rest: seq<byte>)
    requires |bs| >= 9 && bs[..5] == MAGIC && bs[5..9] == U32BE(numFiles)
    requires bs[9..] == EncodeRecords(files) + rest
    ensures bs == EncodePayload(Payload(numFiles, files)) + rest
  {
    var head := bs[..9];
    assert bs == head + bs[9..];
    assert head == MAGIC + U32BE(numFiles);
    Associative(head, EncodeRecords(files), rest);
  }

  // ------------------------------------------------------------- round trip

  lemma {:induction false} IndexOfNulAfter(path: seq<byte>, tail: seq<byte>)
    requires 0 !in path
    ensures IndexOfNul(path + [0] + tail) == |path|
    decreases |path|
  {
    if |path| > 0 {
      assert (path + [0] + tail)[1..] == path[1..] + [0] + tail;
      IndexOfNulAfter(path[1..], tail);
    }
  }

  lemma RecordRoundTrip(r: FileRecord, tail: seq<byte>)
    requires ValidRecord(r)
    ensures ReadRecord(EncodeRecord(r) + tail) == Success(Read(r, tail))
  {
    var bs := EncodeRecord(r) + tail;
    var f := Fields(r.fileSize, r.fileData, r.fileMode);
    var afterPath := EncodeFields(f) + tail;
    assert bs == r.filePath + [0] + afterPath;
    IndexOfNulAfter(r.filePath, afterPath);
    assert bs[..|r.filePath|] == r.filePath;
    assert bs[|r.filePath| + 1..] == afterPath;
    assert ReadNullString(bs) == Success(Read(r.filePath, afterPath));
    FieldsRoundTrip(f, tail);
  }

  lemma {:induction false} RecordsRoundTrip(rs: seq<FileRecord>, tail: seq<byte>)
    requires forall i :: 0 <= i < |rs| ==> ValidRecord(rs[i])
    ensures ReadRecords(EncodeRecords(rs) + tail, |rs|) == Success(Read(rs, tail))
    decreases |rs|
  {
    if |rs| > 0 {
      var later := EncodeRecords(rs[1..]) + tail;
      assert rs == [rs[0]] + rs[1..];
      EncodeRecordsCons(rs[0], rs[1..]);
      Associative(EncodeRecord(rs[0]), EncodeRecords(rs[1..]), tail);
      var bs := EncodeRecords(rs) + tail;
      assert bs == EncodeRecord(rs[0]) + later;
      RecordRoundTrip(rs[0], later);
      assert ReadRecord(bs) == Success(Read(rs[0], later));
      RecordsRoundTrip(rs[1..], tail);
      assert ReadRecords(later, |rs| - 1) == Success(Read(rs[1..], tail));
      assert ReadRecords(bs, |rs|) == Success(Read([rs[0]] + rs[1..], tail));
    } else {
      assert EncodeRecords(rs) + tail == tail;
    }
  }

  /** Decoding inverts encoding for every payload whose count is its length,
      whose paths hold no NUL and whose sizes are their data lengths, whatever
      bytes follow it. */
  lemma PayloadRoundTrip(p: Payload, tail: seq<byte>)
    requires ValidPayload(p)
    ensures DecodePayload(EncodePayload(p) + tail) == Success(Read(p, tail))
  {
    var bs := EncodePayload(p) + tail;
    assert bs[..5] == MAGIC;
    assert bs[5..9] == U32BE(p.numFiles);
    assert bs[9..] == EncodeRecords(p.files) + tail;
    RecordsRoundTrip(p.files, tail);
  }

  /** Decoding succeeds exactly on a valid payload's encoding followed by anything. */
  lemma DecodeCharacterisation(bs: seq<byte>, p: Payload, rest: seq<byte>)
    ensures DecodePayload(bs) == Success(Read(p, rest)) <==>
              ValidPayload(p) && bs == EncodePayload(p) + rest
  {
    if ValidPayload(p) && bs == EncodePayload(p) + rest {
      PayloadRoundTrip(p, rest);
    }
  }

  /** The encoding of a valid payload is never a proper prefix of another's
      and determines the payload. */
  lemma EncodingUnique(p: Payload, x: seq<byte>, q: Payload, y: seq<byte>)
    requires ValidPayload(p) && ValidPayload(q)
    requires EncodePayload(p) + x == EncodePayload(q) + y
    ensures p == q && x == y
  {
    PayloadRoundTrip(p, x);
    PayloadRoundTrip(q, y);
  }

  /** A buffer that stops before the declared count and sizes are satisfied
      is an error: every strict prefix of an encoding fails to decode. */
  lemma TruncatedPayloadFails(p: Payload, k: nat)
    requires ValidPayload(p)
    requires k < |EncodePayload(p)|
    ensures DecodePayload(EncodePayload(p)[..k]).Failure?
  {
    var whole := EncodePayload(p);
    var r := DecodePayload(whole[..k]);
    if r.Success? {
      SplitPrefix(whole, k, EncodePayload(r.value.value), r.value.rest);
      EncodingUnique(r.value.value, r.value.rest + whole[k..], p, []);
    }
  }

  lemma SplitPrefix<T>(whole: seq<T>, k: nat, a: seq<T>, b: seq<T>)
    requires k <= |whole| && whole[..k] == a + b
    ensures a + (b + whole[k..]) == whole + []
  {
    assert whole == whole[..k] + whole[k..];
  }

  /** The empty archive: magic and a zero count. */
  lemma EmptyPayloadBytes()
    ensures EncodePayload(Payload(0, [])) == MAGIC + [0, 0, 0, 0]
    ensures DecodePayload(MAGIC + [0, 0, 0, 0]) == Success(Read(Payload(0, []), []))
  {
    assert U32BE(0) == [0, 0, 0, 0];
    assert EncodePayload(Payload(0, [])) == MAGIC + [0, 0, 0, 0];
    PayloadRoundTrip(Payload(0, []), []);
    assert EncodePayload(Payload(0, [])) + [] == MAGIC + [0, 0, 0, 0];
  }
}

=== FILE: format_literal.dfy ===
/** The style-tag format literal
    (wrapper/src/proc_macros/format_literal_parser.rs): a quoted string of
    text runs, backslash escapes and `<tag>` segments, its parser, the
    `Display` that turns tags into `format!` placeholders, and the style
    names the tags stand for. `Source` prints segments back as literal text
    and is the parser's inverse. */
module FormatLiteralParser {
  import opened Wrappers
  import opened PrimitiveParsers
  import opened Texts

  datatype StyleTag = StyleNamed(name: string) | StyleClearAll | StyleClearBg | StyleClearFg

  datatype Segment = EscapeSegment(code: string) | StyleSegment(tag: StyleTag) | TextSegment(text: string)

  datatype FormatLiteral = FormatLiteral(segments: seq<Segment>)

  datatype FormatLiteralParserError = InvalidEscape | MissingLiteral

  /** How `parse_format_literal` ends: a literal, an error, or the panic of
      the single-escape mapping. */
  datatype LiteralOutcome = Accepted(literal: FormatLiteral) | Rejected(error: FormatLiteralParserError) | Panicked

  // ------------------------------------------------------------ helpers

  /** The text after the first `n` characters, or nothing. */
  function Drop(s: string, n: int): string {
    if 0 <= n <= |s| then s[n..] else []
  }

  /** The characters a text run stops at. */
  predicate IsStopChar(c: char) {
    c == '\\' || c == '<' || c == '"'
  }

  /** The number of leading hex digits, at most `max` (`take_while_m_n`). */
  function HexSpan(s: string, max: nat): (n: nat)
    ensures n <= max && n <= |s|
    ensures forall i :: 0 <= i < n ==> IsHexChar(s[i])
    ensures n < max && n < |s| ==> !IsHexChar(s[n])
    decreases max
  {
    if max > 0 && |s| > 0 && IsHexChar(s[0]) then 1 + HexSpan(s[1..], max - 1) else 0
  }

  /** The number of leading characters before a stop character (`is_not`). */
  function TextSpan(s: string): (n: nat)
    ensures n <= |s|
    ensures forall i :: 0 <= i < n ==> !IsStopChar(s[i])
    ensures n < |s| ==> IsStopChar(s[n])
    decreases |s|
  {
    if |s| > 0 && !IsStopChar(s[0]) then 1 + TextSpan(s[1..]) else 0
  }

  // -------------------------------------------------------------- tags

  /** `StyleTag::identifier`: the name of the `format!` argument. */
  function Identifier(t: StyleTag): string {
    match t
    case StyleNamed(s) => "__macro_style_custom_" + s + "__"
    case StyleClearAll => "__macro_style_clear_all__"
    case StyleClearBg => "__macro_style_clear_bg__"
    case StyleClearFg => "__macro_style_clear_fg__"
  }

  /** `StyleTag::literal`: the style name handed to `render_style`. */
  function StyleLiteral(t: StyleTag): string {
    match t
    case StyleNamed(s) => "custom_" + s
    case StyleClearAll => "clear_all"
    case StyleClearBg => "clear_bg"
    case StyleClearFg => "clear_fg"
  }

  /** The argument name is the style name wrapped in `__macro_style_`
      and `__`. */
  lemma IdentifierWrapsLiteral(t: StyleTag)
    ensures Identifier(t) == "__macro_style_" + StyleLiteral(t) + "__"
  {
  }

  /** The characters that tell style names apart: the second says custom or
      clearing, the seventh which clearing. */
  lemma StyleLiteralKind(t: StyleTag)
    ensures |StyleLiteral(t)| >= 7
    ensures StyleLiteral(t)[1] == (if t.StyleNamed? then 'u' else 'l')
    ensures t.StyleNamed? ==> StyleLiteral(t)[..7] == "custom_"
    ensures !t.StyleNamed? ==>
              StyleLiteral(t)[6] == (if t == StyleClearAll then 'a' else if t == StyleClearBg then 'b' else 'f')
  {
  }

  /** Different tags ask `render_style` for different styles. */
  lemma StyleLiteralInjective(a: StyleTag, b: StyleTag)
    requires StyleLiteral(a) == StyleLiteral(b)
    ensures a == b
  {
    StyleLiteralKind(a);
    StyleLiteralKind(b);
    if a.StyleNamed? && b.StyleNamed? {
      assert a.name == StyleLiteral(a)[7..];
      assert b.name == StyleLiteral(b)[7..];
    }
  }

  /** Different tags get different argument names, so a name always
      identifies its tag. */
  lemma IdentifierInjective(a: StyleTag, b: StyleTag)
    requires Identifier(a) == Identifier(b)
    ensures a == b
  {
    IdentifierWrapsLiteral(a);
    IdentifierWrapsLiteral(b);
    var n := |Identifier(a)|;
    assert StyleLiteral(a) == Identifier(a)[14..n - 2];
    assert StyleLiteral(b) == Identifier(b)[14..n - 2];
    StyleLiteralInjective(a, b);
  }

  // ---------------------------------------------------- segment parsers

  /** The escape letters `one_of` accepts. */
  const SINGLE_ESCAPES: string := "nrt\\0'\""

  /** The character a single escape letter stands for; the quote `'` has
      none. */
  function EscapeChar(c: char): char
    requires c in SINGLE_ESCAPES && c != '\''
  {
    if c == 'n' then '\n'
    else if c == 'r' then '\r'
    else if c == 't' then '\t'
    else if c == '\\' then '\\'
    else if c == '0' then '\0'
    else '"'
  }

  /** `parse_single_escape`: the letter's character; `\'` is accepted by
      `one_of` and then panics in the mapping. */
  function ParseSingleEscape(s: string): (r: PResult<Segment>)
    ensures r.Parsed? ==> && r.value.EscapeSegment? && IsEscapeCode(r.value.code)
                          && "\\" + s == SegmentSource(r.value) + r.rest
    ensures r.Crash? ==> |s| > 0 && s[0] == '\''
  {
    if |s| > 0 && s[0] in SINGLE_ESCAPES then
      if s[0] == '\'' then Crash else Parsed(EscapeSegment([EscapeChar(s[0])]), s[1..])
    else NoMatch
  }

  /** `parse_ascii_escape`: `x` and exactly two hex digits, kept as text. */
  function ParseAsciiEscape(s: string): (r: PResult<Segment>)
    ensures !r.Crash?
    ensures r.Parsed? ==> && r.value.EscapeSegment? && IsEscapeCode(r.value.code)
                          && "\\" + s == SegmentSource(r.value) + r.rest
  {
    if |s| > 0 && s[0] == 'x' && HexSpan(s[1..], 2) == 2 then
      var code := "x" + s[1..3];
      assert s == code + s[3..];
      assert code[1..] == s[1..3];
      Parsed(EscapeSegment(code), s[3..])
    else NoMatch
  }

  /** `parse_unicode_escape`: `u{`, one to six hex digits, `}`, kept as text. */
  function ParseUnicodeEscape(s: string): (r: PResult<Segment>)
    ensures !r.Crash?
    ensures r.Parsed? ==> && r.value.EscapeSegment? && IsEscapeCode(r.value.code)
                          && "\\" + s == SegmentSource(r.value) + r.rest
  {
    if |s| > 1 && s[0] == 'u' && s[1] == '{' then
      var n := HexSpan(s[2..], 6);
      if n >= 1 && 2 + n < |s| && s[2 + n] == '}' then
        var code := "u{" + s[2..2 + n] + "}";
        UnicodeCodeSplit(s, s[2..2 + n], code, s[3 + n..]);
        Parsed(EscapeSegment(code), s[3 + n..])
      else NoMatch
    else NoMatch
  }

  /** The text after `\u{…}`'s backslash is the code and the rest. */
  lemma UnicodeCodeSplit(s: string, digits: string, code: string, rest: string)
    requires 1 <= |digits| <= 6 && IsHexText(digits)
    requires |s| == 3 + |digits| + |rest| && s[..2] == "u{" && s[2..2 + |digits|] == digits
    requires s[2 + |digits|] == '}' && rest == s[3 + |digits|..]
    requires code == "u{" + digits + "}"
    ensures IsEscapeCode(code) && |code| != 1
    ensures "\\" + s == SegmentSource(EscapeSegment(code)) + rest
  {
    assert code[2..|code| - 1] == digits;
    assert code[..2] == "u{";
    assert SegmentSource(EscapeSegment(code)) == "\\" + code;
    assert s == code + rest;
  }

  /** `parse_color_tag_escape`: a `<` that opens no tag. */
  function ParseColorTagEscape(s: string): (r: PResult<Segment>)
    ensures !r.Crash?
    ensures r.Parsed? ==> && r.value == TextSegment("<") && !IsMiscSegment(r.value)
                          && "\\" + s == SegmentSource(r.value) + r.rest
  {
    if |s| > 0 && s[0] == '<' then
      assert s == "<" + s[1..];
      assert IsStopChar("<"[0]);
      Parsed(TextSegment("<"), s[1..])
    else NoMatch
  }

  /** `parse_backslash_escape_segment`: a backslash, then the first of the
      four escape forms that matches. */
  function ParseBackslashEscape(s: string): (r: PResult<Segment>)
    ensures r.Parsed? ==> && !r.value.StyleSegment? && !IsMiscSegment(r.value)
                          && WellFormedSegment(r.value) && s == SegmentSource(r.value) + r.rest
    ensures r.Crash? ==> StartsWith(s, "\\'")
  {
    if |s| > 0 && s[0] == '\\' then
      var t := s[1..];
      assert s == "\\" + t;
      if !ParseSingleEscape(t).NoMatch? then ParseSingleEscape(t)
      else if ParseAsciiEscape(t).Parsed? then ParseAsciiEscape(t)
      else if ParseUnicodeEscape(t).Parsed? then ParseUnicodeEscape(t)
      else ParseColorTagEscape(t)
    else NoMatch
  }

  /** `parse_misc_segment`: the longest non-empty run free of stop
      characters. */
  function ParseMiscSegment(s: string): PResult<Segment> {
    var n := TextSpan(s);
    if n > 0 then Parsed(TextSegment(s[..n]), s[n..]) else NoMatch
  }

  /** The alternatives inside a tag, tried in the source's order. A leading
      `/` always wins, so the `//` and `///` alternatives are never reached. */
  function ParseColorType(t: string): (r: PResult<StyleTag>)
    ensures !r.Crash?
    ensures r.Parsed? ==> WellFormedTag(r.value) && t == TagText(r.value) + r.rest
  {
    if StartsWith(t, "/") then Parsed(StyleClearAll, t[1..])
    else if StartsWith(t, "//") then Parsed(StyleClearFg, Drop(t, 2))
    else if StartsWith(t, "///") then Parsed(StyleClearBg, Drop(t, 3))
    else if ParseSnakeCaseLabel(t).Parsed? then
      Parsed(StyleNamed(ParseSnakeCaseLabel(t).value), ParseSnakeCaseLabel(t).rest)
    else NoMatch
  }

  /** `parse_color_tag_segment`: `<`, a tag, `>`. */
  function ParseColorTagSegment(s: string): (r: PResult<Segment>)
    ensures r.Parsed? ==> && r.value.StyleSegment? && WellFormedSegment(r.value)
                          && s == SegmentSource(r.value) + r.rest
  {
    if |s| > 0 && s[0] == '<' then
      var c := ParseColorType(s[1..]);
      if c.Parsed? && |c.rest| > 0 && c.rest[0] == '>' then
        TagSplit(s, TagText(c.value), c.rest);
        Parsed(StyleSegment(c.value), c.rest[1..])
      else NoMatch
    else NoMatch
  }

  lemma TagSplit(s: string, text: string, after: string)
    requires |s| > 0 && s[0] == '<' && s[1..] == text + after
    requires |after| > 0 && after[0] == '>'
    ensures s == "<" + text + ">" + after[1..]
  {
    assert s == "<" + s[1..];
    assert after == ">" + after[1..];
  }

  // ------------------------------------------------ printing segments

  /** The escape letter for a character a single escape stands for. */
  function EscapeLetter(c: char): char {
    if c == '\n' then 'n'
    else if c == '\r' then 'r'
    else if c == '\t' then 't'
    else if c == '\\' then '\\'
    else if c == '\0' then '0'
    else '"'
  }

  /** A text run as the misc parser returns it. */
  predicate IsMiscText(t: string) {
    |t| > 0 && forall i :: 0 <= i < |t| ==> !IsStopChar(t[i])
  }

  predicate IsMiscSegment(seg: Segment) {
    seg.TextSegment? && IsMiscText(seg.text)
  }

  predicate IsHexText(h: string) {
    forall i :: 0 <= i < |h| ==> IsHexChar(h[i])
  }

  /** The escape segments the parser produces. */
  predicate IsEscapeCode(code: string) {
    || (|code| == 1 && code[0] in "\n\r\t\\\0\"")
    || (|code| == 3 && code[0] == 'x' && IsHexText(code[1..]))
    || (4 <= |code| <= 9 && code[..2] == "u{" && code[|code| - 1] == '}' && IsHexText(code[2..|code| - 1]))
  }

  /** A segment the parser can produce. */
  predicate WellFormedSegment(seg: Segment) {
    match seg
    case EscapeSegment(code) => IsEscapeCode(code)
    case TextSegment(t) => t == "<" || IsMiscText(t)
    case StyleSegment(tag) => WellFormedTag(tag)
  }

  /** The tags the parser can produce: `</>` and labels. */
  predicate WellFormedTag(tag: StyleTag) {
    tag == StyleClearAll || (tag.StyleNamed? && IsLabel(tag.name))
  }

  /** The text between `<` and `>` of a tag. */
  function TagText(tag: StyleTag): string {
    match tag
    case StyleClearAll => "/"
    case StyleClearFg => "//"
    case StyleClearBg => "///"
    case StyleNamed(l) => l
  }

  /** A segment sequence the parser can produce: every segment well formed
      and no text run directly after another (the parser would have read
      them as one). */
  predicate WellFormed(segs: seq<Segment>) {
    && (forall i :: 0 <= i < |segs| ==> WellFormedSegment(segs[i]))
    && (forall i :: 0 <= i < |segs| - 1 ==> !(IsMiscSegment(segs[i]) && IsMiscSegment(segs[i + 1])))
  }

  /** The literal text a segment is read from. */
  function SegmentSource(seg: Segment): string {
    match seg
    case EscapeSegment(code) => if |code| == 1 then "\\" + [EscapeLetter(code[0])] else "\\" + code
    case TextSegment(t) => if t == "<" then "\\<" else t
    case StyleSegment(tag) => "<" + TagText(tag) + ">"
  }

  /** The literal text of a segment sequence, without the quotes. */
  function Source(segs: seq<Segment>): string
    decreases |segs|
  {
    if |segs| == 0 then "" else SegmentSource(segs[0]) + Source(segs[1..])
  }

  /** Text that can follow a segment without being read into it: for a text
      run, the next character must stop it. */
  predicate CanFollow(seg: Segment, rest: string) {
    IsMiscSegment(seg) ==> |rest| == 0 || IsStopChar(rest[0])
  }

  // ------------------------------------------------------ the grammar

  /** One segment: a tag, an escape or a text run, in that order. */
  function ParseSegment(s: string): (r: PResult<Segment>)
    ensures r.Parsed? ==>
              && WellFormedSegment(r.value)
              && s == SegmentSource(r.value) + r.rest
              && |SegmentSource(r.value)| > 0
              && CanFollow(r.value, r.rest)
              && (IsMiscSegment(r.value) <==> !IsStopChar(s[0]))
    ensures r.NoMatch? ==> |s| == 0 || s[0] == '"' || s[0] == '<' || s[0] == '\\'
    ensures r.Crash? ==> StartsWith(s, "\\'")
  {
    if ParseColorTagSegment(s).Parsed? then ParseColorTagSegment(s)
    else if ParseBackslashEscape(s).Parsed? then ParseBackslashEscape(s)
    else if ParseBackslashEscape(s).Crash? then Crash
    else
      MiscSource(s);
      ParseMiscSegment(s)
  }

  lemma MiscSource(s: string)
    ensures var r := ParseMiscSegment(s);
            r.Parsed? ==> IsMiscSegment(r.value) && s == r.value.text + r.rest && CanFollow(r.value, r.rest)
  {
    var n := TextSpan(s);
    assert s == s[..n] + s[n..];
  }

  /** `many0` over segments: as many as parse, stopping at the first input
      none of the three alternatives accepts. */
  function ParseSegments(s: string): (r: PResult<seq<Segment>>)
    ensures !r.NoMatch?
    ensures r.Parsed? ==>
              && WellFormed(r.value)
              && s == Source(r.value) + r.rest
              && ParseSegment(r.rest).NoMatch?
              && (|r.value| > 0 ==> CanFollow(r.value[|r.value| - 1], r.rest))
              && (|r.value| > 0 ==> (IsMiscSegment(r.value[0]) <==> !IsStopChar(s[0])))
    decreases |s|
  {
    match ParseSegment(s)
    case Crash => Crash
    case NoMatch => Parsed([], s)
    case Parsed(seg, rest) =>
      match ParseSegments(rest)
      case Parsed(segs, rest2) =>
        SegmentsCons(seg, segs, s, rest, rest2);
        Parsed([seg] + segs, rest2)
      case _ => Crash
  }

  lemma SegmentsCons(seg: Segment, segs: seq<Segment>, s: string, rest: string, rest2: string)
    requires WellFormedSegment(seg) && WellFormed(segs)
    requires s == SegmentSource(seg) + rest && rest == Source(segs) + rest2
    requires CanFollow(seg, rest)
    requires |segs| > 0 ==> (IsMiscSegment(segs[0]) <==> !IsStopChar(rest[0]))
    requires |segs| > 0 ==> CanFollow(segs[|segs| - 1], rest2)
    requires |segs| == 0 ==> rest == rest2
    ensures WellFormed([seg] + segs)
    ensures s == Source([seg] + segs) + rest2
    ensures CanFollow(([seg] + segs)[|segs|], rest2)
  {
    var all := [seg] + segs;
    assert |segs| > 0 && IsMiscSegment(seg) ==> !IsMiscSegment(segs[0]) by {
      if |segs| > 0 && IsMiscSegment(seg) {
        SourceNonEmpty(segs);
        assert rest[0] == Source(segs)[0];
      }
    }
    WellFormedCons(seg, segs);
    assert s == Source(all) + rest2 by {
      SourceCons(seg, segs);
      Associative(SegmentSource(seg), Source(segs), rest2);
    }
    assert all[|segs|] == if |segs| > 0 then segs[|segs| - 1] else seg;
  }

  lemma SourceCons(seg: Segment, segs: seq<Segment>)
    ensures Source([seg] + segs) == SegmentSource(seg) + Source(segs)
  {
    assert ([seg] + segs)[1..] == segs;
  }

  lemma WellFormedCons(seg: Segment, segs: seq<Segment>)
    requires WellFormedSegment(seg) && WellFormed(segs)
    requires |segs| > 0 && IsMiscSegment(seg) ==> !IsMiscSegment(segs[0])
    ensures WellFormed([seg] + segs)
  {
    var all := [seg] + segs;
    assert forall i :: 1 <= i < |all| ==> all[i] == segs[i - 1];
  }

  lemma SourceNonEmpty(segs: seq<Segment>)
    requires |segs| > 0 && WellFormedSegment(segs[0])
    ensures |Source(segs)| > 0
  {
  }

  /** `parse_format_literal`: a quote, the segments, a quote, the end of
      the input. Any other input is an `InvalidEscape`. */
  function ParseFormatLiteral(input: string): (r: LiteralOutcome)
    ensures r.Accepted? ==>
              WellFormed(r.literal.segments) && input == "\"" + Source(r.literal.segments) + "\""
    ensures r.Rejected? ==> r.error == InvalidEscape
  {
    if |input| == 0 || input[0] != '"' then Rejected(InvalidEscape)
    else
      match ParseSegments(input[1..])
      case Crash => Panicked
      case NoMatch => Rejected(InvalidEscape)
      case Parsed(segs, rest) =>
        if rest == "\"" then
          QuotedInput(input, Source(segs));
          Accepted(FormatLiteral(segs))
        else Rejected(InvalidEscape)
  }

  lemma QuotedInput(input: string, body: string)
    requires |input| > 0 && input[0] == '"' && input[1..] == body + "\""
    ensures input == "\"" + body + "\""
  {
    assert input == "\"" + input[1..];
  }

  // ------------------------------------------------------- round trip

  /** A well-formed segment is read back from its source, whatever may
      follow it. */
  lemma SegmentRoundTrip(seg: Segment, rest: string)
    requires WellFormedSegment(seg) && CanFollow(seg, rest)
    ensures ParseSegment(SegmentSource(seg) + rest) == Parsed(seg, rest)
  {
    match seg
    case StyleSegment(tag) => TagRoundTrip(tag, rest);
    case EscapeSegment(code) => EscapeRoundTrip(code, rest);
    case TextSegment(text) =>
      if text == "<" {
        EscapedLessRoundTrip(rest);
      } else {
        TextRoundTrip(text, rest);
      }
  }

  lemma EscapedLessRoundTrip(rest: string)
    ensures ParseSegment("\\<" + rest) == Parsed(TextSegment("<"), rest)
  {
    var s := "\\<" + rest;
    assert s[1..] == "<" + rest;
  }

  lemma TagRoundTrip(tag: StyleTag, rest: string)
    requires WellFormedTag(tag)
    ensures ParseSegment(SegmentSource(StyleSegment(tag)) + rest) == Parsed(StyleSegment(tag), rest)
  {
    var s := SegmentSource(StyleSegment(tag)) + rest;
    assert s == "<" + (TagText(tag) + (">" + rest));
    assert s[1..] == TagText(tag) + (">" + rest);
    ColorTypeRoundTrip(tag, ">" + rest);
    assert (">" + rest)[1..] == rest;
  }

  lemma ColorTypeRoundTrip(tag: StyleTag, rest: string)
    requires WellFormedTag(tag) && |rest| > 0 && rest[0] == '>'
    ensures ParseColorType(TagText(tag) + rest) == Parsed(tag, rest)
  {
    var t := TagText(tag) + rest;
    if tag == StyleClearAll {
      assert t == "/" + rest;
      assert StartsWith(t, "/");
    } else {
      var l := tag.name;
      assert t[0] == l[0];
      assert !StartsWith(t, "/") && !StartsWith(t, "//") && !StartsWith(t, "///");
      LabelRoundTrip(l, rest);
    }
  }

  lemma EscapeRoundTrip(code: string, rest: string)
    requires IsEscapeCode(code)
    ensures ParseSegment(SegmentSource(EscapeSegment(code)) + rest) == Parsed(EscapeSegment(code), rest)
  {
    var s := SegmentSource(EscapeSegment(code)) + rest;
    var t := s[1..];
    assert s == "\\" + t;
    assert ParseColorTagSegment(s).NoMatch?;
    if |code| == 1 {
      SingleEscapeRoundTrip(code[0], rest);
      assert t == [EscapeLetter(code[0])] + rest;
      assert [code[0]] == code;
    } else if code[0] == 'x' {
      assert t == code + rest;
      AsciiEscapeRoundTrip(code, rest);
    } else {
      assert t == code + rest;
      UnicodeEscapeRoundTrip(code, rest);
    }
  }

  lemma SingleEscapeRoundTrip(c: char, rest: string)
    requires c in "\n\r\t\\\0\""
    ensures ParseSingleEscape([EscapeLetter(c)] + rest) == Parsed(EscapeSegment([c]), rest)
  {
    var t := [EscapeLetter(c)] + rest;
    assert t[0] == EscapeLetter(c) && t[1..] == rest;
    assert EscapeChar(EscapeLetter(c)) == c;
  }

  lemma AsciiEscapeRoundTrip(code: string, rest: string)
    requires |code| == 3 && code[0] == 'x' && IsHexText(code[1..])
    ensures ParseSingleEscape(code + rest).NoMatch?
    ensures ParseAsciiEscape(code + rest) == Parsed(EscapeSegment(code), rest)
  {
    var t := code + rest;
    assert t[0] == 'x';
    assert IsHexChar(t[1..][0]) && IsHexChar(t[1..][1]);
    assert t[1..3] == code[1..];
    assert code == "x" + code[1..];
    assert t[3..] == rest;
  }

  lemma UnicodeEscapeRoundTrip(code: string, rest: string)
    requires 4 <= |code| <= 9 && code[..2] == "u{" && code[|code| - 1] == '}'
    requires IsHexText(code[2..|code| - 1])
    ensures ParseSingleEscape(code + rest).NoMatch?
    ensures ParseAsciiEscape(code + rest).NoMatch?
    ensures ParseUnicodeEscape(code + rest) == Parsed(EscapeSegment(code), rest)
  {
    UnicodeNotShorter(code, rest);
    UnicodeParsed(code, rest);
  }

  /** Text opening with `u{` is neither a single escape nor `x`. */
  lemma UnicodeNotShorter(code: string, rest: string)
    requires |code| >= 2 && code[..2] == "u{"
    ensures ParseSingleEscape(code + rest).NoMatch?
    ensures ParseAsciiEscape(code + rest).NoMatch?
  {
    assert (code + rest)[0] == 'u';
  }

  lemma UnicodeParsed(code: string, rest: string)
    requires 4 <= |code| <= 9 && code[..2] == "u{" && code[|code| - 1] == '}'
    requires IsHexText(code[2..|code| - 1])
    ensures ParseUnicodeEscape(code + rest) == Parsed(EscapeSegment(code), rest)
  {
    var t := code + rest;
    var h := code[2..|code| - 1];
    UnicodeTextParts(code, rest, h);
    HexSpanOfRun(h, "}" + rest, 6);
    assert HexSpan(t[2..], 6) == |h|;
  }

  /** How `u{h}` followed by `rest` splits into its parts. */
  lemma UnicodeTextParts(code: string, rest: string, h: string)
    requires 4 <= |code| <= 9 && code[..2] == "u{" && code[|code| - 1] == '}'
    requires h == code[2..|code| - 1]
    ensures code == "u{" + h + "}"
    ensures var t := code + rest;
            && t[0] == 'u' && t[1] == '{' && t[2..] == h + ("}" + rest)
            && t[2..2 + |h|] == h && t[2 + |h|] == '}' && t[3 + |h|..] == rest
  {
    assert code == code[..2] + h + [code[|code| - 1]];
  }

  lemma TextRoundTrip(text: string, rest: string)
    requires IsMiscText(text) && (|rest| == 0 || IsStopChar(rest[0]))
    ensures ParseSegment(text + rest) == Parsed(TextSegment(text), rest)
  {
    var s := text + rest;
    assert s[0] == text[0];
    TextSpanOfRun(text, rest);
    assert s[..|text|] == text;
  }

  lemma {:induction false} HexSpanOfRun(h: string, rest: string, max: nat)
    requires IsHexText(h) && |h| <= max
    requires |rest| > 0 && !IsHexChar(rest[0])
    ensures HexSpan(h + rest, max) == |h|
    decreases |h|
  {
    if |h| == 0 {
      assert h + rest == rest;
    } else {
      assert (h + rest)[1..] == h[1..] + rest;
      HexSpanOfRun(h[1..], rest, max - 1);
    }
  }

  lemma {:induction false} TextSpanOfRun(t: string, rest: string)
    requires forall i :: 0 <= i < |t| ==> !IsStopChar(t[i])
    requires |rest| == 0 || IsStopChar(rest[0])
    ensures TextSpan(t + rest) == |t|
    decreases |t|
  {
    if |t| == 0 {
      assert t + rest == rest;
    } else {
      assert (t + rest)[1..] == t[1..] + rest;
      TextSpanOfRun(t[1..], rest);
    }
  }

  /** Printing then parsing gives the segments back, up to a closing quote. */
  lemma {:induction false} SegmentsRoundTrip(segs: seq<Segment>, tail: string)
    requires WellFormed(segs)
    requires |tail| > 0 && tail[0] == '"'
    ensures ParseSegments(Source(segs) + tail) == Parsed(segs, tail)
    decreases |segs|
  {
    if |segs| == 0 {
      assert Source(segs) + tail == tail;
    } else {
      var later := Source(segs[1..]) + tail;
      SplitFirst(segs, tail);
      SegmentRoundTrip(segs[0], later);
      SegmentsRoundTrip(segs[1..], tail);
      SegmentsStep(SegmentSource(segs[0]) + later, segs[0], later, segs[1..], tail);
      assert [segs[0]] + segs[1..] == segs;
    }
  }

  /** One step of `many0`: a segment, then the rest of the segments. */
  lemma SegmentsStep(s: string, seg: Segment, rest: string, segs: seq<Segment>, rest2: string)
    requires ParseSegment(s) == Parsed(seg, rest)
    requires ParseSegments(rest) == Parsed(segs, rest2)
    ensures ParseSegments(s) == Parsed([seg] + segs, rest2)
  {
  }

  /** Peeling the first segment off a well-formed sequence followed by a
      stop character. */
  lemma SplitFirst(segs: seq<Segment>, tail: string)
    requires WellFormed(segs) && |segs| > 0
    requires |tail| > 0 && IsStopChar(tail[0])
    ensures WellFormed(segs[1..])
    ensures CanFollow(segs[0], Source(segs[1..]) + tail)
    ensures Source(segs) + tail == SegmentSource(segs[0]) + (Source(segs[1..]) + tail)
  {
    WellFormedTail(segs);
    FirstCanFollow(segs, tail);
  }

  lemma WellFormedTail(segs: seq<Segment>)
    requires WellFormed(segs) && |segs| > 0
    ensures WellFormed(segs[1..])
  {
    forall i | 0 <= i < |segs[1..]| ensures segs[1..][i] == segs[i + 1] { }
  }

  lemma FirstCanFollow(segs: seq<Segment>, tail: string)
    requires WellFormed(segs) && |segs| > 0
    requires |tail| > 0 && IsStopChar(tail[0])
    ensures CanFollow(segs[0], Source(segs[1..]) + tail)
  {
    if |segs| > 1 && IsMiscSegment(segs[0]) {
      assert !IsMiscSegment(segs[1]);
      SourceStartsStop(segs[1..]);
    }
  }

  /** A sequence that does not open with a text run prints starting with a
      backslash or a `<`. */
  lemma SourceStartsStop(segs: seq<Segment>)
    requires |segs| > 0 && WellFormedSegment(segs[0]) && !IsMiscSegment(segs[0])
    ensures |Source(segs)| > 0 && IsStopChar(Source(segs)[0])
  {
    var first := SegmentSource(segs[0]);
    assert Source(segs) == first + Source(segs[1..]);
    assert first[0] == '\\' || first[0] == '<';
  }

  /** The parser accepts exactly the quoted sources of well-formed segment
      sequences, and returns those segments. */
  lemma ParseCharacterisation(input: string, f: FormatLiteral)
    ensures ParseFormatLiteral(input) == Accepted(f) <==>
              WellFormed(f.segments) && input == "\"" + Source(f.segments) + "\""
  {
    if WellFormed(f.segments) && input == "\"" + Source(f.segments) + "\"" {
      QuotedSourceAccepted(f.segments);
    }
  }

  /** The quoted source of well-formed segments parses back to them. */
  lemma QuotedSourceAccepted(segs: seq<Segment>)
    requires WellFormed(segs)
    ensures ParseFormatLiteral("\"" + Source(segs) + "\"") == Accepted(FormatLiteral(segs))
  {
    var body := Source(segs) + "\"";
    SegmentsRoundTrip(segs, "\"");
    Associative("\"", Source(segs), "\"");
    AcceptedAfterQuote("\"" + body, body, segs);
  }

  lemma AcceptedAfterQuote(input: string, body: string, segs: seq<Segment>)
    requires input == "\"" + body && ParseSegments(body) == Parsed(segs, "\"")
    ensures ParseFormatLiteral(input) == Accepted(FormatLiteral(segs))
  {
    assert input[1..] == body;
  }

  // ------------------------------------------------------------ quirks

  /** `\'` passes the escape class and then panics, wherever it first
      appears after well-formed text. */
  lemma SingleQuoteEscapePanics(segs: seq<Segment>, after: string)
    requires WellFormed(segs)
    ensures ParseFormatLiteral("\"" + Source(segs) + "\\'" + after) == Panicked
  {
    var body := Source(segs);
    var tail := "\\'" + after;
    assert "\"" + body + "\\'" + after == "\"" + (body + tail);
    PanicAfter(segs, tail, "\"" + (body + tail));
  }

  lemma PanicAfter(segs: seq<Segment>, tail: string, input: string)
    requires WellFormed(segs) && |tail| > 1 && tail[0] == '\\' && tail[1] == '\''
    requires input == "\"" + (Source(segs) + tail)
    ensures ParseFormatLiteral(input) == Panicked
  {
    assert input[1..] == Source(segs) + tail;
    assert StartsWith(tail, "\\'");
    PrefixThenCrash(segs, tail);
    CrashPanics(input);
  }

  /** A panic inside the segments is a panic of the whole parse. */
  lemma CrashPanics(input: string)
    requires |input| > 0 && input[0] == '"' && ParseSegments(input[1..]).Crash?
    ensures ParseFormatLiteral(input) == Panicked
  {
  }

  /** Quoted text none of whose segments parse is rejected. */
  lemma NoSegmentRejected(input: string)
    requires |input| > 1 && input[0] == '"' && input[1..] != "\""
    requires ParseSegment(input[1..]).NoMatch?
    ensures ParseFormatLiteral(input) == Rejected(InvalidEscape)
  {
    assert ParseSegments(input[1..]) == Parsed([], input[1..]);
  }

  lemma {:induction false} PrefixThenCrash(segs: seq<Segment>, tail: string)
    requires WellFormed(segs)
    requires StartsWith(tail, "\\'")
    ensures ParseSegments(Source(segs) + tail).Crash?
    decreases |segs|
  {
    if |segs| == 0 {
      assert Source(segs) + tail == tail;
      assert tail[1..][0] == '\'';
      assert ParseColorTagSegment(tail).NoMatch?;
    } else {
      var later := Source(segs[1..]) + tail;
      SplitFirst(segs, tail);
      SegmentRoundTrip(segs[0], later);
      PrefixThenCrash(segs[1..], tail);
    }
  }

  /** Only `</>` clears: the parser never yields the foreground or
      background clearing tags, and `<//>` and `<///>` are errors. */
  lemma ClearingTagsUnreachable(input: string)
    requires ParseFormatLiteral(input).Accepted?
    ensures forall i :: 0 <= i < |ParseFormatLiteral(input).literal.segments| ==>
              ParseFormatLiteral(input).literal.segments[i] != StyleSegment(StyleClearFg)
              && ParseFormatLiteral(input).literal.segments[i] != StyleSegment(StyleClearBg)
  {
  }

  lemma DoubleSlashTagRejected()
    ensures ParseFormatLiteral("\"<//>\"") == Rejected(InvalidEscape)
    ensures ParseFormatLiteral("\"<///>\"") == Rejected(InvalidEscape)
  {
    SlashRunRejected("\"<//>\"");
    SlashRunRejected("\"<///>\"");
  }

  /** After `</`, anything but `>` leaves the tag unparsed. */
  lemma SlashRunRejected(input: string)
    requires |input| > 4 && input[..4] == "\"<//" && input[1..] != "\""
    ensures ParseFormatLiteral(input) == Rejected(InvalidEscape)
  {
    var s := input[1..];
    assert s[0] == '<' && s[1..][0] == '/' && s[1..][1..][0] == '/';
    assert ParseColorType(s[1..]) == Parsed(StyleClearAll, s[1..][1..]);
    assert ParseColorTagSegment(s).NoMatch?;
    assert ParseBackslashEscape(s).NoMatch?;
    NoSegmentRejected(input);
  }

  /** A one-letter tag is not a label: `<b>` is an error. */
  lemma OneLetterTagRejected()
    ensures ParseFormatLiteral("\"<b>\"") == Rejected(InvalidEscape)
  {
    var input := "\"<b>\"";
    var s := input[1..];
    assert s[1..] == "b>\"";
    assert ParseSnakeCaseLabel(s[1..]).NoMatch?;
    assert ParseColorTagSegment(s).NoMatch?;
    assert ParseBackslashEscape(s).NoMatch?;
    NoSegmentRejected(input);
  }

  // ---------------------------------------------------------- display

  /** `Display` of a segment as written: escapes and text print what they
      store, a tag prints as the placeholder `{identifier}`. */
  function SegmentDisplay(seg: Segment): string {
    match seg
    case EscapeSegment(s) => s
    case StyleSegment(t) => "{" + Identifier(t) + "}"
    case TextSegment(s) => s
  }

  /** `Display` of a format literal: the segments' displays in order. */
  function Display(segs: seq<Segment>): string
    decreases |segs|
  {
    if |segs| == 0 then "" else SegmentDisplay(segs[0]) + Display(segs[1..])
  }

  /** `style_tags`: the tags of the style segments, in order, repeats kept. */
  function StyleTags(segs: seq<Segment>): (r: seq<StyleTag>)
    ensures |r| <= |segs|
    decreases |segs|
  {
    if |segs| == 0 then []
    else (if segs[0].StyleSegment? then [segs[0].tag] else []) + StyleTags(segs[1..])
  }

  /** Set against the literal it was read from, text displays as the
      literal spells it, an escaped `<` and a hex escape display their
      source without the backslash, and a one-letter escape displays one
      character for its two. */
  lemma DisplayedSource(seg: Segment)
    ensures seg.TextSegment? && seg.text != "<" ==> SegmentDisplay(seg) == SegmentSource(seg)
    ensures seg.TextSegment? && seg.text == "<" ==> SegmentSource(seg) == "\\" + SegmentDisplay(seg)
    ensures seg.EscapeSegment? && |seg.code| != 1 ==> SegmentSource(seg) == "\\" + SegmentDisplay(seg)
    ensures seg.EscapeSegment? && |seg.code| == 1 ==> |SegmentDisplay(seg)| == 1 && |SegmentSource(seg)| == 2
  {
  }

  /** The display of a run of segments is the displays of its parts. */
  lemma {:induction false} DisplayAppend(a: seq<Segment>, b: seq<Segment>)
    ensures Display(a + b) == Display(a) + Display(b)
    decreases |a|
  {
    var c := a + b;
    if |a| == 0 {
      assert c == b;
    } else {
      DisplayAppend(a[1..], b);
      assert c[0] == a[0] && c[1..] == a[1..] + b;
      DisplayFirst(a);
      DisplayFirst(c);
      Associative(SegmentDisplay(a[0]), Display(a[1..]), Display(b));
    }
  }

  lemma DisplayFirst(a: seq<Segment>)
    requires |a| > 0
    ensures Display(a) == SegmentDisplay(a[0]) + Display(a[1..])
  {
  }

  /** `style_tags` distributes over concatenation. */
  lemma {:induction false} StyleTagsAppend(a: seq<Segment>, b: seq<Segment>)
    ensures StyleTags(a + b) == StyleTags(a) + StyleTags(b)
    decreases |a|
  {
    var c := a + b;
    if |a| == 0 {
      assert c == b;
    } else {
      StyleTagsAppend(a[1..], b);
      assert c[0] == a[0] && c[1..] == a[1..] + b;
      Associative(StyleTags([a[0]]), StyleTags(a[1..]), StyleTags(b));
      TagsFirst(a);
      TagsFirst(c);
    }
  }

  lemma TagsFirst(a: seq<Segment>)
    requires |a| > 0
    ensures StyleTags(a) == StyleTags([a[0]]) + StyleTags(a[1..])
  {
    assert [a[0]][1..] == [];
  }

  /** One segment: its display is its own, and `style_tags` keeps its tag
      exactly when it is a style segment. Together with the two lemmas
      above, `style_tags` is the filter of the style segments' tags. */
  lemma OneSegment(seg: Segment)
    ensures Display([seg]) == SegmentDisplay(seg)
    ensures seg.StyleSegment? ==> StyleTags([seg]) == [seg.tag]
    ensures !seg.StyleSegment? ==> StyleTags([seg]) == []
  {
    assert [seg][1..] == [];
  }

  /** Every tag `style_tags` lists has its placeholder in the display, and a
      tag is listed exactly when some style segment holds it. */
  lemma {:induction false} StyleTagsHavePlaceholders(segs: seq<Segment>)
    ensures forall t :: t in StyleTags(segs) <==> StyleSegment(t) in segs
    ensures forall t :: t in StyleTags(segs) ==> Occurs("{" + Identifier(t) + "}", Display(segs))
    decreases |segs|
  {
    if |segs| > 0 {
      StyleTagsHavePlaceholders(segs[1..]);
      assert segs == [segs[0]] + segs[1..];
      forall t | t in StyleTags(segs)
        ensures Occurs("{" + Identifier(t) + "}", Display(segs))
      {
        var p := "{" + Identifier(t) + "}";
        if segs[0] == StyleSegment(t) {
          assert StartsWith(Display(segs)[0..], p);
        } else {
          assert t in StyleTags(segs[1..]);
          OccursExtend(p, Display(segs[1..]), SegmentDisplay(segs[0]), "");
          assert SegmentDisplay(segs[0]) + Display(segs[1..]) + "" == Display(segs);
        }
      }
    }
  }

  /** As written, a `\x` escape displays as the letter `x` and its digits:
      the literal `"\x41"` becomes the text `x41`, not `A`. */
  lemma HexEscapeDisplaysDigits()
    ensures ParseFormatLiteral("\"\\x41\"") == Accepted(FormatLiteral([EscapeSegment("x41")]))
    ensures Display([EscapeSegment("x41")]) == "x41"
  {
    var segs := [EscapeSegment("x41")];
    assert WellFormed(segs) by { assert IsHexText("41"); }
    assert "\"" + Source(segs) + "\"" == "\"\\x41\"" by {
      assert Source(segs) == "\\x41";
    }
    QuotedSourceAccepted(segs);
  }
}

=== FILE: host.dfy ===
/** What the wrapper learns from the host it runs or builds on. */
module Host {
  import opened Bytes

  /** The target family the Rust code branches on with `cfg!(unix)` and
      `cfg!(windows)`; `OtherOs` is neither. */
  datatype Platform = Unix | Windows | OtherOs

  /** An OS string (a path or an environment value): either valid Unicode,
      which `to_str` and `into_string` accept, or raw bytes they refuse. */
  datatype OsString = Unicode(text: string) | NonUnicode(raw: seq<byte>)

  /** The outcome of `std::env::var` for one variable. */
  datatype EnvValue = EnvUnicode(text: string) | EnvNotUnicode

  /** An I/O error reported by the operating system, reduced to its code. */
  datatype IoError = IoError(code: int)
}

=== FILE: launcher.dfy ===
/** The runtime launcher (wrapper/src/erlang_launcher.rs): the `erl` command
    line and environment built from the install layout, and what becomes of
    the process on each platform. Replacing the process image, spawning a
    child and exiting are outcomes here, with the operating system's answers
    as parameters. */
module Launcher {
  import opened Wrappers
  import opened Host
  import opened Errors
  import opened ReleaseLayout

  /** A `std::process::Command`: the program, its arguments in order and the
      environment assignments in the order they were made. */
  datatype Command = Command(program: string, args: seq<string>, envs: seq<(string, string)>)

  /** What `CommandExt::exec` does: replace the process, or come back with
      an error. */
  datatype ExecResult = ExecReplacedImage | ExecReturned(execError: IoError)

  /** What `spawn` followed by `wait` does. `ChildExited(None)` is a child
      ended by a signal. */
  datatype SpawnResult = SpawnFailed(spawnError: IoError) | WaitFailed(waitError: IoError) | ChildExited(code: Option<int>)

  /** How `launch_app` ends: the process became the runtime, the wrapper
      exited with the child's code, the wrapper aborted, or an error came
      back. `launch_app` never returns `Ok`. */
  datatype LaunchOutcome =
    | Replaced(replacedBy: Command)
    | ChildExit(child: Command, exitCode: int)
    | ChildAbort(aborted: Command)
    | Failed(error: LauncherError)

  // ------------------------------------------- reading a command back

  /** The value that follows the first occurrence of `flag`. */
  function ArgAfter(args: seq<string>, flag: string): Option<string>
    decreases |args|
  {
    if |args| < 2 then None
    else if args[0] == flag then Some(args[1])
    else ArgAfter(args[1..], flag)
  }

  /** The arguments after the first `-extra`: what the runtime hands to the
      application untouched. */
  function AfterExtra(args: seq<string>): Option<seq<string>>
    decreases |args|
  {
    if |args| == 0 then None
    else if args[0] == "-extra" then Some(args[1..])
    else AfterExtra(args[1..])
  }

  /** The value the command assigns to an environment variable: the last
      assignment to it wins. `None` means the command assigns none, and the
      child sees whatever the wrapper's own environment holds. */
  function EnvLookup(envs: seq<(string, string)>, key: string): Option<string>
    decreases |envs|
  {
    if |envs| == 0 then None
    else if envs[|envs| - 1].0 == key then Some(envs[|envs| - 1].1)
    else EnvLookup(envs[..|envs| - 1], key)
  }

  // ---------------------------------------------------------- building

  /** `buf_to_string`: the path's text, or an `EncodingError` naming it. */
  function BufToString(name: string, p: Path): (r: Result<string, LauncherError>)
    ensures r.Success? <==> Renders(p)
    ensures r.Success? ==> Some(r.value) == Render(p)
    ensures r.Failure? ==> r.error == EncodingError(name)
  {
    RenderCharacterisation(p);
    match Render(p)
    case Some(text) => Success(text)
    case None => Failure(EncodingError(name))
  }

  /** The flags that precede the cookie, in order. */
  const LEADING_FLAGS: seq<string> := ["-elixir ansi_enabled true", "-noshell", "-s elixir start_cli", "-mode embedded"]

  /** The path texts the command is built from, once all are Unicode. */
  datatype LaunchPaths = LaunchPaths(
    erlBin: string, boot: string, lib: string, vmArgs: string,
    configSys: string, installDir: string, configNoExt: string, ertsBin: string)

  /** The command once every input is known. */
  function CommandOf(p: LaunchPaths, cookie: string, sysArgs: seq<string>, platform: Platform): (cmd: Command)
    ensures |cmd.args| == 16 + |sysArgs|
    ensures cmd.args[|cmd.args| - |sysArgs| - 1] == "-extra"
    ensures cmd.args[|cmd.args| - |sysArgs|..] == sysArgs
  {
    var args := LEADING_FLAGS
      + ["-setcookie", cookie, "-boot", p.boot, "-boot_var", "RELEASE_LIB", p.lib,
         "-args_file", p.vmArgs, "-config", p.configSys];
    var envs := [("RELEASE_ROOT", p.installDir), ("RELEASE_SYS_CONFIG", p.configNoExt)]
      + (if platform != Windows
         then [("ROOTDIR", p.installDir), ("BINDIR", p.ertsBin), ("EMU", "beam"), ("PROGNAME", "erl")]
         else []);
    Command(p.erlBin, args + ["-extra"] + sysArgs, envs)
  }

  /** Every path `launch_app` converts, in its order, and the cookie. The
      cookie read sits second, so a root that cannot be rendered is reported
      as the erl bin path's error before the cookie is looked at.
      `cookieRead` is what reading the cookie file returned. */
  function BuildCommand(rel: Release, sysArgs: seq<string>, cookieRead: Option<string>,
                        platform: Platform): (r: Result<Command, LauncherError>)
    ensures r.Success? <==> Renders(rel.installDir) && cookieRead.Some?
    ensures !Renders(rel.installDir) ==> r == Failure(EncodingError("erl bin path"))
    ensures Renders(rel.installDir) && cookieRead.None? ==> r == Failure(CookieReadError)
    ensures r.Success? ==> Some(r.value.program) == Render(ErlBinPath(rel, platform))
  {
    RenderCharacterisation(rel.installDir);
    var erlBin :- BufToString("erl bin path", ErlBinPath(rel, platform));
    var cookie :- match LoadCookieFile(rel, cookieRead)
                  case Success(text) => Success(text)
                  case Failure(_) => Failure(CookieReadError);
    // Every later path is the root with one relative piece pushed, so once
    // the first conversion has succeeded none of these can fail.
    var boot := BufToString("boot path", BootPath(rel)).value;
    var lib := BufToString("release lib path", LibPath(rel)).value;
    var vmArgs := BufToString("vm args path", InstallVmArgsPath(rel)).value;
    var configSys := BufToString("config sys path", ConfigSysPath(rel)).value;
    var installDir := BufToString("install directory", rel.installDir).value;
    var configNoExt := BufToString("config sys path", ConfigSysPathNoExt(rel)).value;
    var ertsBin := BufToString("erts bin path", ErtsBinPath(rel)).value;
    Success(CommandOf(LaunchPaths(erlBin, boot, lib, vmArgs, configSys, installDir, configNoExt, ertsBin),
                      cookie, sysArgs, platform))
  }

  /** `launch_app`: build the command, then hand over to the runtime as the
      platform does it. */
  function LaunchApp(rel: Release, sysArgs: seq<string>, cookieRead: Option<string>, platform: Platform,
                     exec: ExecResult, spawn: SpawnResult): (r: LaunchOutcome)
    ensures (BuildCommand(rel, sysArgs, cookieRead, platform).Failure?)
              ==> r == Failed(BuildCommand(rel, sysArgs, cookieRead, platform).error)
    ensures r.Replaced? ==> platform == Unix && exec.ExecReplacedImage?
    ensures r.ChildExit? || r.ChildAbort? ==> platform == Windows && spawn.ChildExited?
    ensures r.Failed? && r.error.ErlangError? ==>
              (platform == Unix && exec == ExecReturned(r.error.cause))
              || (platform == Windows && (spawn == SpawnFailed(r.error.cause) || spawn == WaitFailed(r.error.cause)))
    ensures r == Failed(UnsupportedPlatformError) <==>
              platform == OtherOs && BuildCommand(rel, sysArgs, cookieRead, platform).Success?
    ensures var b := BuildCommand(rel, sysArgs, cookieRead, platform);
            b.Success? && platform == Unix ==>
              && (exec.ExecReplacedImage? ==> r == Replaced(b.value))
              && (exec.ExecReturned? ==> r == Failed(ErlangError(exec.execError)))
    ensures var b := BuildCommand(rel, sysArgs, cookieRead, platform);
            b.Success? && platform == Windows ==>
              && (spawn.ChildExited? && spawn.code.Some? ==> r == ChildExit(b.value, spawn.code.value))
              && (spawn == ChildExited(None) ==> r == ChildAbort(b.value))
              && (spawn.SpawnFailed? ==> r == Failed(ErlangError(spawn.spawnError)))
              && (spawn.WaitFailed? ==> r == Failed(ErlangError(spawn.waitError)))
  {
    match BuildCommand(rel, sysArgs, cookieRead, platform)
    case Failure(e) => Failed(e)
    case Success(cmd) =>
      if platform == Unix then
        match exec
        case ExecReplacedImage => Replaced(cmd)
        case ExecReturned(e) => Failed(ErlangError(e))
      else if platform == Windows then
        match spawn
        case SpawnFailed(e) => Failed(ErlangError(e))
        case WaitFailed(e) => Failed(ErlangError(e))
        case ChildExited(Some(code)) => ChildExit(cmd, code)
        case ChildExited(None) => ChildAbort(cmd)
      else Failed(UnsupportedPlatformError)
  }

  // ------------------------------------------------------------ lemmas

  /** The paths a successful build puts on the command line. */
  function PathsOf(rel: Release, platform: Platform): LaunchPaths
    requires Render(rel.installDir).Some?
  {
    LaunchPaths(Render(ErlBinPath(rel, platform)).value, Render(BootPath(rel)).value, Render(LibPath(rel)).value,
                Render(InstallVmArgsPath(rel)).value, Render(ConfigSysPath(rel)).value, Render(rel.installDir).value,
                Render(ConfigSysPathNoExt(rel)).value, Render(ErtsBinPath(rel)).value)
  }

  lemma BuildCommandShape(rel: Release, sysArgs: seq<string>, cookieRead: Option<string>, platform: Platform)
    requires BuildCommand(rel, sysArgs, cookieRead, platform).Success?
    ensures BuildCommand(rel, sysArgs, cookieRead, platform).value
         == CommandOf(PathsOf(rel, platform), cookieRead.value, sysArgs, platform)
  {
  }

  /** With an absolute release name the command is built even over a
      non-Unicode data directory, since the version directory replaces it. */
  lemma AbsoluteReleaseNameBuilds(parsedMeta: Option<Archiver.PayloadMetadata>, releaseName: string,
                                  env: map<string, EnvValue>, dataDir: Option<OsString>,
                                  sysArgs: seq<string>, cookie: string, platform: Platform)
    requires IsAbsolute(releaseName)
    requires Load(parsedMeta, releaseName, env, dataDir).Success?
    ensures BuildCommand(Load(parsedMeta, releaseName, env, dataDir).value, sysArgs, Some(cookie), platform).Success?
  {
    var root := Load(parsedMeta, releaseName, env, dataDir).value.installDir;
    assert IsAbsolute(root.pushed[1]) by {
      assert root.pushed[1][0] == releaseName[0];
    }
  }

  /** A path pushed with a piece that holds a separator renders with one. */
  lemma PushedPieceKeepsSeparator(path: string, piece: string)
    requires '/' in piece
    ensures '/' in PushText(path, piece)
  {
    var r := PushText(path, piece);
    var k :| 0 <= k < |piece| && piece[k] == '/';
    if |piece| > 0 && piece[0] == '/' {
    } else if |path| == 0 || path[|path| - 1] == '/' {
      assert r[|path| + k] == '/';
    } else {
      assert r[|path| + 1 + k] == '/';
    }
  }

  lemma JoinedHasSeparator(p: Path, piece: string)
    requires '/' in piece
    requires Render(Join(p, piece)).Some?
    ensures '/' in Render(Join(p, piece)).value
  {
    var q := Join(p, piece);
    assert q.pushed[..|q.pushed| - 1] == p.pushed;
    if Render(p).Some? {
      PushedPieceKeepsSeparator(Render(p).value, piece);
    }
  }

  /** The fixed words of the command line, in order, ending with `-extra`. */
  const WORDS: seq<string> := LEADING_FLAGS
    + ["-setcookie", "-boot", "-boot_var", "RELEASE_LIB", "-args_file", "-config", "-extra"]

  lemma WordsDistinct()
    ensures |WORDS| == 11
    ensures forall i, j :: 0 <= i < j < |WORDS| ==> WORDS[i] != WORDS[j]
    ensures forall i :: 0 <= i < |WORDS| ==> '/' !in WORDS[i]
  {
  }

  /** Every path the command line carries holds a separator, so none of
      them can be taken for one of the fixed words. */
  predicate PathsHaveSeparators(p: LaunchPaths) {
    '/' in p.boot && '/' in p.lib && '/' in p.vmArgs && '/' in p.configSys
  }

  lemma BuiltPathsHaveSeparators(rel: Release, platform: Platform)
    requires Render(rel.installDir).Some?
    ensures PathsHaveSeparators(PathsOf(rel, platform))
  {
    JoinedHasSeparator(rel.installDir, "releases/" + rel.releaseMeta.appVersion + "/start");
    JoinedHasSeparator(rel.installDir, "lib/");
    JoinedHasSeparator(rel.installDir, "releases/" + rel.releaseMeta.appVersion + "/vm.args");
    JoinedHasSeparator(rel.installDir, "releases/" + rel.releaseMeta.appVersion + "/sys.config");
  }

  /** The arguments before `-extra`. */
  function EmulatorArgs(p: LaunchPaths, cookie: string): seq<string> {
    var w := WORDS;
    [w[0], w[1], w[2], w[3], w[4], cookie, w[5], p.boot, w[6], w[7], p.lib, w[8], p.vmArgs, w[9], p.configSys]
  }

  lemma CommandArgsLayout(p: LaunchPaths, cookie: string, sysArgs: seq<string>, platform: Platform)
    ensures CommandOf(p, cookie, sysArgs, platform).args == EmulatorArgs(p, cookie) + [WORDS[10]] + sysArgs
  {
  }

  /** The flags a command carries, read back from its argument list. */
  lemma CommandOfFlags(p: LaunchPaths, cookie: string, sysArgs: seq<string>, platform: Platform)
    requires PathsHaveSeparators(p)
    requires cookie !in ["-boot", "-boot_var", "RELEASE_LIB", "-args_file", "-config"]
    ensures var args := CommandOf(p, cookie, sysArgs, platform).args;
            && ArgAfter(args, "-setcookie") == Some(cookie)
            && ArgAfter(args, "-boot") == Some(p.boot)
            && ArgAfter(args, "-boot_var") == Some("RELEASE_LIB")
            && ArgAfter(args, "RELEASE_LIB") == Some(p.lib)
            && ArgAfter(args, "-args_file") == Some(p.vmArgs)
            && ArgAfter(args, "-config") == Some(p.configSys)
  {
    CommandArgsLayout(p, cookie, sysArgs, platform);
    var fixed := EmulatorArgs(p, cookie);
    EarlyFlags(p, cookie);
    LateFlags(p, cookie);
    ArgAfterExtends(fixed, [WORDS[10]] + sysArgs);
    assert fixed + [WORDS[10]] + sysArgs == fixed + ([WORDS[10]] + sysArgs);
  }

  lemma EarlyFlags(p: LaunchPaths, cookie: string)
    requires PathsHaveSeparators(p)
    requires cookie !in ["-boot", "-boot_var"]
    ensures var args := EmulatorArgs(p, cookie);
            && ArgAfter(args, "-setcookie") == Some(cookie)
            && ArgAfter(args, "-boot") == Some(p.boot)
            && ArgAfter(args, "-boot_var") == Some("RELEASE_LIB")
  {
    FixedFlag(p, cookie, 4, 4);
    FixedFlag(p, cookie, 6, 5);
    FixedFlag(p, cookie, 8, 6);
  }

  lemma LateFlags(p: LaunchPaths, cookie: string)
    requires PathsHaveSeparators(p)
    requires cookie !in ["RELEASE_LIB", "-args_file", "-config"]
    ensures var args := EmulatorArgs(p, cookie);
            && ArgAfter(args, "RELEASE_LIB") == Some(p.lib)
            && ArgAfter(args, "-args_file") == Some(p.vmArgs)
            && ArgAfter(args, "-config") == Some(p.configSys)
  {
    FixedFlag(p, cookie, 9, 7);
    FixedFlag(p, cookie, 11, 8);
    FixedFlag(p, cookie, 13, 9);
  }

  /** The fixed word `WORDS[w]` sits at position `i`, and nothing before it
      spells it, so the argument after it is its value. */
  lemma FixedFlag(p: LaunchPaths, cookie: string, i: nat, w: nat)
    requires PathsHaveSeparators(p)
    requires (i, w) in {(4, 4), (6, 5), (8, 6), (9, 7), (11, 8), (13, 9)}
    requires i > 5 ==> cookie != WORDS[w]
    ensures ArgAfter(EmulatorArgs(p, cookie), WORDS[w]) == Some(EmulatorArgs(p, cookie)[i + 1])
  {
    WordsDistinct();
    var fixed := EmulatorArgs(p, cookie);
    forall k | 0 <= k < i ensures fixed[k] != WORDS[w] {
      if k == 7 || k == 10 || k == 12 {
        assert '/' in fixed[k];
      }
    }
    FlagAt(fixed, i, WORDS[w]);
  }

  /** On success the runtime is told the cookie, the boot script, the
      library root, the vm.args file and the sys.config file, each as the
      value after its flag, and the library root is bound to `RELEASE_LIB`. */
  lemma CommandFlags(rel: Release, sysArgs: seq<string>, cookieRead: Option<string>, platform: Platform)
    requires BuildCommand(rel, sysArgs, cookieRead, platform).Success?
    requires cookieRead.value !in ["-boot", "-boot_var", "RELEASE_LIB", "-args_file", "-config"]
    ensures var args := BuildCommand(rel, sysArgs, cookieRead, platform).value.args;
            && ArgAfter(args, "-setcookie") == cookieRead
            && ArgAfter(args, "-boot") == Render(BootPath(rel))
            && ArgAfter(args, "-boot_var") == Some("RELEASE_LIB")
            && ArgAfter(args, "RELEASE_LIB") == Render(LibPath(rel))
            && ArgAfter(args, "-args_file") == Render(InstallVmArgsPath(rel))
            && ArgAfter(args, "-config") == Render(ConfigSysPath(rel))
  {
    BuildCommandShape(rel, sysArgs, cookieRead, platform);
    BuiltPathsHaveSeparators(rel, platform);
    CommandOfFlags(PathsOf(rel, platform), cookieRead.value, sysArgs, platform);
  }

  /** The value after a flag at `i` that no earlier argument spells. */
  lemma {:induction false} FlagAt(args: seq<string>, i: nat, flag: string)
    requires i + 1 < |args| && args[i] == flag
    requires forall k :: 0 <= k < i ==> args[k] != flag
    ensures ArgAfter(args, flag) == Some(args[i + 1])
    decreases i
  {
    if i > 0 {
      FlagAt(args[1..], i - 1, flag);
    }
  }

  /** Arguments appended after a flag and its value do not change it. */
  lemma ArgAfterExtends(fixed: seq<string>, more: seq<string>)
    ensures forall flag :: ArgAfter(fixed, flag).Some? ==> ArgAfter(fixed + more, flag) == ArgAfter(fixed, flag)
  {
    forall flag | ArgAfter(fixed, flag).Some?
      ensures ArgAfter(fixed + more, flag) == ArgAfter(fixed, flag)
    {
      ArgAfterAppend(fixed, more, flag);
    }
  }

  lemma {:induction false} ArgAfterAppend(fixed: seq<string>, more: seq<string>, flag: string)
    requires ArgAfter(fixed, flag).Some?
    ensures ArgAfter(fixed + more, flag) == ArgAfter(fixed, flag)
    decreases |fixed|
  {
    var all := fixed + more;
    assert all[0] == fixed[0] && all[1] == fixed[1];
    if fixed[0] != flag {
      assert all[1..] == fixed[1..] + more;
      ArgAfterAppend(fixed[1..], more, flag);
    }
  }

  /** The application's own arguments reach it unchanged after `-extra`,
      unless the cookie itself reads `-extra`. */
  lemma ExtraArgumentsReachApp(rel: Release, sysArgs: seq<string>, cookieRead: Option<string>, platform: Platform)
    requires BuildCommand(rel, sysArgs, cookieRead, platform).Success?
    requires cookieRead.value != "-extra"
    ensures AfterExtra(BuildCommand(rel, sysArgs, cookieRead, platform).value.args) == Some(sysArgs)
  {
    BuildCommandShape(rel, sysArgs, cookieRead, platform);
    BuiltPathsHaveSeparators(rel, platform);
    var p := PathsOf(rel, platform);
    CommandArgsLayout(p, cookieRead.value, sysArgs, platform);
    EmulatorArgsAvoidExtra(p, cookieRead.value);
    AfterExtraSkips(EmulatorArgs(p, cookieRead.value), sysArgs);
  }

  /** No argument before `-extra` spells it: the fixed words differ from
      it, the paths hold a separator it lacks, and the cookie is not it. */
  lemma EmulatorArgsAvoidExtra(p: LaunchPaths, cookie: string)
    requires PathsHaveSeparators(p) && cookie != "-extra"
    ensures forall k :: 0 <= k < |EmulatorArgs(p, cookie)| ==> EmulatorArgs(p, cookie)[k] != "-extra"
  {
    WordsDistinct();
    var fixed := EmulatorArgs(p, cookie);
    forall k | 0 <= k < |fixed|
      ensures fixed[k] != WORDS[10]
    {
      if k == 7 || k == 10 || k == 12 || k == 14 {
        assert '/' in fixed[k];
      }
    }
  }

  lemma {:induction false} AfterExtraSkips(fixed: seq<string>, rest: seq<string>)
    requires forall k :: 0 <= k < |fixed| ==> fixed[k] != "-extra"
    ensures AfterExtra(fixed + ["-extra"] + rest) == Some(rest)
    decreases |fixed|
  {
    var all := fixed + ["-extra"] + rest;
    if |fixed| == 0 {
      assert all == ["-extra"] + rest;
      assert all[1..] == rest;
    } else {
      assert all[0] == fixed[0];
      assert all[1..] == fixed[1..] + ["-extra"] + rest;
      AfterExtraSkips(fixed[1..], rest);
    }
  }

  /** The names of the variables the command sets, in order. */
  const ENV_KEYS: seq<string> := ["RELEASE_ROOT", "RELEASE_SYS_CONFIG", "ROOTDIR", "BINDIR", "EMU", "PROGNAME"]

  lemma EnvKeysDistinct()
    ensures |ENV_KEYS| == 6
    ensures forall i, j :: 0 <= i < j < |ENV_KEYS| ==> ENV_KEYS[i] != ENV_KEYS[j]
  {
  }

  lemma CommandEnvLayout(p: LaunchPaths, cookie: string, sysArgs: seq<string>, platform: Platform)
    ensures var k := ENV_KEYS;
            CommandOf(p, cookie, sysArgs, platform).envs
              == if platform != Windows
                 then [(k[0], p.installDir), (k[1], p.configNoExt), (k[2], p.installDir),
                       (k[3], p.ertsBin), (k[4], "beam"), (k[5], "erl")]
                 else [(k[0], p.installDir), (k[1], p.configNoExt)]
  {
  }

  /** The child's environment, read back from a command. */
  lemma CommandOfEnvironment(p: LaunchPaths, cookie: string, sysArgs: seq<string>, platform: Platform)
    ensures var envs := CommandOf(p, cookie, sysArgs, platform).envs;
            && EnvLookup(envs, "RELEASE_ROOT") == Some(p.installDir)
            && EnvLookup(envs, "RELEASE_SYS_CONFIG") == Some(p.configNoExt)
            && EnvLookup(envs, "ROOTDIR") == (if platform != Windows then Some(p.installDir) else None)
            && EnvLookup(envs, "BINDIR") == (if platform != Windows then Some(p.ertsBin) else None)
            && EnvLookup(envs, "EMU") == (if platform != Windows then Some("beam") else None)
            && EnvLookup(envs, "PROGNAME") == (if platform != Windows then Some("erl") else None)
  {
    EnvEntry(p, cookie, sysArgs, platform, 0);
    EnvEntry(p, cookie, sysArgs, platform, 1);
    EnvEntry(p, cookie, sysArgs, platform, 2);
    EnvEntry(p, cookie, sysArgs, platform, 3);
    EnvEntry(p, cookie, sysArgs, platform, 4);
    EnvEntry(p, cookie, sysArgs, platform, 5);
  }

  /** The `i`th environment key, read back: set everywhere for the first
      two, and only off Windows for the rest. */
  lemma EnvEntry(p: LaunchPaths, cookie: string, sysArgs: seq<string>, platform: Platform, i: nat)
    requires i < 6
    ensures EnvLookup(CommandOf(p, cookie, sysArgs, platform).envs, ENV_KEYS[i])
         == if i < 2 || platform != Windows
            then Some([p.installDir, p.configNoExt, p.installDir, p.ertsBin, "beam", "erl"][i])
            else None
  {
    CommandEnvLayout(p, cookie, sysArgs, platform);
    EnvKeysDistinct();
    var envs := CommandOf(p, cookie, sysArgs, platform).envs;
    if i < 2 || platform != Windows {
      EnvAt(envs, i, ENV_KEYS[i]);
    } else {
      EnvAbsent(envs, ENV_KEYS[i]);
    }
  }

  /** The child's environment: the release root and the sys config stem
      everywhere, and on every non-Windows target also the runtime's root,
      binary directory, emulator and program names. */
  lemma CommandEnvironment(rel: Release, sysArgs: seq<string>, cookieRead: Option<string>, platform: Platform)
    requires BuildCommand(rel, sysArgs, cookieRead, platform).Success?
    ensures var envs := BuildCommand(rel, sysArgs, cookieRead, platform).value.envs;
            && EnvLookup(envs, "RELEASE_ROOT") == Render(rel.installDir)
            && EnvLookup(envs, "RELEASE_SYS_CONFIG") == Render(ConfigSysPathNoExt(rel))
            && EnvLookup(envs, "ROOTDIR") == (if platform != Windows then Render(rel.installDir) else None)
            && EnvLookup(envs, "BINDIR") == (if platform != Windows then Render(ErtsBinPath(rel)) else None)
            && EnvLookup(envs, "EMU") == (if platform != Windows then Some("beam") else None)
            && EnvLookup(envs, "PROGNAME") == (if platform != Windows then Some("erl") else None)
  {
    BuildCommandShape(rel, sysArgs, cookieRead, platform);
    CommandOfEnvironment(PathsOf(rel, platform), cookieRead.value, sysArgs, platform);
  }

  /** The value of the assignment at `i` that no later one overrides. */
  lemma {:induction false} EnvAt(envs: seq<(string, string)>, i: nat, key: string)
    requires i < |envs| && envs[i].0 == key
    requires forall k :: i < k < |envs| ==> envs[k].0 != key
    ensures EnvLookup(envs, key) == Some(envs[i].1)
    decreases |envs|
  {
    if i < |envs| - 1 {
      EnvAt(envs[..|envs| - 1], i, key);
    }
  }

  lemma {:induction false} EnvAbsent(envs: seq<(string, string)>, key: string)
    requires forall k :: 0 <= k < |envs| ==> envs[k].0 != key
    ensures EnvLookup(envs, key).None?
    decreases |envs|
  {
    if |envs| > 0 {
      EnvAbsent(envs[..|envs| - 1], key);
    }
  }
}

=== FILE: literal_text.dfy ===
/** The text a format literal stands for. As written, the `Display` of a
    format literal (wrapper/src/proc_macros/format_literal_parser.rs:67-75)
    prints a `\x` or `\u{…}` escape as its letters, so `"\x41"` becomes
    `x41` and `"\u{e9}"` becomes `u{e9}` (whose braces `format!` then reads
    as a placeholder). This module gives each escape the character a Rust
    string literal gives it, and checks the result against an unescaper
    written directly on the literal's text. */
module LiteralText {
  import opened Wrappers
  import opened PrimitiveParsers
  import opened FormatLiteralParser

  /** The value of one hex digit. */
  function HexDigitValue(c: char): (v: nat)
    requires IsHexChar(c)
    ensures v < 16
  {
    if '0' <= c <= '9' then c as int - '0' as int
    else if 'a' <= c <= 'f' then c as int - 'a' as int + 10
    else c as int - 'A' as int + 10
  }

  /** The number a run of hex digits spells, most significant first. */
  function HexValue(h: string): nat
    requires IsHexText(h)
    decreases |h|
  {
    if |h| == 0 then 0 else 16 * HexValue(h[..|h| - 1]) + HexDigitValue(h[|h| - 1])
  }

  /** A Unicode scalar value: the code points a `char` can hold. */
  predicate IsScalar(v: int) {
    0 <= v < 0xD800 || 0xE000 <= v < 0x11_0000
  }

  /** Both texts, or none when either is missing. */
  function Join(a: Option<string>, b: Option<string>): (r: Option<string>)
    ensures r.Some? <==> a.Some? && b.Some?
    ensures r.Some? ==> r.value == a.value + b.value
  {
    if a.Some? && b.Some? then Some(a.value + b.value) else None
  }

  /** The character an escape the parser keeps stands for: a single escape
      is already the character; `\xHH` is the code point HH, which a string
      literal allows up to 0x7F; `\u{H…}` is the code point H…, which must be
      a Unicode scalar value. None when the escape names no character. */
  function EscapeMeaning(code: string): (r: Option<string>)
    requires IsEscapeCode(code)
    ensures r.Some? ==> |r.value| == 1
    ensures |code| == 1 ==> r == Some(code)
  {
    if |code| == 1 then Some(code)
    else if code[0] == 'x' then
      var v := HexValue(code[1..]);
      if v <= 0x7F then Some([v as char]) else None
    else
      assert code[..2] == "u{";
      var v := HexValue(code[2..|code| - 1]);
      if IsScalar(v) then Some([v as char]) else None
  }

  /** A segment's part of the corrected display: escapes by what they
      stand for, text as itself, a tag as its `{identifier}` placeholder. */
  function CookedSegment(seg: Segment): Option<string> {
    match seg
    case EscapeSegment(code) => if IsEscapeCode(code) then EscapeMeaning(code) else Some(code)
    case StyleSegment(t) => Some("{" + Identifier(t) + "}")
    case TextSegment(s) => Some(s)
  }

  /** The corrected display: the segments' parts in order, or none when an
      escape names no character. */
  function CookedDisplay(segs: seq<Segment>): (r: Option<string>)
    ensures r.Some? <==> forall i :: 0 <= i < |segs| ==> CookedSegment(segs[i]).Some?
    decreases |segs|
  {
    if |segs| == 0 then Some("")
    else
      var r := Join(CookedSegment(segs[0]), CookedDisplay(segs[1..]));
      assert forall i :: 1 <= i < |segs| ==> segs[i] == segs[1..][i - 1];
      r
  }

  // ------------------------------------------------------ reference

  /** The first position at or after `from` holding `c`, or `|s|`. */
  function IndexOf(s: string, c: char, from: nat): (k: nat)
    requires from <= |s|
    ensures from <= k <= |s|
    ensures forall i :: from <= i < k ==> s[i] != c
    ensures k < |s| ==> s[k] == c
    decreases |s| - from
  {
    if from == |s| || s[from] == c then from else IndexOf(s, c, from + 1)
  }

  function Prefix(p: string, o: Option<string>): Option<string> {
    if o.Some? then Some(p + o.value) else None
  }

  /** The text a tag-free literal body stands for, read directly: Rust's
      string escapes `\n \r \t \\ \0 \"`, the `\<` of style literals,
      `\x` with two hex digits up to 0x7F, `\u{…}` with one to six hex
      digits naming a Unicode scalar value; anything else after a backslash,
      and a trailing backslash, is an error. */
  function Unescape(s: string): Option<string>
    decreases |s|
  {
    if |s| == 0 then Some("")
    else if s[0] != '\\' then Prefix([s[0]], Unescape(s[1..]))
    else if |s| == 1 then None
    else if s[1] == 'n' then Prefix("\n", Unescape(s[2..]))
    else if s[1] == 'r' then Prefix("\r", Unescape(s[2..]))
    else if s[1] == 't' then Prefix("\t", Unescape(s[2..]))
    else if s[1] == '\\' then Prefix("\\", Unescape(s[2..]))
    else if s[1] == '0' then Prefix("\0", Unescape(s[2..]))
    else if s[1] == '"' then Prefix("\"", Unescape(s[2..]))
    else if s[1] == '<' then Prefix("<", Unescape(s[2..]))
    else if s[1] == 'x' then
      if |s| >= 4 && IsHexChar(s[2]) && IsHexChar(s[3]) then
        var v := 16 * HexDigitValue(s[2]) + HexDigitValue(s[3]);
        if v <= 0x7F then Prefix([v as char], Unescape(s[4..])) else None
      else None
    else if s[1] == 'u' then
      if |s| >= 3 && s[2] == '{' then
        var k := IndexOf(s, '}', 3);
        if k < |s| && 1 <= k - 3 <= 6 && IsHexText(s[3..k]) && IsScalar(HexValue(s[3..k])) then
          Prefix([HexValue(s[3..k]) as char], Unescape(s[k + 1..]))
        else None
      else None
    else None
  }

  predicate TagFree(segs: seq<Segment>) {
    forall i :: 0 <= i < |segs| ==> !segs[i].StyleSegment?
  }

  // ---------------------------------------------------------- lemmas

  /** For a tag-free literal the corrected display is exactly the text the
      literal stands for, and it exists exactly when the literal has one. */
  lemma {:induction false} CookedIsUnescaped(segs: seq<Segment>)
    requires WellFormed(segs) && TagFree(segs)
    ensures CookedDisplay(segs) == Unescape(Source(segs))
    decreases |segs|
  {
    if |segs| > 0 {
      WellFormedTail(segs);
      CookedIsUnescaped(segs[1..]);
      SegmentUnescaped(segs[0], Source(segs[1..]));
    }
  }

  /** One segment's source, followed by anything, unescapes to the
      segment's meaning followed by the rest's. */
  lemma SegmentUnescaped(seg: Segment, rest: string)
    requires WellFormedSegment(seg) && !seg.StyleSegment?
    ensures Unescape(SegmentSource(seg) + rest) == Join(CookedSegment(seg), Unescape(rest))
  {
    match seg
    case TextSegment(t) =>
      if t == "<" {
        assert ("\\<" + rest)[2..] == rest;
      } else {
        TextUnescaped(t, rest);
      }
    case EscapeSegment(code) => EscapeUnescaped(code, rest);
  }

  lemma EscapeUnescaped(code: string, rest: string)
    requires IsEscapeCode(code)
    ensures Unescape(SegmentSource(EscapeSegment(code)) + rest) == Join(CookedSegment(EscapeSegment(code)), Unescape(rest))
  {
    if |code| == 1 {
      assert code == [code[0]];
      SingleUnescaped(code[0], rest);
    } else if code[0] == 'x' {
      HexUnescaped(code, rest);
    } else {
      assert code[..2] == "u{";
      UnicodeUnescaped(code, rest);
      assert SegmentSource(EscapeSegment(code)) + rest == "\\" + code + rest;
    }
  }

  lemma {:induction false} TextUnescaped(t: string, rest: string)
    requires forall i :: 0 <= i < |t| ==> t[i] != '\\'
    ensures Unescape(t + rest) == Join(Some(t), Unescape(rest))
    decreases |t|
  {
    if |t| == 0 {
      assert t + rest == rest;
      if Unescape(rest).Some? {
        assert t + Unescape(rest).value == Unescape(rest).value;
      }
    } else {
      assert (t + rest)[0] == t[0] && (t + rest)[1..] == t[1..] + rest;
      TextUnescaped(t[1..], rest);
      if Unescape(rest).Some? {
        assert [t[0]] + (t[1..] + Unescape(rest).value) == t + Unescape(rest).value;
      }
    }
  }

  lemma SingleUnescaped(c: char, rest: string)
    requires c in "\n\r\t\\\0\""
    ensures Unescape("\\" + [EscapeLetter(c)] + rest) == Join(Some([c]), Unescape(rest))
  {
    var s := "\\" + [EscapeLetter(c)] + rest;
    assert s[2..] == rest;
  }

  lemma HexUnescaped(code: string, rest: string)
    requires |code| == 3 && code[0] == 'x' && IsHexText(code[1..])
    ensures IsEscapeCode(code)
    ensures Unescape("\\" + code + rest) == Join(EscapeMeaning(code), Unescape(rest))
  {
    var s := "\\" + code + rest;
    assert s[2] == code[1] && s[3] == code[2] && s[4..] == rest;
    HexValueTwo(code[1..]);
  }

  lemma HexValueTwo(h: string)
    requires |h| == 2 && IsHexText(h)
    ensures HexValue(h) == 16 * HexDigitValue(h[0]) + HexDigitValue(h[1])
  {
    assert h[..1][..0] == [];
    assert HexValue(h[..1]) == HexDigitValue(h[0]);
  }

  lemma UnicodeUnescaped(code: string, rest: string)
    requires 4 <= |code| <= 9 && code[..2] == "u{" && code[|code| - 1] == '}'
    requires IsHexText(code[2..|code| - 1])
    ensures IsEscapeCode(code)
    ensures Unescape("\\" + code + rest) == Join(EscapeMeaning(code), Unescape(rest))
  {
    var s := "\\" + code + rest;
    var h := code[2..|code| - 1];
    var k := |code|;
    assert s[1] == 'u' && s[2] == '{';
    assert s[3..k] == h;
    assert s[k] == '}';
    forall i | 3 <= i < k
      ensures s[i] != '}'
    {
      assert s[i] == h[i - 3];
    }
    assert IndexOf(s, '}', 3) == k by { IndexOfFirst(s, '}', 3, k); }
    assert s[k + 1..] == rest;
  }

  lemma {:induction false} IndexOfFirst(s: string, c: char, from: nat, k: nat)
    requires from <= k < |s| && s[k] == c
    requires forall i :: from <= i < k ==> s[i] != c
    ensures IndexOf(s, c, from) == k
    decreases k - from
  {
    if from < k {
      IndexOfFirst(s, c, from + 1, k);
    }
  }

  /** Without `\x` and `\u` escapes the display as written is already the
      corrected one. */
  lemma {:induction false} DisplayAgreesWithoutHexEscapes(segs: seq<Segment>)
    requires forall i :: 0 <= i < |segs| ==> segs[i].EscapeSegment? ==> |segs[i].code| == 1
    ensures CookedDisplay(segs) == Some(Display(segs))
    decreases |segs|
  {
    if |segs| > 0 {
      DisplayAgreesWithoutHexEscapes(segs[1..]);
    }
  }

  /** The escapes the display as written prints as letters: `\x41` is `A`,
      `\u{e9}` is `é`, and `\x80` and `\u{d800}` name no character. */
  lemma HexEscapesCooked()
    ensures CookedDisplay([EscapeSegment("x41")]) == Some("A")
    ensures CookedDisplay([EscapeSegment("u{e9}")]) == Some("é")
    ensures CookedDisplay([EscapeSegment("x80")]) == None
    ensures CookedDisplay([EscapeSegment("u{d800}")]) == None
  {
    TwoDigitsCooked("x41", "41", 0x41);
    CookedOne(EscapeSegment("x41"));
    TwoDigitsCooked("u{e9}", "e9", 0xE9);
    CookedOne(EscapeSegment("u{e9}"));
    TwoDigitsCooked("x80", "80", 0x80);
    CookedOne(EscapeSegment("x80"));
    SurrogateCooked("u{d800}");
    CookedOne(EscapeSegment("u{d800}"));
  }

  lemma CookedOne(seg: Segment)
    ensures CookedDisplay([seg]) == CookedSegment(seg)
  {
    assert [seg][1..] == [];
    if CookedSegment(seg).Some? {
      assert CookedSegment(seg).value + "" == CookedSegment(seg).value;
    }
  }

  lemma TwoDigitsCooked(code: string, h: string, v: nat)
    requires code == "x" + h || code == "u{" + h + "}"
    requires |h| == 2 && IsHexText(h) && 16 * HexDigitValue(h[0]) + HexDigitValue(h[1]) == v
    ensures IsEscapeCode(code)
    ensures EscapeMeaning(code) == if v <= 0x7F || (code[0] == 'u' && IsScalar(v)) then Some([v as char]) else None
  {
    HexValueTwo(h);
    if code == "x" + h {
      assert code[1..] == h;
    } else {
      assert code[2..|code| - 1] == h && code[..2] == "u{";
    }
  }

  lemma SurrogateCooked(code: string)
    requires code == "u{d800}"
    ensures IsEscapeCode(code) && EscapeMeaning(code) == None
  {
    var h := code[2..|code| - 1];
    assert h == "d800" && code[..2] == "u{" && IsHexText(h);
    assert h[..3] == "d80" && h[..3][..2] == "d8";
    HexValueTwo("d8");
    assert HexValue(h[..3]) == 0xd80;
  }
}

=== FILE: primitive_parsers.dfy ===
/** Character classes and the snake-case label parser shared by the
    format-literal parser
    (wrapper/src/proc_macros/format_literal_parser/primitive_parsers.rs). */
module PrimitiveParsers {
  import opened Wrappers

  /** The outcome of a nom parser on text: a value and the input it left,
      a recoverable error (`Err::Error`, which `alt` and `many0` step past),
      or a panic inside a mapping closure. */
  datatype PResult<+T> = Parsed(value: T, rest: string) | NoMatch | Crash

  /** `u8::try_from(c)`: the code point when it fits in a byte. */
  function ByteOf(c: char): Option<int> {
    if (c as int) < 256 then Some(c as int) else None
  }

  /** nom's byte classes, which are ASCII only. */
  predicate IsDigitByte(u: int) { 0x30 <= u <= 0x39 }
  predicate IsAlphabeticByte(u: int) { 0x41 <= u <= 0x5A || 0x61 <= u <= 0x7A }
  predicate IsAlphanumericByte(u: int) { IsAlphabeticByte(u) || IsDigitByte(u) }
  predicate IsHexDigitByte(u: int) { IsDigitByte(u) || 0x41 <= u <= 0x46 || 0x61 <= u <= 0x66 }

  /** `is_hex_char`. */
  function IsHexChar(c: char): (r: bool)
    ensures r <==> '0' <= c <= '9' || 'a' <= c <= 'f' || 'A' <= c <= 'F'
  {
    match ByteOf(c)
    case Some(u) => IsHexDigitByte(u)
    case None => false
  }

  /** `is_snake_case_char`. */
  function IsSnakeCaseChar(c: char): (r: bool)
    ensures r <==> 'a' <= c <= 'z' || 'A' <= c <= 'Z' || '0' <= c <= '9' || c == '_'
  {
    match ByteOf(c)
    case Some(u) => IsAlphanumericByte(u) || u == 0x5F
    case None => false
  }

  /** `is_snake_case_beginning_char`. */
  function IsSnakeCaseBeginningChar(c: char): (r: bool)
    ensures r <==> 'a' <= c <= 'z' || 'A' <= c <= 'Z' || c == '_'
    ensures r ==> IsSnakeCaseChar(c)
  {
    match ByteOf(c)
    case Some(u) => IsAlphabeticByte(u) || u == 0x5F
    case None => false
  }

  /** Letters beyond ASCII are not label characters, even those that fit in
      a byte. */
  lemma LatinLetterRejected()
    ensures !IsSnakeCaseBeginningChar('é') && !IsSnakeCaseChar('é')
  {
  }

  /** The number of leading snake-case characters (`take_while`). */
  function SnakeSpan(s: string): (n: nat)
    ensures n <= |s|
    ensures forall i :: 0 <= i < n ==> IsSnakeCaseChar(s[i])
    ensures n < |s| ==> !IsSnakeCaseChar(s[n])
    decreases |s|
  {
    if |s| > 0 && IsSnakeCaseChar(s[0]) then 1 + SnakeSpan(s[1..]) else 0
  }

  /** A label as the parser accepts it: a beginning character, then at
      least one snake-case character. */
  predicate IsLabel(l: string) {
    && |l| >= 2
    && IsSnakeCaseBeginningChar(l[0])
    && forall i :: 1 <= i < |l| ==> IsSnakeCaseChar(l[i])
  }

  /** Text that cannot continue a label: empty, or starting with a
      character outside the snake-case class. */
  predicate EndsLabel(rest: string) {
    |rest| == 0 || !IsSnakeCaseChar(rest[0])
  }

  /** `parse_snake_case_label`: exactly one beginning character
      (`take_while_m_n(1, 1, …)`), then a non-empty greedy run of snake-case
      characters (`take_while1`); the label is the two concatenated. */
  function ParseSnakeCaseLabel(s: string): (r: PResult<string>)
    ensures !r.Crash?
    ensures r.Parsed? <==> |s| >= 2 && IsSnakeCaseBeginningChar(s[0]) && IsSnakeCaseChar(s[1])
    ensures r.Parsed? ==> IsLabel(r.value) && s == r.value + r.rest && EndsLabel(r.rest)
  {
    if |s| == 0 || !IsSnakeCaseBeginningChar(s[0]) then NoMatch
    else
      var n := SnakeSpan(s[1..]);
      if n == 0 then NoMatch
      else
        var name := s[..1] + s[1..][..n];
        assert name == s[..1 + n];
        Parsed(name, s[1 + n..])
  }

  /** The printer side: a label followed by text that cannot continue it
      parses back to itself. */
  lemma {:induction false} LabelRoundTrip(name: string, rest: string)
    requires IsLabel(name) && EndsLabel(rest)
    ensures ParseSnakeCaseLabel(name + rest) == Parsed(name, rest)
  {
    var s := name + rest;
    SnakeSpanOfRun(name[1..], rest);
    assert s[1..] == name[1..] + rest;
    assert s[..|name|] == name;
  }

  lemma {:induction false} SnakeSpanOfRun(run: string, rest: string)
    requires forall i :: 0 <= i < |run| ==> IsSnakeCaseChar(run[i])
    requires EndsLabel(rest)
    ensures SnakeSpan(run + rest) == |run|
    decreases |run|
  {
    if |run| == 0 {
      assert run + rest == rest;
    } else {
      assert (run + rest)[1..] == run[1..] + rest;
      SnakeSpanOfRun(run[1..], rest);
    }
  }

  // ------------------------------------------------------------- digits

  predicate IsDigitChar(c: char) { '0' <= c <= '9' }

  /** A non-empty run of ASCII digits. */
  predicate IsDigits(s: string) {
    |s| > 0 && forall i :: 0 <= i < |s| ==> IsDigitChar(s[i])
  }

  /** The number of leading ASCII digits. */
  function DigitSpan(s: string): (n: nat)
    ensures n <= |s|
    ensures forall i :: 0 <= i < n ==> IsDigitChar(s[i])
    ensures n < |s| ==> !IsDigitChar(s[n])
    decreases |s|
  {
    if |s| > 0 && IsDigitChar(s[0]) then 1 + DigitSpan(s[1..]) else 0
  }

  /** `parse_digits`, which the template parser imports from this file but
      which the file does not define: taken to be the longest non-empty run
      of ASCII digits. */
  function ParseDigits(s: string): (r: PResult<string>)
    ensures !r.Crash?
    ensures r.Parsed? <==> |s| > 0 && IsDigitChar(s[0])
    ensures r.Parsed? ==> IsDigits(r.value) && s == r.value + r.rest
    ensures r.Parsed? ==> |r.rest| == 0 || !IsDigitChar(r.rest[0])
  {
    var n := DigitSpan(s);
    if n == 0 then NoMatch
    else
      assert s == s[..n] + s[n..];
      Parsed(s[..n], s[n..])
  }

  /** Digits followed by a non-digit are read back exactly. */
  lemma {:induction false} DigitsRoundTrip(digits: string, rest: string)
    requires IsDigits(digits) && (|rest| == 0 || !IsDigitChar(rest[0]))
    ensures ParseDigits(digits + rest) == Parsed(digits, rest)
  {
    DigitSpanOfRun(digits, rest);
    assert (digits + rest)[..|digits|] == digits;
  }

  lemma {:induction false} DigitSpanOfRun(run: string, rest: string)
    requires forall i :: 0 <= i < |run| ==> IsDigitChar(run[i])
    requires |rest| == 0 || !IsDigitChar(rest[0])
    ensures DigitSpan(run + rest) == |run|
    decreases |run|
  {
    if |run| == 0 {
      assert run + rest == rest;
    } else {
      assert (run + rest)[1..] == run[1..] + rest;
      DigitSpanOfRun(run[1..], rest);
    }
  }
}

=== FILE: proc_macros.dfy ===
/** The logging macros' token rewrite (wrapper/src/proc_macros/mod.rs):
    `log!(io, "<path>{}</>", x)` becomes a block that binds one rendered
    style per tag and then calls `io.log(format!(…))` with the tags turned
    into named placeholders. Tokens are an abstract tree; spans, spacing
    and the compiler's own token printing are not modelled. */
module ProcMacros {
  import opened Wrappers
  import opened Texts
  import opened PrimitiveParsers
  import opened FormatLiteralParser
  import opened LiteralText
  import TemplateParser
  import Console

  datatype Delimiter = Parenthesis | Brace | NoDelimiter

  /** A token tree. `Literal` is a literal as written in the source;
      `StringLiteral` is a string literal built from its value. */
  datatype Token =
    | Ident(name: string)
    | Punct(ch: char)
    | Literal(repr: string)
    | StringLiteral(value: string)
    | Group(delimiter: Delimiter, tokens: seq<Token>)

  /** What `process_stream` gives back: the generated block, the error it
      returns, or the panic of the single-quote escape. */
  datatype StreamOutcome = Expanded(block: Token) | StreamError(error: FormatLiteralParserError) | StreamPanicked

  // ------------------------------------------------------- token text

  /** The escapes a string literal built from a value uses for the
      characters that need one. */
  function EscapeDebug(v: string): (r: string)
    ensures |r| >= |v|
    decreases |v|
  {
    if |v| == 0 then ""
    else
      var c := v[0];
      (if c == '\\' then "\\\\"
       else if c == '"' then "\\\""
       else if c == '\n' then "\\n"
       else if c == '\r' then "\\r"
       else if c == '\t' then "\\t"
       else if c == '\0' then "\\0"
       else [c]) + EscapeDebug(v[1..])
  }

  /** A token printed as text (`to_string`); group members are separated
      by single spaces. */
  function TokenText(t: Token): string
    decreases t
  {
    match t
    case Ident(n) => n
    case Punct(c) => [c]
    case Literal(repr) => repr
    case StringLiteral(v) => "\"" + EscapeDebug(v) + "\""
    case Group(d, ts) =>
      var inner := TokensText(ts);
      match d
      case Parenthesis => "(" + inner + ")"
      case Brace => "{" + inner + "}"
      case NoDelimiter => inner
  }

  function TokensText(ts: seq<Token>): string
    decreases ts
  {
    if |ts| == 0 then ""
    else if |ts| == 1 then TokenText(ts[0])
    else TokenText(ts[0]) + " " + TokensText(ts[1..])
  }

  // -------------------------------------------------------- splitting

  /** A top-level comma. */
  predicate IsComma(t: Token) {
    t == Punct(',')
  }

  /** The tokens before the first top-level comma, and those after it (none
      when there is no comma). */
  function SplitIo(ts: seq<Token>): (r: (seq<Token>, seq<Token>))
    ensures forall i :: 0 <= i < |r.0| ==> !IsComma(r.0[i])
    ensures ts == r.0 || ts == r.0 + [Punct(',')] + r.1
    ensures ts == r.0 ==> r.1 == []
    decreases |ts|
  {
    if |ts| == 0 then ([], [])
    else if IsComma(ts[0]) then ([], ts[1..])
    else
      var (io, after) := SplitIo(ts[1..]);
      assert forall i :: 1 <= i < |[ts[0]] + io| ==> ([ts[0]] + io)[i] == io[i - 1];
      ([ts[0]] + io, after)
  }

  // --------------------------------------------------------- building

  /** `, id = id`: the named argument that feeds a tag's placeholder. */
  function TagArgument(t: StyleTag): Token {
    Group(NoDelimiter, [Punct(','), Ident(Identifier(t)), Punct('='), Ident(Identifier(t))])
  }

  /** `let id = io.render_style("literal");`. */
  function TagBinding(io: Token, t: StyleTag): Token {
    Group(NoDelimiter, [Ident("let"), Ident(Identifier(t)), Punct('='), io, Punct('.'),
                        Ident("render_style"), Group(Parenthesis, [StringLiteral(StyleLiteral(t))]), Punct(';')])
  }

  /** The `format!` arguments: the rewritten literal, the macro's remaining
      tokens, then one named argument per tag. */
  function FormatArguments(literal: string, remaining: seq<Token>, tags: seq<StyleTag>): (r: seq<Token>)
    ensures |r| == 1 + |remaining| + |tags|
    ensures r[0] == StringLiteral(literal)
    ensures r[1..1 + |remaining|] == remaining
    ensures forall i :: 0 <= i < |tags| ==> r[1 + |remaining| + i] == TagArgument(tags[i])
  {
    [StringLiteral(literal)] + remaining + seq(|tags|, i requires 0 <= i < |tags| => TagArgument(tags[i]))
  }

  /** The generated block: one binding per tag, in order, then
      `io.command(format!(args))`. */
  function Expand(io: seq<Token>, command: string, literal: string, tags: seq<StyleTag>,
                  remaining: seq<Token>): (r: Token)
    ensures r.Group? && r.delimiter == Brace && |r.tokens| == |tags| + 1
    ensures forall i :: 0 <= i < |tags| ==> r.tokens[i] == TagBinding(Group(NoDelimiter, io), tags[i])
    ensures r.tokens[|tags|] == Call(io, command, FormatArguments(literal, remaining, tags))
  {
    var ioGroup := Group(NoDelimiter, io);
    var bindings := seq(|tags|, i requires 0 <= i < |tags| => TagBinding(ioGroup, tags[i]));
    Group(Brace, bindings + [Call(io, command, FormatArguments(literal, remaining, tags))])
  }

  /** `io.command(format!(args))`. */
  function Call(io: seq<Token>, command: string, args: seq<Token>): Token {
    Group(NoDelimiter, [Group(NoDelimiter, io), Punct('.'), Ident(command),
                        Group(Parenthesis, [Ident("format"), Punct('!'), Group(Parenthesis, args)])])
  }

  // ------------------------------------------------------ the rewrite

  /** `process_stream` as written: the literal's display as written, and
      one binding and one named argument per style tag, repeats kept. */
  function ProcessStreamAsWritten(ts: seq<Token>, command: string): (r: StreamOutcome)
    ensures r.StreamError? && r.error == MissingLiteral <==> SplitIo(ts).1 == []
  {
    var (io, after) := SplitIo(ts);
    if |after| == 0 then StreamError(MissingLiteral)
    else
      match ParseFormatLiteral(TokenText(after[0]))
      case Panicked => StreamPanicked
      case Rejected(e) => StreamError(e)
      case Accepted(f) =>
        Expanded(Expand(io, command, Display(f.segments), StyleTags(f.segments), after[1..]))
  }

  /** `process_stream` with the two corrections: escapes display as the
      characters they stand for (an escape that names none is an invalid
      escape), and each tag is bound and passed once. */
  function ProcessStream(ts: seq<Token>, command: string): (r: StreamOutcome)
    ensures r.StreamError? && r.error == MissingLiteral <==> SplitIo(ts).1 == []
  {
    var (io, after) := SplitIo(ts);
    if |after| == 0 then StreamError(MissingLiteral)
    else
      match ParseFormatLiteral(TokenText(after[0]))
      case Panicked => StreamPanicked
      case Rejected(e) => StreamError(e)
      case Accepted(f) =>
        var display := CookedDisplay(f.segments);
        if display.None? then StreamError(InvalidEscape)
        else Expanded(Expand(io, command, display.value, Distinct(StyleTags(f.segments)), after[1..]))
  }

  // -------------------------------------------------------- distinct

  predicate NoRepeats<T(==)>(s: seq<T>) {
    forall i, j :: 0 <= i < j < |s| ==> s[i] != s[j]
  }

  /** The tags in order of first appearance, each once. */
  function Distinct(tags: seq<StyleTag>): (r: seq<StyleTag>)
    ensures NoRepeats(r)
    ensures forall t :: t in r <==> t in tags
    ensures |r| <= |tags|
    decreases |tags|
  {
    if |tags| == 0 then []
    else
      var init := Distinct(tags[..|tags| - 1]);
      var last := tags[|tags| - 1];
      assert tags == tags[..|tags| - 1] + [last];
      if last in init then init else init + [last]
  }

  /** The names of the arguments the rewrite adds, one per tag. */
  function AddedNames(tags: seq<StyleTag>): (r: seq<string>)
    ensures |r| == |tags|
  {
    seq(|tags|, i requires 0 <= i < |tags| => Identifier(tags[i]))
  }

  // ---------------------------------------------------------- lemmas

  /** The io part is every token before the first top-level comma; the
      comma is consumed and everything after it is kept. A comma inside a
      group is part of the group and splits nothing. */
  lemma {:induction false} SplitAtFirstComma(io: seq<Token>, after: seq<Token>)
    requires forall i :: 0 <= i < |io| ==> !IsComma(io[i])
    ensures SplitIo(io + [Punct(',')] + after) == (io, after)
    ensures SplitIo(io) == (io, [])
    decreases |io|
  {
    if |io| == 0 {
      assert io + [Punct(',')] + after == [Punct(',')] + after;
    } else {
      SplitAtFirstComma(io[1..], after);
      assert (io + [Punct(',')] + after)[1..] == io[1..] + [Punct(',')] + after;
      assert [io[0]] + io[1..] == io;
    }
  }

  /** A missing literal is reported exactly when no token follows the
      first top-level comma. */
  lemma MissingLiteralWhenNothingFollows(io: seq<Token>, command: string)
    requires forall i :: 0 <= i < |io| ==> !IsComma(io[i])
    ensures ProcessStreamAsWritten(io, command) == StreamError(MissingLiteral)
    ensures ProcessStreamAsWritten(io + [Punct(',')], command) == StreamError(MissingLiteral)
    ensures ProcessStream(io, command) == StreamError(MissingLiteral)
    ensures ProcessStream(io + [Punct(',')], command) == StreamError(MissingLiteral)
  {
    SplitAtFirstComma(io, []);
    assert io + [Punct(',')] + [] == io + [Punct(',')];
  }

  /** A literal that does not parse stops the rewrite with the parser's
      error, or its panic, whatever else the call holds. */
  lemma ParseErrorsPropagate(io: seq<Token>, literal: Token, rest: seq<Token>, command: string)
    requires forall i :: 0 <= i < |io| ==> !IsComma(io[i])
    requires !ParseFormatLiteral(TokenText(literal)).Accepted?
    ensures var ts := io + [Punct(',')] + ([literal] + rest);
      && ProcessStreamAsWritten(ts, command) == ProcessStream(ts, command)
      && (ParseFormatLiteral(TokenText(literal)).Panicked? ==> ProcessStream(ts, command) == StreamPanicked)
      && (ParseFormatLiteral(TokenText(literal)).Rejected? ==> ProcessStream(ts, command) == StreamError(InvalidEscape))
  {
    SplitAtFirstComma(io, [literal] + rest);
    assert ([literal] + rest)[1..] == rest;
  }

  /** A call `io, "…", args…` whose literal parses expands to one binding
      per style tag and `io.command(format!(literal, args…, tag
      arguments…))`: as written, the literal is the display as written and
      the tags keep their repeats; corrected, the literal is the text the
      escapes stand for and each tag comes once. */
  lemma RewriteOfLiteral(io: seq<Token>, segs: seq<Segment>, rest: seq<Token>, command: string)
    requires forall i :: 0 <= i < |io| ==> !IsComma(io[i])
    requires WellFormed(segs)
    ensures var ts := io + [Punct(',')] + ([Literal("\"" + Source(segs) + "\"")] + rest);
      && ProcessStreamAsWritten(ts, command)
           == Expanded(Expand(io, command, Display(segs), StyleTags(segs), rest))
      && (CookedDisplay(segs).Some? ==>
            ProcessStream(ts, command)
              == Expanded(Expand(io, command, CookedDisplay(segs).value, Distinct(StyleTags(segs)), rest)))
      && (CookedDisplay(segs).None? ==> ProcessStream(ts, command) == StreamError(InvalidEscape))
  {
    var literal := Literal("\"" + Source(segs) + "\"");
    SplitAtFirstComma(io, [literal] + rest);
    assert ([literal] + rest)[1..] == rest;
    ParseCharacterisation(TokenText(literal), FormatLiteral(segs));
  }

  /** Corrected, the rewrite binds each tag of the literal exactly once:
      every style segment's tag is among the bound ones, and no two added
      arguments share a name. */
  lemma TagsBoundOnce(segs: seq<Segment>)
    ensures forall t :: StyleSegment(t) in segs <==> t in Distinct(StyleTags(segs))
    ensures NoRepeats(AddedNames(Distinct(StyleTags(segs))))
  {
    StyleTagsHavePlaceholders(segs);
    var tags := Distinct(StyleTags(segs));
    forall i, j | 0 <= i < j < |tags|
      ensures AddedNames(tags)[i] != AddedNames(tags)[j]
    {
      if Identifier(tags[i]) == Identifier(tags[j]) {
        IdentifierInjective(tags[i], tags[j]);
      }
    }
  }

  /** As written, a tag used twice is bound twice and passed twice to
      `format!` under the same name, which `format!` rejects as a duplicate
      argument: `"</>a</>"` is such a literal. */
  lemma RepeatedTagRepeatsName(input: string, tags: seq<StyleTag>)
    requires input == "\"</>a</>\"" && tags == [StyleClearAll, StyleClearAll]
    ensures ParseFormatLiteral(input) == Accepted(FormatLiteral(ClearTwice()))
    ensures StyleTags(ClearTwice()) == tags
    ensures !NoRepeats(AddedNames(tags))
    ensures Distinct(tags) == [StyleClearAll]
  {
    ClearTwiceParses(input, ClearTwice());
    ClearTwiceTags(ClearTwice());
    assert AddedNames(tags)[0] == AddedNames(tags)[1];
    assert tags[..1] == [StyleClearAll];
    assert tags[..1][..0] == [];
  }

  /** The segments of `</>a</>`. */
  function ClearTwice(): seq<Segment> {
    [StyleSegment(StyleClearAll), TextSegment("a"), StyleSegment(StyleClearAll)]
  }

  lemma ClearTwiceParses(input: string, segs: seq<Segment>)
    requires input == "\"</>a</>\"" && segs == ClearTwice()
    ensures ParseFormatLiteral(input) == Accepted(FormatLiteral(segs))
  {
    assert WellFormed(segs) by {
      assert IsMiscText("a");
      assert WellFormedTag(StyleClearAll);
    }
    assert input == "\"" + Source(segs) + "\"" by {
      var tail := segs[1..];
      assert tail == [TextSegment("a"), StyleSegment(StyleClearAll)];
      assert tail[1..] == [StyleSegment(StyleClearAll)];
      assert Source(tail[1..]) == "</>" by { assert tail[1..][1..] == []; }
      assert Source(segs) == "</>a</>";
    }
    QuotedSourceAccepted(segs);
  }

  lemma ClearTwiceTags(segs: seq<Segment>)
    requires segs == ClearTwice()
    ensures StyleTags(segs) == [StyleClearAll, StyleClearAll]
  {
    assert segs[1..][1..] == segs[2..];
    assert segs[2..][1..] == [];
  }

  /** As written, `log!(io, "\x41")` logs the text `x41`; corrected, it
      logs `A`. */
  lemma HexEscapeRewritten(ts: seq<Token>, segs: seq<Segment>)
    requires ts == [Ident("io"), Punct(','), Literal("\"\\x41\"")] && segs == [EscapeSegment("x41")]
    ensures ProcessStreamAsWritten(ts, "log") == Expanded(Expand([Ident("io")], "log", "x41", [], []))
    ensures ProcessStream(ts, "log") == Expanded(Expand([Ident("io")], "log", "A", [], []))
  {
    HexEscapeSegments(segs);
    var literal := Literal("\"" + Source(segs) + "\"");
    assert literal == Literal("\"\\x41\"");
    assert [Ident("io")] + [Punct(',')] + ([literal] + []) == ts;
    RewriteOfLiteral([Ident("io")], segs, [], "log");
    HexEscapesCooked();
  }

  lemma HexEscapeSegments(segs: seq<Segment>)
    requires segs == [EscapeSegment("x41")]
    ensures WellFormed(segs) && Source(segs) == "\\x41"
    ensures Display(segs) == "x41" && StyleTags(segs) == []
  {
    assert IsHexText("41");
    assert segs[1..] == [];
  }

  // ------------------------------------------------- tags and styles

  /** A tag's placeholder reads as a `format!` placeholder naming the
      tag's argument and nothing else. */
  lemma PlaceholderNamesArgument(t: StyleTag, rest: string)
    requires WellFormedTag(t)
    ensures TemplateParser.ParseTemplate("{" + Identifier(t) + "}" + rest)
              == Parsed(TemplateParser.Format(Some(TemplateParser.ArgumentIdentifier(Identifier(t))), None), rest)
    ensures TemplateParser.CollectVariables(
              TemplateParser.Format(Some(TemplateParser.ArgumentIdentifier(Identifier(t))), None)) == {Identifier(t)}
  {
    IdentifierIsName(t);
    TemplateParser.NamedPlaceholder(Identifier(t), rest);
  }

  lemma IdentifierIsName(t: StyleTag)
    requires WellFormedTag(t)
    ensures TemplateParser.IsIdentifier(Identifier(t)) && Identifier(t)[0] == '_'
  {
    IdentifierWrapsLiteral(t);
    SnakeIsName("__macro_style_");
    SnakeIsName("__");
    if t.StyleNamed? {
      SnakeIsName("custom_");
      SnakeIsName(t.name);
      NamesJoin("custom_", t.name);
    } else {
      SnakeIsName(StyleLiteral(t));
    }
    NamesJoin("__macro_style_", StyleLiteral(t));
    NamesJoin("__macro_style_" + StyleLiteral(t), "__");
  }

  /** Snake-case text is an identifier to the template parser. */
  lemma SnakeIsName(s: string)
    requires |s| > 0 && forall i :: 0 <= i < |s| ==> IsSnakeCaseChar(s[i])
    ensures TemplateParser.IsIdentifier(s)
  {
    forall i | 0 <= i < |s|
      ensures TemplateParser.IsLiteralChar(s[i])
    {
      assert IsSnakeCaseChar(s[i]);
    }
  }

  lemma NamesJoin(a: string, b: string)
    requires TemplateParser.IsIdentifier(a) && TemplateParser.IsIdentifier(b)
    ensures TemplateParser.IsIdentifier(a + b)
  {
    forall i | 0 <= i < |a + b|
      ensures TemplateParser.IsLiteralChar((a + b)[i])
    {
      if i < |a| {
        assert (a + b)[i] == a[i];
      } else {
        assert (a + b)[i] == b[i - |a|];
      }
    }
  }

  /** The style names a custom tag can render: the console knows
      `destructive`, `variable`, `path` and `choice`. */
  const CUSTOM_STYLES: seq<string> := ["destructive", "variable", "path", "choice"]

  /** A tag's binding renders a non-empty style exactly when the console
      renders colour and, for a custom tag, knows its name; clearing tags
      always render. */
  lemma TagRenders(io: Console.IO, t: StyleTag)
    ensures Console.RenderStyle(io, StyleLiteral(t)) != "" <==>
              io.StandardIO? && io.color && (t.StyleNamed? ==> t.name in CUSTOM_STYLES)
  {
    if t.StyleNamed? {
      CustomStyleKnown(t.name);
    }
  }

  /** `custom_` and a name is a style the console knows exactly when the
      name is one of the four custom styles. */
  lemma CustomStyleKnown(name: string)
    ensures "custom_" + name in Console.STYLE_NAMES <==> name in CUSTOM_STYLES
  {
    if "custom_" + name in Console.STYLE_NAMES {
      KnownCustomStyle(name);
    }
    if name in CUSTOM_STYLES {
      assert "custom_" + name == Console.STYLE_NAMES[3] || "custom_" + name == Console.STYLE_NAMES[4]
          || "custom_" + name == Console.STYLE_NAMES[5] || "custom_" + name == Console.STYLE_NAMES[6];
    }
  }

  lemma KnownCustomStyle(name: string)
    requires "custom_" + name in Console.STYLE_NAMES
    ensures name in CUSTOM_STYLES
  {
    var l := "custom_" + name;
    assert l[..7] == "custom_" && l[7..] == name;
    assert l[1] == 'u';
    var k :| 0 <= k < |Console.STYLE_NAMES| && Console.STYLE_NAMES[k] == l;
    assert k >= 3;
    assert name == Console.STYLE_NAMES[k][7..];
  }
}

=== FILE: release.dfy ===
/** The install layout (wrapper/src/release.rs): where a release is installed
    and where the runtime's well-known files sit below that root. */
module ReleaseLayout {
  import opened Wrappers
  import opened Host
  import opened Errors
  import opened Archiver

  const INSTALL_SUFFIX: string := ".burrito"

  // ---------------------------------------------------------------- paths

  /** A `PathBuf`: a base OS string followed by the relative texts pushed
      onto it, in order. */
  datatype Path = Path(base: OsString, pushed: seq<string>)

  /** `build_path!` / `PathBuf::join` with a text built by `format!`. */
  function Join(p: Path, piece: string): (r: Path)
    ensures r.base == p.base
    ensures |r.pushed| == |p.pushed| + 1 && r.pushed[|p.pushed|] == piece
  {
    Path(p.base, p.pushed + [piece])
  }

  /** `PathBuf::push` on Unix, on text: an absolute piece replaces the path;
      otherwise a `/` is put between them unless the path is empty or
      already ends in one. */
  function PushText(path: string, piece: string): (r: string)
    ensures |piece| > 0 && piece[0] == '/' ==> r == piece
    ensures ((|piece| == 0 || piece[0] != '/') && |path| > 0 && path[|path| - 1] != '/')
              ==> r == path + "/" + piece
  {
    if |piece| > 0 && piece[0] == '/' then piece
    else if |path| == 0 || path[|path| - 1] == '/' then path + piece
    else path + "/" + piece
  }

  /** An absolute piece: `push` on Unix lets it replace the whole buffer. */
  predicate IsAbsolute(piece: string) {
    |piece| > 0 && piece[0] == '/'
  }

  /** The path as a string (`into_os_string().into_string()`): each piece is
      pushed onto the rendering of the pieces before it; a buffer that still
      holds the non-Unicode base cannot be rendered, unless an absolute piece
      has replaced it. */
  function Render(p: Path): Option<string>
    decreases |p.pushed|
  {
    if |p.pushed| == 0 then
      if p.base.Unicode? then Some(p.base.text) else None
    else
      var front := Render(Path(p.base, p.pushed[..|p.pushed| - 1]));
      var last := p.pushed[|p.pushed| - 1];
      if front.Some? then Some(PushText(front.value, last))
      else if IsAbsolute(last) then Some(last)
      else None
  }

  /** When a path can be rendered: its base is Unicode, or some pushed piece
      is absolute and so has replaced the base. */
  predicate Renders(p: Path) {
    p.base.Unicode? || exists i :: 0 <= i < |p.pushed| && IsAbsolute(p.pushed[i])
  }

  lemma {:induction false} RenderCharacterisation(p: Path)
    ensures Render(p).Some? <==> Renders(p)
    decreases |p.pushed|
  {
    if |p.pushed| > 0 {
      var n := |p.pushed| - 1;
      var q := Path(p.base, p.pushed[..n]);
      RenderCharacterisation(q);
      if Renders(q) && p.base.NonUnicode? {
        var i :| 0 <= i < n && IsAbsolute(q.pushed[i]);
        assert IsAbsolute(p.pushed[i]);
      }
      if Renders(p) && p.base.NonUnicode? && !IsAbsolute(p.pushed[n]) {
        var i :| 0 <= i < |p.pushed| && IsAbsolute(p.pushed[i]);
        assert IsAbsolute(q.pushed[i]);
      }
    }
  }

  /** Text naming a directory: non-empty, without a trailing separator. */
  predicate IsDirText(t: string) {
    |t| > 0 && t[|t| - 1] != '/'
  }

  /** `sub` renders exactly when `root` does, and as `root/rel` when `root`
      renders as a directory text. */
  predicate JoinedUnder(root: Path, rel: string, sub: Path) {
    && (Render(sub).Some? <==> Render(root).Some?)
    && ((Render(root).Some? && IsDirText(Render(root).value))
          ==> Render(sub) == Some(Render(root).value + "/" + rel))
  }

  lemma RenderJoin(p: Path, rel: string)
    requires |rel| > 0 && rel[0] != '/'
    ensures JoinedUnder(p, rel, Join(p, rel))
  {
    assert (p.pushed + [rel])[..|p.pushed|] == p.pushed;
  }

  // --------------------------------------------------------- install root

  /** The name of the environment variable that overrides the base directory. */
  function InstallPathEnvName(releaseName: string): string {
    releaseName + "_INSTALL_PATH"
  }

  /** The version-qualified directory name below `.burrito`. */
  function ReleaseSuffix(releaseName: string, meta: PayloadMetadata): string {
    releaseName + "_erts-" + meta.ertsVersion + "_" + meta.appVersion
  }

  /** The override's value, when the variable is set to Unicode text;
      `env::var` reports an unset and a non-Unicode variable alike as an
      error, and both fall back to the data directory. */
  function InstallOverride(releaseName: string, env: map<string, EnvValue>): Option<string> {
    var name := InstallPathEnvName(releaseName);
    if name in env && env[name].EnvUnicode? then Some(env[name].text) else None
  }

  /** `calculate_install_dir`: the override or the platform data directory,
      then `.burrito`, then the version directory, pushed in both cases. */
  function CalculateInstallDir(releaseName: string, meta: PayloadMetadata,
                               env: map<string, EnvValue>, dataDir: Option<OsString>): (r: Result<Path, ReleaseError>)
    ensures r.Failure? <==> InstallOverride(releaseName, env).None? && dataDir.None?
    ensures r.Failure? ==> r.error == ComputeInstallDirError
    ensures (r.Success? && InstallOverride(releaseName, env).Some?)
              ==> r.value.base == Unicode(InstallOverride(releaseName, env).value)
    ensures r.Success? && InstallOverride(releaseName, env).None? ==> r.value.base == dataDir.value
    ensures r.Success? ==> r.value.pushed == [INSTALL_SUFFIX, ReleaseSuffix(releaseName, meta)]
  {
    var suffix := ReleaseSuffix(releaseName, meta);
    var base :-
      match InstallOverride(releaseName, env)
      case Some(text) => Success(Unicode(text))
      case None => if dataDir.Some? then Success(dataDir.value) else Failure(ComputeInstallDirError);
    Success(Join(Join(Path(base, []), INSTALL_SUFFIX), suffix))
  }

  /** With a Unicode base, the install root renders as
      `base/.burrito/<name>_erts-<erts>_<app>`, a directory text when the
      release name is relative and the app version has no trailing `/`. */
  lemma InstallDirText(releaseName: string, meta: PayloadMetadata,
                       env: map<string, EnvValue>, dataDir: Option<OsString>, base: string)
    requires |releaseName| == 0 || releaseName[0] != '/'
    requires CalculateInstallDir(releaseName, meta, env, dataDir).Success?
    requires CalculateInstallDir(releaseName, meta, env, dataDir).value.base == Unicode(base)
    ensures var root := CalculateInstallDir(releaseName, meta, env, dataDir).value;
            Render(root) == Some(PushText(base, INSTALL_SUFFIX) + "/" + ReleaseSuffix(releaseName, meta))
    ensures var root := CalculateInstallDir(releaseName, meta, env, dataDir).value;
            (|meta.appVersion| > 0 && meta.appVersion[|meta.appVersion| - 1] != '/')
              ==> IsDirText(Render(root).value)
  {
    var root := CalculateInstallDir(releaseName, meta, env, dataDir).value;
    var suffix := ReleaseSuffix(releaseName, meta);
    assert suffix[0] != '/' by {
      if |releaseName| == 0 { assert suffix[0] == '_'; } else { assert suffix[0] == releaseName[0]; }
    }
    assert root.pushed[..1] == [INSTALL_SUFFIX];
    assert [INSTALL_SUFFIX][..0] == [];
    var dot := PushText(base, INSTALL_SUFFIX);
    assert Render(Path(root.base, [INSTALL_SUFFIX])) == Some(dot);
    assert dot[|dot| - 1] == 'o';
    assert Render(root) == Some(dot + "/" + suffix);
    if |meta.appVersion| > 0 && meta.appVersion[|meta.appVersion| - 1] != '/' {
      var text := dot + "/" + suffix;
      assert text[|text| - 1] == meta.appVersion[|meta.appVersion| - 1];
    }
  }

  /** An absolute release name replaces whatever the root was built on, so
      the install root renders as the version directory alone, even over a
      non-Unicode data directory. */
  lemma AbsoluteReleaseName(releaseName: string, meta: PayloadMetadata,
                            env: map<string, EnvValue>, dataDir: Option<OsString>)
    requires IsAbsolute(releaseName)
    requires CalculateInstallDir(releaseName, meta, env, dataDir).Success?
    ensures Render(CalculateInstallDir(releaseName, meta, env, dataDir).value)
         == Some(ReleaseSuffix(releaseName, meta))
  {
    var suffix := ReleaseSuffix(releaseName, meta);
    assert suffix[0] == releaseName[0];
  }

  /** Without a usable override the root is `<data dir>/.burrito/<suffix>`. */
  lemma DefaultInstallDir(releaseName: string, meta: PayloadMetadata,
                          env: map<string, EnvValue>, dataDir: string)
    requires |releaseName| == 0 || releaseName[0] != '/'
    requires IsDirText(dataDir)
    requires InstallOverride(releaseName, env).None?
    ensures var root := CalculateInstallDir(releaseName, meta, env, Some(Unicode(dataDir)));
            root.Success? &&
            Render(root.value) == Some(dataDir + "/.burrito/" + ReleaseSuffix(releaseName, meta))
  {
    InstallDirText(releaseName, meta, env, Some(Unicode(dataDir)), dataDir);
    assert dataDir + "/" + INSTALL_SUFFIX + "/" + ReleaseSuffix(releaseName, meta)
        == dataDir + "/.burrito/" + ReleaseSuffix(releaseName, meta);
  }

  /** An override does not replace the root: `.burrito` and the version
      directory are still pushed onto it, whatever the data directory. */
  lemma OverrideKeepsSuffix(releaseName: string, meta: PayloadMetadata,
                            env: map<string, EnvValue>, dataDir: Option<OsString>)
    requires |releaseName| == 0 || releaseName[0] != '/'
    requires InstallPathEnvName(releaseName) in env
    requires env[InstallPathEnvName(releaseName)].EnvUnicode?
    requires IsDirText(env[InstallPathEnvName(releaseName)].text)
    ensures var root := CalculateInstallDir(releaseName, meta, env, dataDir);
            root.Success? &&
            Render(root.value) == Some(env[InstallPathEnvName(releaseName)].text + "/.burrito/"
                                       + ReleaseSuffix(releaseName, meta))
  {
    var o := env[InstallPathEnvName(releaseName)].text;
    InstallDirText(releaseName, meta, env, dataDir, o);
    assert o + "/" + INSTALL_SUFFIX + "/" + ReleaseSuffix(releaseName, meta)
        == o + "/.burrito/" + ReleaseSuffix(releaseName, meta);
  }

  /** For one release name, distinct (erts, app) versions give distinct
      version directories as long as the erts version has no `_`. */
  lemma ReleaseSuffixInjective(releaseName: string, m1: PayloadMetadata, m2: PayloadMetadata)
    requires '_' !in m1.ertsVersion && '_' !in m2.ertsVersion
    requires ReleaseSuffix(releaseName, m1) == ReleaseSuffix(releaseName, m2)
    ensures m1.ertsVersion == m2.ertsVersion && m1.appVersion == m2.appVersion
  {
    var e1, e2 := m1.ertsVersion, m2.ertsVersion;
    var head := releaseName + "_erts-";
    var t1 := e1 + "_" + m1.appVersion;
    var t2 := e2 + "_" + m2.appVersion;
    assert ReleaseSuffix(releaseName, m1) == head + t1;
    assert ReleaseSuffix(releaseName, m2) == head + t2;
    assert t1 == (head + t1)[|head|..];
    assert t2 == (head + t2)[|head|..];
    assert t2[|e1|] == t1[|e1|] == '_';
    assert t1[|e2|] == t2[|e2|] == '_';
    assert |e1| == |e2|;
    assert e1 == t1[..|e1|] && e2 == t2[..|e2|];
    assert m1.appVersion == t1[|e1| + 1..] && m2.appVersion == t2[|e2| + 1..];
  }

  /** With an `_` in the erts version two version pairs share a directory. */
  lemma ReleaseSuffixCollision()
    ensures ReleaseSuffix("a", PayloadMetadata("a", "3", [], "1_2", "", ""))
         == ReleaseSuffix("a", PayloadMetadata("a", "2_3", [], "1", "", ""))
  {
  }

  // ------------------------------------------------------------ sub-paths

  /** A loaded release: its metadata and its install root. */
  datatype Release = Release(releaseMeta: PayloadMetadata, installDir: Path)

  function CookiePath(rel: Release): (r: Path)
    ensures JoinedUnder(rel.installDir, "releases/COOKIE", r)
  {
    RenderJoin(rel.installDir, "releases/COOKIE");
    Join(rel.installDir, "releases/COOKIE")
  }

  /** The library directory, with its trailing separator. */
  function LibPath(rel: Release): (r: Path)
    ensures JoinedUnder(rel.installDir, "lib/", r)
  {
    RenderJoin(rel.installDir, "lib/");
    Join(rel.installDir, "lib/")
  }

  function InstallVmArgsPath(rel: Release): (r: Path)
    ensures JoinedUnder(rel.installDir, "releases/" + rel.releaseMeta.appVersion + "/vm.args", r)
  {
    var text := "releases/" + rel.releaseMeta.appVersion + "/vm.args";
    RenderJoin(rel.installDir, text);
    Join(rel.installDir, text)
  }

  function ConfigSysPath(rel: Release): (r: Path)
    ensures JoinedUnder(rel.installDir, "releases/" + rel.releaseMeta.appVersion + "/sys.config", r)
  {
    var text := "releases/" + rel.releaseMeta.appVersion + "/sys.config";
    RenderJoin(rel.installDir, text);
    Join(rel.installDir, text)
  }

  function ConfigSysPathNoExt(rel: Release): (r: Path)
    ensures JoinedUnder(rel.installDir, "releases/" + rel.releaseMeta.appVersion + "/sys", r)
  {
    var text := "releases/" + rel.releaseMeta.appVersion + "/sys";
    RenderJoin(rel.installDir, text);
    Join(rel.installDir, text)
  }

  /** The boot script's base path, without extension. */
  function BootPath(rel: Release): (r: Path)
    ensures JoinedUnder(rel.installDir, "releases/" + rel.releaseMeta.appVersion + "/start", r)
  {
    var text := "releases/" + rel.releaseMeta.appVersion + "/start";
    RenderJoin(rel.installDir, text);
    Join(rel.installDir, text)
  }

  function ErtsVersionName(rel: Release): string {
    "erts-" + rel.releaseMeta.ertsVersion
  }

  function ErtsBinPath(rel: Release): (r: Path)
    ensures JoinedUnder(rel.installDir, "erts-" + rel.releaseMeta.ertsVersion + "/bin", r)
  {
    RenderJoin(rel.installDir, ErtsVersionName(rel) + "/bin");
    Join(rel.installDir, ErtsVersionName(rel) + "/bin")
  }

  /** The runtime's entry executable's file name on each platform. */
  function ErlBinName(platform: Platform): string {
    if platform == Windows then "erl.exe" else "erlexec"
  }

  function ErlBinPath(rel: Release, platform: Platform): (r: Path)
    ensures platform == Windows ==>
              JoinedUnder(rel.installDir, "erts-" + rel.releaseMeta.ertsVersion + "/bin/erl.exe", r)
    ensures platform != Windows ==>
              JoinedUnder(rel.installDir, "erts-" + rel.releaseMeta.ertsVersion + "/bin/erlexec", r)
  {
    var text := ErtsVersionName(rel) + "/bin/" + ErlBinName(platform);
    assert platform == Windows ==> text == "erts-" + rel.releaseMeta.ertsVersion + "/bin/erl.exe";
    assert platform != Windows ==> text == "erts-" + rel.releaseMeta.ertsVersion + "/bin/erlexec";
    RenderJoin(rel.installDir, text);
    Join(rel.installDir, text)
  }

  // -------------------------------------------------------------- loading

  /** `Release::load`: the embedded metadata (`None` when it is not valid
      JSON for `PayloadMetadata`), then the install root. */
  function Load(parsedMeta: Option<PayloadMetadata>, releaseName: string,
                env: map<string, EnvValue>, dataDir: Option<OsString>): (r: Result<Release, ReleaseError>)
    ensures parsedMeta.None? ==> r == Failure(CorruptedMetadataError)
    ensures parsedMeta.Some? ==>
              (r.Success? <==> InstallOverride(releaseName, env).Some? || dataDir.Some?)
    ensures r.Failure? && parsedMeta.Some? ==> r.error == ComputeInstallDirError
    ensures r.Success? ==> r.value.releaseMeta == parsedMeta.value
    ensures r.Success? ==> r.value.installDir.pushed == [INSTALL_SUFFIX, ReleaseSuffix(releaseName, parsedMeta.value)]
  {
    var meta :- if parsedMeta.Some? then Success(parsedMeta.value) else Failure(CorruptedMetadataError);
    var installDir :- CalculateInstallDir(releaseName, meta, env, dataDir);
    Success(Release(meta, installDir))
  }

  /** `load_cookie_file`: the text read from the cookie path. The read
      itself is left to the caller: `readResult` is what reading
      `CookiePath(rel)` returned, `None` when the read failed. */
  function LoadCookieFile(rel: Release, readResult: Option<string>): (r: Result<string, ReleaseError>)
    ensures r.Success? <==> readResult.Some?
    ensures r.Success? ==> r.value == readResult.value
    ensures r.Failure? ==> r.error == ReleaseCookieReadError
  {
    if readResult.Some? then Success(readResult.value) else Failure(ReleaseCookieReadError)
  }
}

=== FILE: template_parser.dfy ===
/** The parser for one `format!` placeholder, `{argument:spec}`
    (wrapper/src/proc_macros/format_literal_parser/template_parser.rs): its
    syntax tree, the `Display` that prints it back, and the variables it
    names. Every parser returns text its value prints back to; the printed
    text of a well-formed placeholder parses back to the same value. */
module TemplateParser {
  import opened Wrappers
  import opened PrimitiveParsers
  import opened Texts

  datatype Parameter = Parameter(name: string)

  datatype Count = CountParameter(parameter: Parameter) | CountInteger(digits: string)

  datatype Precision = PrecisionCount(count: Count) | PrecisionNext

  datatype DebugType = DebugDefault | DebugLowercaseHex | DebugUppercaseHex

  datatype FormatType = FormatEmpty | FormatDebug(debug: DebugType) | FormatIdentifier(name: string)

  datatype Align = Align(fill: Option<char>, position: char)

  datatype Argument = ArgumentIdentifier(name: string) | ArgumentInteger(digits: string)

  datatype FormatSpec = FormatSpec(
    align: Option<Align>,
    sign: Option<char>,
    pretty: bool,
    zeroPadded: bool,
    width: Option<Count>,
    precision: Option<Precision>,
    formatType: FormatType)

  datatype Format = Format(argument: Option<Argument>, formatSpec: Option<FormatSpec>)

  // ----------------------------------------------------------- display

  function ParameterText(p: Parameter): string {
    p.name + "$"
  }

  function CountText(c: Count): string {
    match c
    case CountParameter(p) => ParameterText(p)
    case CountInteger(s) => s
  }

  function PrecisionText(p: Precision): string {
    match p
    case PrecisionCount(c) => CountText(c)
    case PrecisionNext => "*"
  }

  function DebugText(d: DebugType): string {
    match d
    case DebugLowercaseHex => "x?"
    case DebugUppercaseHex => "X?"
    case DebugDefault => "?"
  }

  function FormatTypeText(t: FormatType): string {
    match t
    case FormatEmpty => ""
    case FormatDebug(d) => DebugText(d)
    case FormatIdentifier(s) => s
  }

  function AlignText(a: Align): string {
    (if a.fill.Some? then [a.fill.value] else []) + [a.position]
  }

  function ArgumentText(a: Argument): string {
    match a
    case ArgumentIdentifier(s) => s
    case ArgumentInteger(s) => s
  }

  /** The text of each optional field of a `FormatSpec`: nothing when it
      is absent. */
  function AlignPart(a: Option<Align>): string {
    if a.Some? then AlignText(a.value) else ""
  }

  function SignPart(c: Option<char>): string {
    if c.Some? then [c.value] else ""
  }

  function FlagPart(present: bool, marker: char): string {
    if present then [marker] else ""
  }

  function WidthPart(c: Option<Count>): string {
    if c.Some? then CountText(c.value) else ""
  }

  function PrecisionPart(p: Option<Precision>): string {
    if p.Some? then "." + PrecisionText(p.value) else ""
  }

  /** `FormatSpec` prints its fields in the order the parser reads them;
      each `…Tail` is the text from one field to the end. */
  function PrecisionTail(fs: FormatSpec): string {
    PrecisionPart(fs.precision) + FormatTypeText(fs.formatType)
  }

  function WidthTail(fs: FormatSpec): string {
    WidthPart(fs.width) + PrecisionTail(fs)
  }

  function PaddedTail(fs: FormatSpec): string {
    FlagPart(fs.zeroPadded, '0') + WidthTail(fs)
  }

  function PrettyTail(fs: FormatSpec): string {
    FlagPart(fs.pretty, '#') + PaddedTail(fs)
  }

  function SignTail(fs: FormatSpec): string {
    SignPart(fs.sign) + PrettyTail(fs)
  }

  function SpecText(fs: FormatSpec): string {
    AlignPart(fs.align) + SignTail(fs)
  }

  function ArgumentPart(a: Option<Argument>): string {
    if a.Some? then ArgumentText(a.value) else ""
  }

  function SpecPart(fs: Option<FormatSpec>): string {
    if fs.Some? then ":" + SpecText(fs.value) else ""
  }

  /** `Format` prints as `{`, the argument, `:` and the spec, `}`. */
  function FormatText(f: Format): string {
    "{" + ArgumentPart(f.argument) + SpecPart(f.formatSpec) + "}"
  }

  // -------------------------------------------------------- variables

  function CountVariables(c: Count): set<string> {
    match c
    case CountParameter(p) => {p.name}
    case CountInteger(_) => {}
  }

  function PrecisionVariables(p: Precision): set<string> {
    match p
    case PrecisionCount(c) => CountVariables(c)
    case PrecisionNext => {}
  }

  function SpecVariables(fs: FormatSpec): set<string> {
    (if fs.width.Some? then CountVariables(fs.width.value) else {})
    + (if fs.precision.Some? then PrecisionVariables(fs.precision.value) else {})
  }

  /** `collect_variables`: the argument if it is a name, and the names of
      the width and precision parameters. */
  function CollectVariables(f: Format): set<string> {
    (if f.argument.Some? && f.argument.value.ArgumentIdentifier? then {f.argument.value.name} else {})
    + (if f.formatSpec.Some? then SpecVariables(f.formatSpec.value) else {})
  }

  // ----------------------------------------------------------- parsers

  /** `parse_debug`: `?`, then `x?`, then `X?`. */
  function ParseDebug(s: string): (r: PResult<DebugType>)
    ensures !r.Crash?
    ensures r.Parsed? ==> s == DebugText(r.value) + r.rest
  {
    if |s| > 0 && s[0] == '?' then
      assert s == "?" + s[1..];
      Parsed(DebugDefault, s[1..])
    else if StartsWith(s, "x?") then
      assert s == "x?" + s[2..];
      Parsed(DebugLowercaseHex, s[2..])
    else if StartsWith(s, "X?") then
      assert s == "X?" + s[2..];
      Parsed(DebugUppercaseHex, s[2..])
    else NoMatch
  }

  /** The characters an identifier cannot hold. */
  const INVALID_LITS: seq<char> := ['$', '}', '"', '{', ' ', '=', ';', '(', ')', ':']

  predicate IsLiteralChar(c: char) {
    c !in INVALID_LITS
  }

  predicate IsIdentifier(s: string) {
    |s| > 0 && forall i :: 0 <= i < |s| ==> IsLiteralChar(s[i])
  }

  /** The number of leading identifier characters. */
  function LiteralSpan(s: string): (n: nat)
    ensures n <= |s|
    ensures forall i :: 0 <= i < n ==> IsLiteralChar(s[i])
    ensures n < |s| ==> !IsLiteralChar(s[n])
    decreases |s|
  {
    if |s| > 0 && IsLiteralChar(s[0]) then 1 + LiteralSpan(s[1..]) else 0
  }

  /** `parse_identifier`: the longest non-empty run of identifier
      characters. */
  function ParseIdentifier(s: string): (r: PResult<string>)
    ensures !r.Crash?
    ensures r.Parsed? <==> |s| > 0 && IsLiteralChar(s[0])
    ensures r.Parsed? ==> IsIdentifier(r.value) && s == r.value + r.rest
    ensures r.Parsed? ==> |r.rest| == 0 || !IsLiteralChar(r.rest[0])
  {
    var n := LiteralSpan(s);
    if n == 0 then NoMatch
    else
      assert s == s[..n] + s[n..];
      Parsed(s[..n], s[n..])
  }

  /** `parse_format_type`: a debug marker, else an identifier, else nothing
      (which always succeeds). */
  function ParseFormatType(s: string): (r: PResult<FormatType>)
    ensures r.Parsed? && s == FormatTypeText(r.value) + r.rest
  {
    var d := ParseDebug(s);
    if d.Parsed? then Parsed(FormatDebug(d.value), d.rest)
    else
      var i := ParseIdentifier(s);
      if i.Parsed? then Parsed(FormatIdentifier(i.value), i.rest)
      else Parsed(FormatEmpty, s)
  }

  predicate IsAlignChar(c: char) {
    c == '<' || c == '^' || c == '>'
  }

  /** `parse_align` as written: `opt(none_of("}"))` takes any first
      character other than `}` as the fill and never gives it back, so an
      alignment without a fill is only read when the next character is
      itself an alignment. */
  function ParseAlign(s: string): (r: PResult<Align>)
    ensures !r.Crash?
    ensures r.Parsed? ==> r.value.fill.Some? && s == AlignText(r.value) + r.rest
  {
    if |s| > 0 && s[0] != '}' then
      if |s| > 1 && IsAlignChar(s[1]) then
        assert s == [s[0]] + [s[1]] + s[2..];
        Parsed(Align(Some(s[0]), s[1]), s[2..])
      else NoMatch
    else NoMatch
  }

  /** `parse_align` with the fill optional as intended: a fill and an
      alignment, else an alignment alone. */
  function ParseAlignCorrected(s: string): (r: PResult<Align>)
    ensures !r.Crash?
    ensures r.Parsed? ==> s == AlignText(r.value) + r.rest
  {
    var withFill := ParseAlign(s);
    if withFill.Parsed? then withFill
    else if |s| > 0 && IsAlignChar(s[0]) then
      assert s == [s[0]] + s[1..];
      Parsed(Align(None, s[0]), s[1..])
    else NoMatch
  }

  /** `parse_sign`. */
  function ParseSign(s: string): (r: PResult<char>)
    ensures !r.Crash?
    ensures r.Parsed? ==> s == [r.value] + r.rest
  {
    if |s| > 0 && (s[0] == '+' || s[0] == '-') then
      assert s == [s[0]] + s[1..];
      Parsed(s[0], s[1..])
    else NoMatch
  }

  /** `parse_pretty` and `parse_padded`: whether the marker is there, and
      the text after it. */
  function Flag(s: string, marker: char): (r: (bool, string))
    ensures s == FlagPart(r.0, marker) + r.1
  {
    if |s| > 0 && s[0] == marker then
      assert s == [marker] + s[1..];
      (true, s[1..])
    else (false, s)
  }

  /** `parse_argument`: digits, else an identifier. */
  function ParseArgument(s: string): (r: PResult<Argument>)
    ensures !r.Crash?
    ensures r.Parsed? ==> s == ArgumentText(r.value) + r.rest
  {
    var d := ParseDigits(s);
    if d.Parsed? then Parsed(ArgumentInteger(d.value), d.rest)
    else
      var i := ParseIdentifier(s);
      if i.Parsed? then Parsed(ArgumentIdentifier(i.value), i.rest) else NoMatch
  }

  /** `parse_parameter`: an identifier and `$`. */
  function ParseParameter(s: string): (r: PResult<Parameter>)
    ensures !r.Crash?
    ensures r.Parsed? ==> s == ParameterText(r.value) + r.rest
  {
    var i := ParseIdentifier(s);
    if i.Parsed? && |i.rest| > 0 && i.rest[0] == '$' then
      assert s == i.value + "$" + i.rest[1..] by {
        assert i.rest == "$" + i.rest[1..];
      }
      Parsed(Parameter(i.value), i.rest[1..])
    else NoMatch
  }

  /** `parse_count`: digits, else a parameter. */
  function ParseCount(s: string): (r: PResult<Count>)
    ensures !r.Crash?
    ensures r.Parsed? ==> s == CountText(r.value) + r.rest
  {
    var d := ParseDigits(s);
    if d.Parsed? then Parsed(CountInteger(d.value), d.rest)
    else
      var p := ParseParameter(s);
      if p.Parsed? then Parsed(CountParameter(p.value), p.rest) else NoMatch
  }

  /** `parse_precision`: `.`, then `*`, else a count. */
  function ParsePrecision(s: string): (r: PResult<Precision>)
    ensures !r.Crash?
    ensures r.Parsed? ==> s == "." + PrecisionText(r.value) + r.rest
  {
    if |s| > 0 && s[0] == '.' then
      var t := s[1..];
      assert s == "." + t;
      if |t| > 0 && t[0] == '*' then
        assert t == "*" + t[1..];
        Parsed(PrecisionNext, t[1..])
      else
        var c := ParseCount(t);
        if c.Parsed? then Parsed(PrecisionCount(c.value), c.rest) else NoMatch
    else NoMatch
  }

  /** `parse_format_spec`: each optional field in turn, then the type;
      it never fails. */
  function ParseFormatSpec(s: string): (r: PResult<FormatSpec>)
    ensures r.Parsed? && s == SpecText(r.value) + r.rest
  {
    var (align, s1) := OptAlign(s);
    ParseSpecFields(s, align, s1)
  }

  /** `parse_format_spec` with the corrected alignment. */
  function ParseFormatSpecCorrected(s: string): (r: PResult<FormatSpec>)
    ensures r.Parsed? && s == SpecText(r.value) + r.rest
  {
    var (align, s1) := OptAlignCorrected(s);
    ParseSpecFields(s, align, s1)
  }

  /** The fields after the alignment, then the type. */
  function ParseSpecFields(s: string, align: Option<Align>, s1: string): (r: PResult<FormatSpec>)
    requires s == AlignPart(align) + s1
    ensures r.Parsed? && r.value.align == align && s == SpecText(r.value) + r.rest
  {
    var (sign, s2) := OptSign(s1);
    var (pretty, s3) := Flag(s2, '#');
    var (zeroPadded, s4) := Flag(s3, '0');
    var (width, s5) := OptCount(s4);
    var (precision, s6) := OptPrecision(s5);
    var formatType := ParseFormatType(s6);
    var fs := FormatSpec(align, sign, pretty, zeroPadded, width, precision, formatType.value);
    SpecChain(fs, s, s1, s2, s3, s4, s5, s6, formatType.rest);
    Parsed(fs, formatType.rest)
  }

  function OptAlign(s: string): (r: (Option<Align>, string))
    ensures s == AlignPart(r.0) + r.1
  {
    var p := ParseAlign(s);
    if p.Parsed? then (Some(p.value), p.rest) else (None, s)
  }

  function OptAlignCorrected(s: string): (r: (Option<Align>, string))
    ensures s == AlignPart(r.0) + r.1
  {
    var p := ParseAlignCorrected(s);
    if p.Parsed? then (Some(p.value), p.rest) else (None, s)
  }

  function OptSign(s: string): (r: (Option<char>, string))
    ensures s == SignPart(r.0) + r.1
  {
    var p := ParseSign(s);
    if p.Parsed? then (Some(p.value), p.rest) else (None, s)
  }

  function OptCount(s: string): (r: (Option<Count>, string))
    ensures s == WidthPart(r.0) + r.1
  {
    var p := ParseCount(s);
    if p.Parsed? then (Some(p.value), p.rest) else (None, s)
  }

  function OptPrecision(s: string): (r: (Option<Precision>, string))
    ensures s == PrecisionPart(r.0) + r.1
  {
    var p := ParsePrecision(s);
    if p.Parsed? then (Some(p.value), p.rest) else (None, s)
  }

  function OptArgument(s: string): (r: (Option<Argument>, string))
    ensures s == ArgumentPart(r.0) + r.1
  {
    var p := ParseArgument(s);
    if p.Parsed? then (Some(p.value), p.rest) else (None, s)
  }

  function OptSpecChunk(s: string): (r: (Option<FormatSpec>, string))
    ensures s == SpecPart(r.0) + r.1
  {
    var p := ParseSpecChunk(s);
    if p.Parsed? then (Some(p.value), p.rest) else (None, s)
  }

  /** The seven fields' texts, each followed by the rest, add up to the
      spec's text followed by the rest. */
  lemma SpecChain(fs: FormatSpec, s: string, s1: string, s2: string, s3: string,
                  s4: string, s5: string, s6: string, s7: string)
    requires s == AlignPart(fs.align) + s1
    requires s1 == SignPart(fs.sign) + s2
    requires s2 == FlagPart(fs.pretty, '#') + s3
    requires s3 == FlagPart(fs.zeroPadded, '0') + s4
    requires s4 == WidthPart(fs.width) + s5
    requires s5 == PrecisionPart(fs.precision) + s6
    requires s6 == FormatTypeText(fs.formatType) + s7
    ensures s == SpecText(fs) + s7
  {
    Prepend(PrecisionPart(fs.precision), s5, s6, FormatTypeText(fs.formatType), s7);
    Prepend(WidthPart(fs.width), s4, s5, PrecisionTail(fs), s7);
    Prepend(FlagPart(fs.zeroPadded, '0'), s3, s4, WidthTail(fs), s7);
    Prepend(FlagPart(fs.pretty, '#'), s2, s3, PaddedTail(fs), s7);
    Prepend(SignPart(fs.sign), s1, s2, PrettyTail(fs), s7);
    Prepend(AlignPart(fs.align), s, s1, SignTail(fs), s7);
  }

  lemma Prepend(x: string, s: string, t: string, tail: string, rest: string)
    requires s == x + t && t == tail + rest
    ensures s == (x + tail) + rest
  {
  }

  /** `preceded(char(':'), parse_format_spec)`. */
  function ParseSpecChunk(s: string): (r: PResult<FormatSpec>)
    ensures !r.Crash?
    ensures r.Parsed? <==> |s| > 0 && s[0] == ':'
    ensures r.Parsed? ==> s == ":" + SpecText(r.value) + r.rest
  {
    if |s| > 0 && s[0] == ':' then
      var t := s[1..];
      var r := ParseFormatSpec(t);
      ColonJoin(s, SpecText(r.value), r.rest);
      r
    else NoMatch
  }

  lemma ColonJoin(s: string, body: string, rest: string)
    requires |s| > 0 && s[1..] == body + rest
    ensures s == [s[0]] + body + rest
  {
    assert s == [s[0]] + s[1..];
  }

  /** `parse_template`: `{`, an optional argument, an optional `:` and
      spec, `}`. */
  function ParseTemplate(s: string): (r: PResult<Format>)
    ensures !r.Crash?
    ensures r.Parsed? ==> s == FormatText(r.value) + r.rest
  {
    if |s| > 0 && s[0] == '{' then
      var (argument, s1) := OptArgument(s[1..]);
      var (spec, s2) := OptSpecChunk(s1);
      if |s2| > 0 && s2[0] == '}' then
        var f := Format(argument, spec);
        BraceJoin(s, ArgumentPart(argument), s1, SpecPart(spec), s2);
        Parsed(f, s2[1..])
      else NoMatch
    else NoMatch
  }

  lemma BraceJoin(s: string, a: string, s1: string, b: string, s2: string)
    requires |s| > 0 && s[0] == '{' && s[1..] == a + s1 && s1 == b + s2
    requires |s2| > 0 && s2[0] == '}'
    ensures s == "{" + a + b + "}" + s2[1..]
  {
    assert s == [s[0]] + s[1..];
    assert s2 == [s2[0]] + s2[1..];
  }

  /** `parse_template_escape`: exactly a leading `{{`. */
  function ParseTemplateEscape(s: string): (r: PResult<string>)
    ensures !r.Crash?
    ensures r.Parsed? <==> StartsWith(s, "{{")
    ensures r.Parsed? ==> r.value == "{{" && s == "{{" + r.rest
  {
    if StartsWith(s, "{{") then
      assert s == "{{" + s[2..];
      Parsed("{{", s[2..])
    else NoMatch
  }

  // ------------------------------------------------------ well-formed

  predicate ValidArgument(a: Argument) {
    match a
    case ArgumentInteger(d) => IsDigits(d)
    case ArgumentIdentifier(n) => IsIdentifier(n) && !IsDigitChar(n[0])
  }

  predicate ValidCount(c: Count) {
    match c
    case CountInteger(d) => IsDigits(d)
    case CountParameter(p) => IsIdentifier(p.name) && !IsDigitChar(p.name[0])
  }

  predicate ValidPrecision(p: Precision) {
    match p
    case PrecisionNext => true
    case PrecisionCount(c) => ValidCount(c) && (c.CountParameter? ==> c.parameter.name[0] != '*')
  }

  /** An alignment `parse_align` reads back: a fill other than `}`, then
      the position. */
  predicate ValidAlign(a: Align) {
    a.fill.Some? && a.fill.value != '}' && IsAlignChar(a.position)
  }

  /** An alignment the corrected parser reads back: the fill may be
      absent. */
  predicate ValidAlignCorrected(a: Align) {
    IsAlignChar(a.position) && (a.fill.Some? ==> a.fill.value != '}')
  }

  /** An identifier type that the debug alternative does not claim. */
  predicate ValidFormatType(t: FormatType) {
    t.FormatIdentifier? ==>
      IsIdentifier(t.name) && t.name[0] != '?' && !StartsWith(t.name, "x?") && !StartsWith(t.name, "X?")
  }

  /** `t` starts with `c`. */
  predicate Leads(t: string, c: char) {
    |t| > 0 && t[0] == c
  }

  predicate LeadsWithDigit(t: string) {
    |t| > 0 && IsDigitChar(t[0])
  }

  /** The text after the alignment cannot be read as (part of) one, by
      either parser; with no alignment this rules out more than `parse_align`
      alone needs. */
  predicate AlignBoundary(a: Option<Align>, t: string) {
    && (a.None? ==> !(|t| > 0 && IsAlignChar(t[0])) && !(|t| > 1 && IsAlignChar(t[1])))
    && (a.Some? && a.value.fill.None? ==> !(|t| > 0 && IsAlignChar(t[0])))
  }

  /** The text after the width cannot be read as (more of) a width. */
  predicate WidthBoundary(w: Option<Count>, t: string) {
    && (w.None? ==> !LeadsWithDigit(t) && '$' !in t)
    && (w.Some? && w.value.CountInteger? ==> !LeadsWithDigit(t))
  }

  /** The type cannot be read as (more of) a precision. */
  predicate PrecisionBoundary(p: Option<Precision>, t: string) {
    && (p.None? ==> !Leads(t, '.'))
    && (p.Some? && p.value.PrecisionCount? && p.value.count.CountInteger? ==> !LeadsWithDigit(t))
  }

  /** A spec guaranteed to read back as itself: every field valid, and no
      absent or greedy field able to claim the text after it. This is
      sufficient, not necessary: the boundaries rule out more than the
      parser needs. */
  predicate ValidSpec(fs: FormatSpec) {
    (fs.align.Some? ==> ValidAlign(fs.align.value)) && FieldsValid(fs)
  }

  /** A spec the corrected parser is guaranteed to read back. */
  predicate ValidSpecCorrected(fs: FormatSpec) {
    (fs.align.Some? ==> ValidAlignCorrected(fs.align.value)) && FieldsValid(fs)
  }

  /** Everything but the alignment itself valid, and no absent or greedy
      field able to claim the text after it. */
  predicate FieldsValid(fs: FormatSpec) {
    && (fs.sign.Some? ==> fs.sign.value == '+' || fs.sign.value == '-')
    && (fs.width.Some? ==> ValidCount(fs.width.value))
    && (fs.precision.Some? ==> ValidPrecision(fs.precision.value))
    && ValidFormatType(fs.formatType)
    && AlignBoundary(fs.align, SignTail(fs))
    && (fs.sign.None? ==> !Leads(PrettyTail(fs), '+') && !Leads(PrettyTail(fs), '-'))
    && (!fs.pretty ==> !Leads(PaddedTail(fs), '#'))
    && (!fs.zeroPadded ==> !Leads(WidthTail(fs), '0'))
    && WidthBoundary(fs.width, PrecisionTail(fs))
    && PrecisionBoundary(fs.precision, FormatTypeText(fs.formatType))
  }

  predicate ValidFormat(f: Format) {
    && (f.argument.Some? ==> ValidArgument(f.argument.value))
    && (f.formatSpec.Some? ==> ValidSpec(f.formatSpec.value))
  }

  // ------------------------------------------------------- round trip

  lemma {:induction false} LiteralSpanOfRun(run: string, rest: string)
    requires forall i :: 0 <= i < |run| ==> IsLiteralChar(run[i])
    requires |rest| == 0 || !IsLiteralChar(rest[0])
    ensures LiteralSpan(run + rest) == |run|
    decreases |run|
  {
    if |run| == 0 {
      assert run + rest == rest;
    } else {
      assert (run + rest)[1..] == run[1..] + rest;
      LiteralSpanOfRun(run[1..], rest);
    }
  }

  /** An identifier followed by a character it cannot hold is read back. */
  lemma IdentifierRoundTrip(name: string, rest: string)
    requires IsIdentifier(name) && (|rest| == 0 || !IsLiteralChar(rest[0]))
    ensures ParseIdentifier(name + rest) == Parsed(name, rest)
  {
    LiteralSpanOfRun(name, rest);
    assert (name + rest)[..|name|] == name;
  }

  /** The identifier read from `t` followed by a `}` ends inside `t`. */
  lemma {:induction false} LiteralSpanStops(t: string, rest: string)
    requires Leads(rest, '}')
    ensures LiteralSpan(t + rest) <= |t|
    decreases |t|
  {
    if |t| == 0 {
      assert t + rest == rest;
    } else {
      assert (t + rest)[1..] == t[1..] + rest;
      LiteralSpanStops(t[1..], rest);
    }
  }

  /** `?`, `x?` and `X?` read back as the debug type they print from. */
  lemma DebugRoundTrip(d: DebugType, rest: string)
    ensures ParseDebug(DebugText(d) + rest) == Parsed(d, rest)
  {
    var s := DebugText(d) + rest;
    match d
    case DebugDefault => assert s[1..] == rest;
    case DebugLowercaseHex => assert s[..2] == "x?" && s[2..] == rest;
    case DebugUppercaseHex => assert s[..2] == "X?" && s[2..] == rest;
  }

  lemma ArgumentRoundTrip(a: Argument, rest: string)
    requires ValidArgument(a)
    requires Leads(rest, ':') || Leads(rest, '}')
    ensures ParseArgument(ArgumentText(a) + rest) == Parsed(a, rest)
  {
    match a
    case ArgumentInteger(d) => DigitsRoundTrip(d, rest);
    case ArgumentIdentifier(n) =>
      assert (n + rest)[0] == n[0];
      IdentifierRoundTrip(n, rest);
  }

  lemma CountRoundTrip(c: Count, rest: string)
    requires ValidCount(c)
    requires c.CountInteger? ==> !LeadsWithDigit(rest)
    ensures ParseCount(CountText(c) + rest) == Parsed(c, rest)
  {
    match c
    case CountInteger(d) => DigitsRoundTrip(d, rest);
    case CountParameter(p) =>
      var s := CountText(c) + rest;
      assert s == p.name + ("$" + rest);
      assert s[0] == p.name[0];
      IdentifierRoundTrip(p.name, "$" + rest);
  }

  lemma PrecisionRoundTrip(p: Precision, rest: string)
    requires ValidPrecision(p)
    requires p.PrecisionCount? && p.count.CountInteger? ==> !LeadsWithDigit(rest)
    ensures ParsePrecision("." + PrecisionText(p) + rest) == Parsed(p, rest)
  {
    var s := "." + PrecisionText(p) + rest;
    assert s[1..] == PrecisionText(p) + rest;
    match p
    case PrecisionNext =>
      assert s[1..][1..] == rest;
    case PrecisionCount(c) =>
      assert s[1..][0] == CountText(c)[0] by {
        if c.CountParameter? { assert CountText(c)[0] == c.parameter.name[0]; }
      }
      CountRoundTrip(c, rest);
  }

  /** An alignment with a fill is read back as itself, whatever follows
      it. */
  lemma AlignRoundTrip(a: Align, rest: string)
    requires ValidAlign(a)
    ensures ParseAlign(AlignText(a) + rest) == Parsed(a, rest)
  {
    assert AlignText(a) + rest == [a.fill.value, a.position] + rest;
  }

  /** With the fill optional, the alignment, fill or no fill, is read back
      when the text after it cannot extend it. */
  lemma AlignRoundTripCorrected(a: Align, rest: string)
    requires ValidAlignCorrected(a)
    requires a.fill.None? ==> !(|rest| > 0 && IsAlignChar(rest[0]))
    ensures ParseAlignCorrected(AlignText(a) + rest) == Parsed(a, rest)
  {
    var s := AlignText(a) + rest;
    if a.fill.Some? {
      assert s == [a.fill.value, a.position] + rest;
    } else {
      assert s == [a.position] + rest;
    }
  }

  lemma AlignStep(a: Option<Align>, t: string, rest: string)
    requires a.Some? ==> ValidAlign(a.value)
    requires AlignBoundary(a, t) && Leads(rest, '}')
    ensures OptAlign(AlignPart(a) + (t + rest)) == (a, t + rest)
  {
    if a.Some? {
      AlignRoundTrip(a.value, t + rest);
    } else {
      assert AlignPart(a) + (t + rest) == t + rest;
      if |t| == 1 {
        assert (t + rest)[1] == '}';
      }
    }
  }

  lemma AlignStepCorrected(a: Option<Align>, t: string, rest: string)
    requires a.Some? ==> ValidAlignCorrected(a.value)
    requires AlignBoundary(a, t) && Leads(rest, '}')
    ensures OptAlignCorrected(AlignPart(a) + (t + rest)) == (a, t + rest)
  {
    if a.Some? {
      AlignRoundTripCorrected(a.value, t + rest);
    } else {
      assert AlignPart(a) + (t + rest) == t + rest;
      if |t| == 1 {
        assert (t + rest)[1] == '}';
      }
    }
  }

  lemma SignStep(c: Option<char>, t: string, rest: string)
    requires c.Some? ==> c.value == '+' || c.value == '-'
    requires c.None? ==> !Leads(t, '+') && !Leads(t, '-')
    requires Leads(rest, '}')
    ensures OptSign(SignPart(c) + (t + rest)) == (c, t + rest)
  {
    if c.Some? {
      assert (SignPart(c) + (t + rest))[1..] == t + rest;
    } else {
      assert SignPart(c) + (t + rest) == t + rest;
    }
  }

  lemma FlagStep(present: bool, marker: char, t: string, rest: string)
    requires !present ==> !Leads(t, marker)
    requires Leads(rest, '}') && marker != '}'
    ensures Flag(FlagPart(present, marker) + (t + rest), marker) == (present, t + rest)
  {
    if present {
      assert (FlagPart(present, marker) + (t + rest))[1..] == t + rest;
    } else {
      assert FlagPart(present, marker) + (t + rest) == t + rest;
    }
  }

  lemma WidthStep(w: Option<Count>, t: string, rest: string)
    requires w.Some? ==> ValidCount(w.value)
    requires WidthBoundary(w, t) && Leads(rest, '}')
    ensures OptCount(WidthPart(w) + (t + rest)) == (w, t + rest)
  {
    if w.Some? {
      if w.value.CountInteger? && |t| == 0 {
        assert t + rest == rest;
      }
      CountRoundTrip(w.value, t + rest);
    } else {
      var s := t + rest;
      assert WidthPart(w) + s == s;
      LiteralSpanStops(t, rest);
      var n := LiteralSpan(s);
      if n < |t| {
        assert s[n] == t[n];
      } else if n < |s| {
        assert s[n] == rest[0];
      }
    }
  }

  lemma PrecisionStep(p: Option<Precision>, t: string, rest: string)
    requires p.Some? ==> ValidPrecision(p.value)
    requires PrecisionBoundary(p, t) && Leads(rest, '}')
    ensures OptPrecision(PrecisionPart(p) + (t + rest)) == (p, t + rest)
  {
    if p.Some? {
      assert PrecisionPart(p) + (t + rest) == "." + PrecisionText(p.value) + (t + rest);
      if |t| == 0 {
        assert t + rest == rest;
      }
      PrecisionRoundTrip(p.value, t + rest);
    } else {
      assert PrecisionPart(p) + (t + rest) == t + rest;
    }
  }

  lemma TypeStep(ft: FormatType, rest: string)
    requires ValidFormatType(ft) && Leads(rest, '}')
    ensures ParseFormatType(FormatTypeText(ft) + rest) == Parsed(ft, rest)
  {
    var s := FormatTypeText(ft) + rest;
    match ft
    case FormatEmpty =>
      assert s == rest;
    case FormatDebug(d) =>
      DebugRoundTrip(d, rest);
    case FormatIdentifier(n) =>
      assert s[0] == n[0];
      assert !StartsWith(s, "x?") by { if |n| > 1 { assert s[..2] == n[..2]; } else { assert s[1] == '}'; } }
      assert !StartsWith(s, "X?") by { if |n| > 1 { assert s[..2] == n[..2]; } else { assert s[1] == '}'; } }
      IdentifierRoundTrip(n, rest);
  }

  /** The text of a well-formed spec, followed by the closing `}`, reads
      back as the same spec. */
  lemma SpecRoundTrip(fs: FormatSpec, rest: string)
    requires ValidSpec(fs) && Leads(rest, '}')
    ensures ParseFormatSpec(SpecText(fs) + rest) == Parsed(fs, rest)
  {
    AlignField(fs, rest);
    MiddleSteps(fs, rest);
    BackSteps(fs, rest);
    SpecOfSteps(SpecText(fs) + rest, fs, SignTail(fs) + rest, PrettyTail(fs) + rest,
      PaddedTail(fs) + rest, WidthTail(fs) + rest, PrecisionTail(fs) + rest,
      FormatTypeText(fs.formatType) + rest, rest);
  }

  /** With the fill optional, the text of a well-formed spec, alignment
      without fill included, reads back as the same spec. */
  lemma SpecRoundTripCorrected(fs: FormatSpec, rest: string)
    requires ValidSpecCorrected(fs) && Leads(rest, '}')
    ensures ParseFormatSpecCorrected(SpecText(fs) + rest) == Parsed(fs, rest)
  {
    AlignFieldCorrected(fs, rest);
    MiddleSteps(fs, rest);
    BackSteps(fs, rest);
    FieldsOfSteps(SpecText(fs) + rest, fs, SignTail(fs) + rest, PrettyTail(fs) + rest,
      PaddedTail(fs) + rest, WidthTail(fs) + rest, PrecisionTail(fs) + rest,
      FormatTypeText(fs.formatType) + rest, rest);
  }

  /** `parse_format_spec` is the composition of its field parsers. */
  lemma SpecOfSteps(s: string, fs: FormatSpec, s1: string, s2: string, s3: string,
                    s4: string, s5: string, s6: string, s7: string)
    requires OptAlign(s) == (fs.align, s1)
    requires OptSign(s1) == (fs.sign, s2)
    requires Flag(s2, '#') == (fs.pretty, s3)
    requires Flag(s3, '0') == (fs.zeroPadded, s4)
    requires OptCount(s4) == (fs.width, s5)
    requires OptPrecision(s5) == (fs.precision, s6)
    requires ParseFormatType(s6) == Parsed(fs.formatType, s7)
    ensures ParseFormatSpec(s) == Parsed(fs, s7)
  {
    FieldsOfSteps(s, fs, s1, s2, s3, s4, s5, s6, s7);
  }

  /** The fields after the alignment are the composition of their
      parsers. */
  lemma FieldsOfSteps(s: string, fs: FormatSpec, s1: string, s2: string, s3: string,
                      s4: string, s5: string, s6: string, s7: string)
    requires s == AlignPart(fs.align) + s1
    requires OptSign(s1) == (fs.sign, s2)
    requires Flag(s2, '#') == (fs.pretty, s3)
    requires Flag(s3, '0') == (fs.zeroPadded, s4)
    requires OptCount(s4) == (fs.width, s5)
    requires OptPrecision(s5) == (fs.precision, s6)
    requires ParseFormatType(s6) == Parsed(fs.formatType, s7)
    ensures ParseSpecFields(s, fs.align, s1) == Parsed(fs, s7)
  {
  }

  lemma MiddleSteps(fs: FormatSpec, rest: string)
    requires FieldsValid(fs) && Leads(rest, '}')
    ensures OptSign(SignTail(fs) + rest) == (fs.sign, PrettyTail(fs) + rest)
    ensures Flag(PrettyTail(fs) + rest, '#') == (fs.pretty, PaddedTail(fs) + rest)
    ensures Flag(PaddedTail(fs) + rest, '0') == (fs.zeroPadded, WidthTail(fs) + rest)
  {
    SignField(fs, rest);
    PrettyField(fs, rest);
    PaddedField(fs, rest);
  }

  lemma BackSteps(fs: FormatSpec, rest: string)
    requires FieldsValid(fs) && Leads(rest, '}')
    ensures OptCount(WidthTail(fs) + rest) == (fs.width, PrecisionTail(fs) + rest)
    ensures OptPrecision(PrecisionTail(fs) + rest) == (fs.precision, FormatTypeText(fs.formatType) + rest)
    ensures ParseFormatType(FormatTypeText(fs.formatType) + rest) == Parsed(fs.formatType, rest)
  {
    WidthField(fs, rest);
    PrecisionField(fs, rest);
    TypeStep(fs.formatType, rest);
  }

  lemma AlignField(fs: FormatSpec, rest: string)
    requires fs.align.Some? ==> ValidAlign(fs.align.value)
    requires AlignBoundary(fs.align, SignTail(fs)) && Leads(rest, '}')
    ensures OptAlign(SpecText(fs) + rest) == (fs.align, SignTail(fs) + rest)
  {
    var t := SignTail(fs);
    assert SpecText(fs) + rest == AlignPart(fs.align) + (t + rest);
    AlignStep(fs.align, t, rest);
  }

  lemma AlignFieldCorrected(fs: FormatSpec, rest: string)
    requires fs.align.Some? ==> ValidAlignCorrected(fs.align.value)
    requires AlignBoundary(fs.align, SignTail(fs)) && Leads(rest, '}')
    ensures OptAlignCorrected(SpecText(fs) + rest) == (fs.align, SignTail(fs) + rest)
  {
    var t := SignTail(fs);
    assert SpecText(fs) + rest == AlignPart(fs.align) + (t + rest);
    AlignStepCorrected(fs.align, t, rest);
  }

  lemma SignField(fs: FormatSpec, rest: string)
    requires fs.sign.Some? ==> fs.sign.value == '+' || fs.sign.value == '-'
    requires fs.sign.None? ==> !Leads(PrettyTail(fs), '+') && !Leads(PrettyTail(fs), '-')
    requires Leads(rest, '}')
    ensures OptSign(SignTail(fs) + rest) == (fs.sign, PrettyTail(fs) + rest)
  {
    var t := PrettyTail(fs);
    assert SignTail(fs) + rest == SignPart(fs.sign) + (t + rest);
    SignStep(fs.sign, t, rest);
  }

  lemma PrettyField(fs: FormatSpec, rest: string)
    requires !fs.pretty ==> !Leads(PaddedTail(fs), '#')
    requires Leads(rest, '}')
    ensures Flag(PrettyTail(fs) + rest, '#') == (fs.pretty, PaddedTail(fs) + rest)
  {
    var t := PaddedTail(fs);
    assert PrettyTail(fs) + rest == FlagPart(fs.pretty, '#') + (t + rest);
    FlagStep(fs.pretty, '#', t, rest);
  }

  lemma PaddedField(fs: FormatSpec, rest: string)
    requires !fs.zeroPadded ==> !Leads(WidthTail(fs), '0')
    requires Leads(rest, '}')
    ensures Flag(PaddedTail(fs) + rest, '0') == (fs.zeroPadded, WidthTail(fs) + rest)
  {
    var t := WidthTail(fs);
    assert PaddedTail(fs) + rest == FlagPart(fs.zeroPadded, '0') + (t + rest);
    FlagStep(fs.zeroPadded, '0', t, rest);
  }

  lemma WidthField(fs: FormatSpec, rest: string)
    requires fs.width.Some? ==> ValidCount(fs.width.value)
    requires WidthBoundary(fs.width, PrecisionTail(fs)) && Leads(rest, '}')
    ensures OptCount(WidthTail(fs) + rest) == (fs.width, PrecisionTail(fs) + rest)
  {
    var t := PrecisionTail(fs);
    assert WidthTail(fs) + rest == WidthPart(fs.width) + (t + rest);
    WidthStep(fs.width, t, rest);
  }

  lemma PrecisionField(fs: FormatSpec, rest: string)
    requires fs.precision.Some? ==> ValidPrecision(fs.precision.value)
    requires PrecisionBoundary(fs.precision, FormatTypeText(fs.formatType)) && Leads(rest, '}')
    ensures OptPrecision(PrecisionTail(fs) + rest) == (fs.precision, FormatTypeText(fs.formatType) + rest)
  {
    var t := FormatTypeText(fs.formatType);
    assert PrecisionTail(fs) + rest == PrecisionPart(fs.precision) + (t + rest);
    PrecisionStep(fs.precision, t, rest);
  }

  /** The text of a well-formed placeholder reads back as the same
      placeholder, whatever follows it. */
  lemma TemplateRoundTrip(f: Format, rest: string)
    requires ValidFormat(f)
    ensures ParseTemplate(FormatText(f) + rest) == Parsed(f, rest)
  {
    var afterSpec := "}" + rest;
    var afterArgument := SpecPart(f.formatSpec) + afterSpec;
    var inner := ArgumentPart(f.argument) + afterArgument;
    FormatTextSplit(f, rest);
    ArgumentField(f.argument, afterArgument, f.formatSpec, afterSpec);
    SpecChunkField(f.formatSpec, afterSpec);
    TemplateOfSteps("{" + inner, inner, f, afterArgument, afterSpec, rest);
  }

  /** The printer loses nothing: two well-formed placeholders that print
      the same are the same placeholder. */
  lemma FormatTextInjective(f: Format, g: Format)
    requires ValidFormat(f) && ValidFormat(g)
    requires FormatText(f) == FormatText(g)
    ensures f == g
  {
    TemplateRoundTrip(f, "");
    TemplateRoundTrip(g, "");
  }

  /** Two well-formed specs that print the same are the same spec. */
  lemma SpecTextInjective(fs: FormatSpec, gs: FormatSpec)
    requires ValidSpec(fs) && ValidSpec(gs)
    requires SpecText(fs) == SpecText(gs)
    ensures fs == gs
  {
    SpecRoundTrip(fs, "}");
    SpecRoundTrip(gs, "}");
  }

  lemma FormatTextSplit(f: Format, rest: string)
    ensures FormatText(f) + rest
         == "{" + (ArgumentPart(f.argument) + (SpecPart(f.formatSpec) + ("}" + rest)))
  {
  }

  /** `parse_template` is the composition of its parts. */
  lemma TemplateOfParts(s: string, f: Format, s1: string, s2: string)
    requires Leads(s, '{')
    requires OptArgument(s[1..]) == (f.argument, s1)
    requires OptSpecChunk(s1) == (f.formatSpec, s2)
    requires Leads(s2, '}')
    ensures ParseTemplate(s) == Parsed(f, s2[1..])
  {
  }

  lemma TemplateOfSteps(s: string, inner: string, f: Format, s1: string, s2: string, rest: string)
    requires s == "{" + inner
    requires OptArgument(inner) == (f.argument, s1)
    requires OptSpecChunk(s1) == (f.formatSpec, s2)
    requires s2 == "}" + rest
    ensures ParseTemplate(s) == Parsed(f, rest)
  {
    assert s[1..] == inner;
    assert s2[1..] == rest;
    TemplateOfParts(s, f, s1, s2);
  }

  lemma ArgumentField(a: Option<Argument>, t: string, fs: Option<FormatSpec>, afterSpec: string)
    requires a.Some? ==> ValidArgument(a.value)
    requires t == SpecPart(fs) + afterSpec && Leads(afterSpec, '}')
    ensures OptArgument(ArgumentPart(a) + t) == (a, t)
  {
    SpecPartLeads(fs, afterSpec);
    if a.Some? {
      ArgumentRoundTrip(a.value, t);
    } else {
      assert ArgumentPart(a) + t == t;
      ArgumentStops(t);
    }
  }

  /** What follows the argument starts with `:` or `}`. */
  lemma SpecPartLeads(fs: Option<FormatSpec>, afterSpec: string)
    requires Leads(afterSpec, '}')
    ensures Leads(SpecPart(fs) + afterSpec, ':') || Leads(SpecPart(fs) + afterSpec, '}')
  {
    if fs.Some? {
      assert (SpecPart(fs) + afterSpec)[0] == ':';
    } else {
      assert SpecPart(fs) + afterSpec == afterSpec;
    }
  }

  /** No argument starts at `:` or `}`. */
  lemma ArgumentStops(t: string)
    requires Leads(t, ':') || Leads(t, '}')
    ensures ParseArgument(t) == NoMatch
  {
    assert t[0] in INVALID_LITS;
  }

  lemma SpecChunkField(fs: Option<FormatSpec>, afterSpec: string)
    requires fs.Some? ==> ValidSpec(fs.value)
    requires Leads(afterSpec, '}')
    ensures OptSpecChunk(SpecPart(fs) + afterSpec) == (fs, afterSpec)
  {
    if fs.Some? {
      var body := SpecText(fs.value) + afterSpec;
      SpecRoundTrip(fs.value, afterSpec);
      ColonAhead(SpecPart(fs), SpecText(fs.value), afterSpec);
      ChunkOfSpec(":" + body, body, fs.value, afterSpec);
    } else {
      assert SpecPart(fs) + afterSpec == afterSpec;
    }
  }

  lemma ColonAhead(part: string, text: string, afterSpec: string)
    requires part == ":" + text
    ensures part + afterSpec == ":" + (text + afterSpec)
  {
  }

  // ------------------------------------------------------- variables

  /** A bare named placeholder `{name}` reads as that argument with no
      spec, and names exactly that variable. */
  lemma NamedPlaceholder(name: string, rest: string)
    requires IsIdentifier(name) && !IsDigitChar(name[0])
    ensures ParseTemplate("{" + name + "}" + rest)
              == Parsed(Format(Some(ArgumentIdentifier(name)), None), rest)
    ensures CollectVariables(Format(Some(ArgumentIdentifier(name)), None)) == {name}
  {
    var f := Format(Some(ArgumentIdentifier(name)), None);
    assert FormatText(f) == "{" + name + "}";
    TemplateRoundTrip(f, rest);
  }

  /** Positional arguments, integer counts and `*` name no variable; the
      variables are exactly the argument's name and the named counts. */
  lemma VariablesAreNames(f: Format, v: string)
    ensures v in CollectVariables(f) <==>
      || (f.argument.Some? && f.argument.value == ArgumentIdentifier(v))
      || (f.formatSpec.Some? && f.formatSpec.value.width == Some(CountParameter(Parameter(v))))
      || (f.formatSpec.Some? && f.formatSpec.value.precision == Some(PrecisionCount(CountParameter(Parameter(v)))))
  {
  }

  /** Every variable a placeholder names appears in its text. */
  lemma VariablesOccur(f: Format, v: string)
    requires v in CollectVariables(f)
    ensures Occurs(v, FormatText(f))
  {
    var argument := ArgumentPart(f.argument);
    var spec := SpecPart(f.formatSpec);
    if f.argument.Some? && f.argument.value == ArgumentIdentifier(v) {
      OccursIn(v, "{", spec + "}", FormatText(f));
    } else {
      var fs := f.formatSpec.value;
      SpecVariablesOccur(fs, v);
      OccursPrefix(v, SpecText(fs), ":");
      OccursExtend(v, spec, "{" + argument, "}");
    }
  }

  lemma SpecVariablesOccur(fs: FormatSpec, v: string)
    requires v in SpecVariables(fs)
    ensures Occurs(v, SpecText(fs))
  {
    if fs.width == Some(CountParameter(Parameter(v))) {
      OccursIn(v, "", "$" + PrecisionTail(fs), WidthTail(fs));
    } else {
      OccursIn(v, ".", "$" + FormatTypeText(fs.formatType), PrecisionTail(fs));
      OccursPrefix(v, PrecisionTail(fs), WidthPart(fs.width));
    }
    OccursPrefix(v, WidthTail(fs), FlagPart(fs.zeroPadded, '0'));
    OccursPrefix(v, PaddedTail(fs), FlagPart(fs.pretty, '#'));
    OccursPrefix(v, PrettyTail(fs), SignPart(fs.sign));
    OccursPrefix(v, SignTail(fs), AlignPart(fs.align));
  }

  lemma OccursIn(pattern: string, before: string, after: string, s: string)
    requires s == before + pattern + after
    ensures Occurs(pattern, s)
  {
    assert s[|before|..][..|pattern|] == pattern;
  }

  lemma OccursPrefix(pattern: string, s: string, before: string)
    requires Occurs(pattern, s)
    ensures Occurs(pattern, before + s)
  {
    OccursExtend(pattern, s, before, "");
    assert before + s + "" == before + s;
  }

  /** `{:.p$}` is meant as a precision taken from `p`, but `.` is an
      identifier character, so the parser reads a width parameter named
      `.p` and collects `.p` as the variable. */
  lemma PrecisionParameterReadAsWidth()
    ensures ParseTemplate("{:.p$}") == Parsed(
      Format(None, Some(FormatSpec(None, None, false, false,
        Some(CountParameter(Parameter(".p"))), None, FormatEmpty))), "")
    ensures CollectVariables(ParseTemplate("{:.p$}").value) == {".p"}
  {
    ReadAsWidth("{:.p$}", ":.p$}", WidthOnly(".p"));
  }

  lemma ReadAsWidth(s: string, chunk: string, fs: FormatSpec)
    requires s == "{:.p$}" && chunk == ":.p$}"
    requires fs == WidthOnly(".p")
    ensures ParseTemplate(s) == Parsed(Format(None, Some(fs)), "")
  {
    assert s[1..] == chunk;
    ArgumentStops(chunk);
    DotNameWidth(chunk);
    TemplateOfParts(s, Format(None, Some(fs)), chunk, "}");
  }

  lemma DotNameWidth(chunk: string)
    requires chunk == ":.p$}"
    ensures OptSpecChunk(chunk) == (Some(WidthOnly(".p")), "}")
  {
    assert chunk == ":" + ".p" + "$" + "}";
    WidthParameterOnly(".p", "}");
  }

  /** The spec that holds only a width parameter. */
  function WidthOnly(name: string): FormatSpec {
    FormatSpec(None, None, false, false, Some(CountParameter(Parameter(name))), None, FormatEmpty)
  }

  /** A spec chunk `:name$` whose name starts with no alignment, sign,
      flag or digit is a width parameter. */
  lemma WidthParameterOnly(name: string, rest: string)
    requires IsIdentifier(name) && |name| > 1
    requires !IsAlignChar(name[0]) && !IsAlignChar(name[1]) && name[0] !in "+-#0" && !IsDigitChar(name[0])
    requires Leads(rest, '}')
    ensures OptSpecChunk(":" + name + "$" + rest) == (Some(WidthOnly(name)), rest)
  {
    var chunk := ":" + name + "$" + rest;
    var t := name + ("$" + rest);
    assert chunk == ":" + t;
    WidthOnlySpec(name, rest, t);
    ChunkOfSpec(chunk, t, WidthOnly(name), rest);
  }

  lemma ChunkOfSpec(chunk: string, t: string, fs: FormatSpec, rest: string)
    requires chunk == ":" + t && ParseFormatSpec(t) == Parsed(fs, rest)
    ensures OptSpecChunk(chunk) == (Some(fs), rest)
  {
    assert chunk[1..] == t;
  }

  lemma WidthOnlySpec(name: string, rest: string, t: string)
    requires IsIdentifier(name) && |name| > 1
    requires !IsAlignChar(name[0]) && !IsAlignChar(name[1]) && name[0] !in "+-#0" && !IsDigitChar(name[0])
    requires Leads(rest, '}')
    requires t == name + ("$" + rest)
    ensures ParseFormatSpec(t) == Parsed(WidthOnly(name), rest)
  {
    WidthOnlyFront(name, rest, t);
    WidthOnlyCount(name, rest, t);
    NothingAfterWidth(rest);
    SpecOfSteps(t, WidthOnly(name), t, t, t, t, rest, rest, rest);
  }

  lemma WidthOnlyFront(name: string, rest: string, t: string)
    requires |name| > 1
    requires !IsAlignChar(name[0]) && !IsAlignChar(name[1]) && name[0] !in "+-#0"
    requires t == name + ("$" + rest)
    ensures OptAlign(t) == (None, t) && OptSign(t) == (None, t)
    ensures Flag(t, '#') == (false, t) && Flag(t, '0') == (false, t)
  {
    assert t[0] == name[0] && t[1] == name[1];
    NothingBeforeWidth(t);
  }

  lemma WidthOnlyCount(name: string, rest: string, t: string)
    requires IsIdentifier(name) && !IsDigitChar(name[0])
    requires Leads(rest, '}')
    requires t == name + ("$" + rest)
    ensures OptCount(t) == (Some(CountParameter(Parameter(name))), rest)
  {
    CountRoundTrip(CountParameter(Parameter(name)), rest);
    assert CountText(CountParameter(Parameter(name))) + rest == t;
  }

  /** Text that starts with no alignment, sign or flag has none. */
  lemma NothingBeforeWidth(t: string)
    requires |t| > 1 && !IsAlignChar(t[0]) && !IsAlignChar(t[1]) && t[0] !in "+-#0"
    ensures OptAlign(t) == (None, t) && OptSign(t) == (None, t)
    ensures Flag(t, '#') == (false, t) && Flag(t, '0') == (false, t)
  {
    NoAlign(t);
    NoSign(t);
  }

  /** `parse_align` needs an alignment second. */
  lemma NoAlign(t: string)
    requires |t| > 1 && !IsAlignChar(t[1])
    ensures OptAlign(t) == (None, t)
  {
    assert ParseAlign(t) == NoMatch;
  }

  lemma NoSign(t: string)
    requires |t| > 0 && t[0] != '+' && t[0] != '-'
    ensures OptSign(t) == (None, t)
  {
  }

  lemma NothingAfterWidth(t: string)
    requires Leads(t, '}')
    ensures OptPrecision(t) == (None, t) && ParseFormatType(t) == Parsed(FormatEmpty, t)
  {
    assert t[0] in INVALID_LITS;
  }

  // ------------------------------------------------------- alignment

  /** As written, an alignment with no fill is lost: in `<5` the `<` is
      taken as the fill and `5` is no alignment, so the alignment is
      dropped, `5` is no width either, and `{:<5}` reads `<5` as its
      type. The corrected parser reads the alignment and the width. */
  lemma AlignWithoutFillLost()
    ensures ParseAlign("<5") == NoMatch
    ensures ParseAlignCorrected("<5") == Parsed(Align(None, '<'), "5")
    ensures ParseFormatSpec("<5}")
         == Parsed(FormatSpec(None, None, false, false, None, None, FormatIdentifier("<5")), "}")
    ensures ParseFormatSpecCorrected("<5}")
         == Parsed(FormatSpec(Some(Align(None, '<')), None, false, false, Some(CountInteger("5")), None, FormatEmpty), "}")
  {
    assert "<5"[1..] == "5";
    AlignWithoutFillAsType();
    AlignWithoutFillCorrected();
  }

  lemma AlignWithoutFillAsType()
    ensures ParseFormatSpec("<5}")
         == Parsed(FormatSpec(None, None, false, false, None, None, FormatIdentifier("<5")), "}")
  {
    var t := "<5}";
    AsTypeFront(t);
    AsTypeBack(t);
    SpecOfSteps(t, FormatSpec(None, None, false, false, None, None, FormatIdentifier("<5")),
      t, t, t, t, t, t, "}");
  }

  /** `<5}` holds no alignment, sign, flag or width. */
  lemma AsTypeFront(t: string)
    requires t == "<5}"
    ensures OptAlign(t) == (None, t) && OptSign(t) == (None, t)
    ensures Flag(t, '#') == (false, t) && Flag(t, '0') == (false, t)
    ensures OptCount(t) == (None, t)
  {
    NoAlign(t);
    NoSign(t);
    AsTypeNoWidth(t);
  }

  lemma AsTypeNoWidth(t: string)
    requires t == "<5}"
    ensures OptCount(t) == (None, t)
  {
    assert ParseDigits(t) == NoMatch;
    IdentifierRoundTrip("<5", "}");
    assert "<5" + "}" == t;
  }

  /** `<5}` holds no precision, and its type is the identifier `<5`. */
  lemma AsTypeBack(t: string)
    requires t == "<5}"
    ensures OptPrecision(t) == (None, t)
    ensures ParseFormatType(t) == Parsed(FormatIdentifier("<5"), "}")
  {
    IdentifierRoundTrip("<5", "}");
    assert "<5" + "}" == t;
    assert ParseDebug(t) == NoMatch;
  }

  lemma AlignWithoutFillCorrected()
    ensures ParseFormatSpecCorrected("<5}")
         == Parsed(FormatSpec(Some(Align(None, '<')), None, false, false, Some(CountInteger("5")), None, FormatEmpty), "}")
  {
    var fs := FormatSpec(Some(Align(None, '<')), None, false, false, Some(CountInteger("5")), None, FormatEmpty);
    CorrectedReadsBack(fs, "}");
  }

  lemma CorrectedReadsBack(fs: FormatSpec, rest: string)
    requires fs == FormatSpec(Some(Align(None, '<')), None, false, false, Some(CountInteger("5")), None, FormatEmpty)
    requires rest == "}"
    ensures ParseFormatSpecCorrected("<5}") == Parsed(fs, rest)
  {
    assert SpecText(fs) == "<5";
    assert SpecText(fs) + rest == "<5}";
    SpecRoundTripCorrected(fs, rest);
  }
}

=== FILE: texts.dfy ===
/** Sequence and text helpers shared by the archiver, the FOILZ codec and
    the format-literal parser. */
module Texts {
  /** Concatenation regroups freely. */
  lemma Associative<T>(a: seq<T>, b: seq<T>, c: seq<T>)
    ensures a + (b + c) == (a + b) + c
  {
  }

  predicate StartsWith(s: string, prefix: string) {
    |prefix| <= |s| && s[..|prefix|] == prefix
  }

  /** `pattern` occurs somewhere in `s`. */
  predicate Occurs(pattern: string, s: string) {
    exists i | 0 <= i <= |s| :: StartsWith(s[i..], pattern)
  }

  /** An occurrence survives any text put around it. */
  lemma OccursExtend(pattern: string, s: string, before: string, after: string)
    requires Occurs(pattern, s)
    ensures Occurs(pattern, before + s + after)
  {
    var i :| 0 <= i <= |s| && StartsWith(s[i..], pattern);
    var t := before + s + after;
    assert t[|before| + i..][..|pattern|] == s[i..][..|pattern|];
  }
}

=== FILE: wrappers.dfy ===
/** Failure-compatible result types shared by every module of the model. */
module Wrappers {

  /** Rust's `Option<T>`. */
  datatype Option<+T> = None | Some(value: T) {
    predicate IsFailure() {
      None?
    }

    function PropagateFailure<U>(): Option<U>
      requires None?
    {
      None
    }

    function Extract(): T
      requires Some?
    {
      value
    }
  }

  /** Rust's `Result<R, E>`. */
  datatype Result<+R, +E> = Success(value: R) | Failure(error: E) {
    predicate IsFailure() {
      Failure?
    }

    function PropagateFailure<U>(): Result<U, E>
      requires Failure?
    {
      Failure(error)
    }

    function Extract(): R
      requires Success?
    {
      value
    }
  }
}
